=== FILE: README.md ===
# DiffCalc in Dafny

A model of `DiffCalc`, the template class in `src/Engine/diff.h` that compares two
sequences of elements (the lines of two documents, or the characters of two lines) and
produces a difference list. Every block in the list has a kind: `DIFF_MATCH` (common to
both sequences), `DIFF_IN_1` (only in the first) or `DIFF_IN_2` (only in the second). A
block also has an offset and a length. The comparison is Myers' O(ND) algorithm in its
linear-space form, which works as follows:

- `_find_middle_snake` runs a forward and a backward furthest-reaching search on the
  diagonals of the edit graph, until they overlap.
- `_ses` splits the problem at the middle snake found there and recurses. It writes the
  result through `_edit`, which joins runs of one kind into a single block.
- `operator()` skips the common prefix first. For sequences of equal length it compares
  a second time with the sequences exchanged, and keeps whichever result it prefers by
  the number of replacements that `_count_replaces` reports.
- Two optional passes are then meant to redraw the blocks without changing what they say:
  - `_combine_diffs` moves a match behind the difference block whose end repeats it;
  - `_shift_boundaries` moves a difference block down past elements that repeat its start.

The model has these files:

- `blocks.dfy` (module `DiffBlocks`): the block datatypes and `Edited`, the model of
  `_edit`. It also defines what it means for a list to describe two sequences:
  - `Fits`: every block fits the elements at its place;
  - `Covers`: the list describes both sequences completely;
  - `Coalesced`: no two neighbouring blocks share a kind;
  - `NoIn2In1`: no insertion block directly precedes a deletion block;
  - and the replacement count.
- `edit_graph.dfy` (module `EditGraph`): the edit graph, paths with at most e edits, the
  edit distance, and the effect of exchanging the sequences.
- `snakes.dfy` (module `Snakes`): snakes, and the furthest-reaching points of the forward
  and backward searches, defined as functions of the round and the diagonal.
- `middle.dfy` (module `MiddleSnakes`): why the search is right.
  - An overlap in round d gives a script with 2d - 1 or 2d edits.
  - An optimal script always produces an overlap by round ceil(D/2).
  - The snake found splits the problem into two halves.
- `combine.dfy` (module `CombinePass`): the combining pass as a function on the list,
  both as written and as corrected.
- `shift.dfy` (module `ShiftPass`): the boundary-shifting pass as a function on the list,
  both as written and as corrected.
- `diff_calc.dfy` (module `Diff`): the class `DiffCalc`.
  - Its fields are `a`, `b`, `diff`, `dmax` and `buf`. The `varray` buffer is a map in
    which unwritten slots read 0.
  - Each member function of the source is one method, split into helper methods where
    its proof is long: `_find_middle_snake` is `FindMiddleSnake` with one method per pass,
    per diagonal and per snake; `_ses` is `Ses` with `SolveAround`, `SolveBack`,
    `SolveTail` and `SolveBase`; `operator()` is `Run` with `Compare`, `Align`, `Solve`,
    `Recompare`, `Retry`, `SesAfter` and `PrefixLength`; `_combine_diffs` is
    `CombineDiffs` with `SinkMatch` and `SettleAt`; `_shift_boundaries` is
    `ShiftBoundaries` with `ShiftTurn`, `ShiftBlock`, `ShiftLength` and `ShiftAt`.
    Loops are modelled as loops.
  - Each method is proved against the functions and predicates above.

The main results are:

- `Ses` leaves a list describing the two sequences with exactly as many edits as their
  edit distance, unless the distance reaches `dmax`.
- `_find_middle_snake` never reaches its final `return -1`. `_ses` can return -1 only when
  `dmax` is -1.
- Below `dmax`, `Run` (`operator()`) returns a list that tiles both sequences with no two
  neighbouring blocks of one kind. When the distance is below `dmax` the list is a shortest edit script.
  With the corrected passes, both keep the list describing the same elements with the same
  number of edits.
- For sequences of equal length, `operator()` keeps the second comparison's list exactly
  when it has no fewer replacements than the first.

Two defects in the passes are recorded under "## Findings". Each is modelled as written
and as corrected. The class uses the corrected forms.

## Model

| member | source | states |
|---|---|---|
| DiffBlocks.Edited | src/Engine/diff.h:149-174 | recording a run adds its length to the total of its kind only. An empty run changes nothing. A non-empty run leaves a last block of its kind. The old list is extended, never rewritten. No two neighbours share a kind, and this is kept. |
| DiffBlocks.EditedFits | src/Engine/diff.h:149-174 | a run that fits the sequences at the list's cursors keeps every block of the list fitting, also when it only lengthens the last block |
| DiffBlocks.EditedDescribed | src/Engine/diff.h:149-174 | recording a fitting run moves the cursors past it and adds its length to the edit count when it is a deletion or an insertion |
| DiffBlocks.Replaces | src/Engine/diff.h:568-584 | the replacement count read from the front, resuming after each counted (deletion, insertion) pair; ReplacesArePairs relates it to the independent count Pairs and CountReplaces' loop is proved equal to it |
| DiffBlocks.ReplacesArePairs | src/Engine/diff.h:568-584 | counting from the front and skipping the insertion after each counted pair finds every adjacent (deletion, insertion) pair; there are at most half as many as blocks |
| Diff.DiffCalc.CountReplaces | src/Engine/diff.h:568-584 | the loop returns the number of adjacent (deletion, insertion) pairs of the list |
| Diff.DiffCalc.constructor | src/Engine/diff.h:124-129 | the object holds both sequences and dmax, with an empty list and an empty buffer |
| Diff.DiffCalc.V | src/Engine/diff.h:139-146 | reads the buffer slot VIndex packs the diagonal and direction into; VIndexInjective and SlotUpdate state that slots never overlap |
| Diff.VIndex | src/Engine/diff.h:139-146 | the packed buffer index of a diagonal and a search direction is never negative |
| Diff.VIndexInjective | src/Engine/diff.h:139-146 | two (diagonal, direction) pairs share a buffer slot only when they are equal, so the searches never overwrite each other |
| Diff.SlotUpdate | src/Engine/diff.h:139-146 | writing the slot of one (diagonal, direction) pair leaves every other slot unchanged |
| Diff.DiffCalc.Edit | src/Engine/diff.h:149-174 | the new list is the old one with the run recorded |
| Snakes.Slide | src/Engine/diff.h:207-211 | a forward snake never moves back |
| Snakes.SlideBack | src/Engine/diff.h:244-248 | x where the backward snake from (x, y) stops; SnakeBack's loop is proved equal to it and BwdMin states what the backward search reaches with it |
| Snakes.FwdStart | src/Engine/diff.h:197-200 | where round d of the forward search starts on diagonal k: down from k + 1 on the bottom diagonal or when k + 1 got further, otherwise right from k - 1; FwdMax states that the rounds it builds reach furthest |
| Snakes.Fwd | src/Engine/diff.h:195-213 | the forward point of round d on diagonal k, its start followed by its snake; FwdMax states that no path with d edits gets further on k |
| Snakes.BwdStart | src/Engine/diff.h:230-236 | where round d of the backward search starts on its diagonal: the mirror of FwdStart; BwdMin states that the rounds it builds reach furthest back |
| Snakes.Bwd | src/Engine/diff.h:226-250 | the backward point of round d on its diagonal, its start followed by its backward snake; BwdMin states that no reverse path with d edits gets further back |
| Snakes.FwdHit | src/Engine/diff.h:215-217 | the overlap test of the forward pass: odd length difference, diagonal within the backward search's reach, forward point at or past the backward one; OddHit and OddResult state that the first such hit gives distance 2d - 1 and a middle snake |
| Snakes.BwdHit | src/Engine/diff.h:252-254 | the overlap test of the backward pass: even length difference, diagonal within the forward search's reach, backward point at or before the forward one; EvenHit and EvenResult state that the first such hit gives distance 2d and a middle snake |
| Snakes.SlideStops | src/Engine/diff.h:207-211 | a forward snake stops at the end of a sequence or at the first unequal pair |
| Snakes.SlideMax | src/Engine/diff.h:207-211 | a forward snake goes at least as far as any run of equal elements from its start |
| Snakes.SlideFacts | src/Engine/diff.h:207-211 | following a snake from a point reachable with e edits reaches a point reachable with e edits |
| Snakes.FwdMax | src/Engine/diff.h:195-213 | no point of diagonal k that d edits reach from the start lies beyond the forward search's point of round d |
| Snakes.BwdMin | src/Engine/diff.h:226-250 | no point of the diagonal from which d edits reach the end lies before the backward search's point of round d |
| Diff.DiffCalc.Snake | src/Engine/diff.h:207-211 | the loop stops where the forward snake from (x0, y0) ends and stays on its diagonal |
| Diff.DiffCalc.SnakeBack | src/Engine/diff.h:244-248 | the loop stops where the backward snake from (x0, y0) ends and stays on its diagonal |
| Diff.FwdStartAt | src/Engine/diff.h:197-200 | the start choice of the forward pass read from the buffer; FwdStartOf states that it equals FwdStart when the buffer holds round d - 1 |
| Diff.BwdStartAt | src/Engine/diff.h:230-236 | the start choice of the backward pass read from the buffer; BwdStartOf states that it equals BwdStart when the buffer holds round d - 1 |
| Diff.FwdStep | src/Engine/diff.h:197-223 | after one diagonal of the forward pass, a reported overlap is the first of the round (none on the diagonals above) with the snake it followed; otherwise the buffer holds this diagonal's furthest point and the pass invariant moves on to the next diagonal |
| Diff.BwdStep | src/Engine/diff.h:228-261 | after one diagonal of the backward pass, a reported overlap is the first of the round with the snake it followed; otherwise the buffer holds this diagonal's backward point and the pass invariant moves on to the next diagonal |
| Diff.RoundDone | src/Engine/diff.h:188-263 | a round without an overlap is never the last one the distance allows, and leaves the buffer ready for the next round |
| Diff.DiffCalc.ForwardDiagonal | src/Engine/diff.h:197-223 | the loop body for one diagonal of the forward pass keeps the pass invariant or returns the overlap it found |
| Diff.DiffCalc.ForwardPass | src/Engine/diff.h:195-224 | the forward pass of round d returns the first overlap of that round, or leaves every forward point of round d in the buffer |
| Diff.DiffCalc.BackwardDiagonal | src/Engine/diff.h:228-261 | the loop body for one diagonal of the backward pass keeps the pass invariant or returns the overlap it found |
| Diff.DiffCalc.BackwardPass | src/Engine/diff.h:226-262 | the backward pass of round d returns the first overlap of that round, or leaves every backward point of round d in the buffer |
| MiddleSnakes.DistParity | src/Engine/diff.h:181-183 | the edit distance has the parity of the difference of the lengths, which is why only one pass tests for overlaps in each round |
| MiddleSnakes.OptimalHit | src/Engine/diff.h:188-263 | an optimal script with D edits produces an overlap in round ceil(D/2): in the forward pass when D is odd, in the backward pass when D is even |
| MiddleSnakes.OddResult | src/Engine/diff.h:215-222 | the first forward overlap of round d, found no later than round ceil(D/2), means the distance is 2d - 1 and the snake is a middle snake |
| MiddleSnakes.EvenResult | src/Engine/diff.h:252-260 | the first backward overlap of round d, found no later than round ceil(D/2), means the distance is 2d and the snake is a middle snake |
| Diff.OddFound | src/Engine/diff.h:215-222 | the overlap the forward pass reports gives the distance 2d - 1 and a middle snake |
| Diff.EvenFound | src/Engine/diff.h:252-260 | the overlap the backward pass reports gives the distance 2d and a middle snake |
| Diff.OddHit | src/Engine/diff.h:215-222 | the first forward overlap of round d, recorded from its start to the end of its snake, is a middle snake of distance 2d - 1 |
| Diff.EvenHit | src/Engine/diff.h:252-260 | the first backward overlap of round d, recorded from the end of its snake back to its start, is a middle snake of distance 2d |
| MiddleSnakes.DistAtLeast | src/Engine/diff.h:192-193 | a distance of at least m means no script has fewer than m edits, which is what returning dmax claims |
| MiddleSnakes.DistanceOne | src/Engine/diff.h:312-357 | at distance 1 one sequence is the other with one more element. That element is at its end when the snake from x is empty, else at its start: these are the four base cases |
| MiddleSnakes.CommonPrefix | src/Engine/diff.h:599-618 | dropping a common prefix changes neither the paths nor the distance |
| MiddleSnakes.StartDiffers | src/Engine/diff.h:607-618 | after the common prefix the two sequences differ at their first elements, which is the shape `_ses` relies on |
| Diff.DiffCalc.FindMiddleSnake | src/Engine/diff.h:177-266 | returns dmax when no script has fewer than dmax edits. Otherwise it returns the edit distance (at most dmax) with a middle snake of it. The final `return -1` is unreachable |
| Diff.BaseSolved | src/Engine/diff.h:331-356 | the two blocks recorded in a base case describe the sub-problem with one edit |
| Diff.JoinSolved | src/Engine/diff.h:297-311 | the script before the middle snake, the snake and the script after it together describe the problem with d edits |
| Diff.DiffCalc.SolveBase | src/Engine/diff.h:312-357 | the base cases of distance 1 extend the list with a script of one edit for the sub-problem |
| Diff.DiffCalc.SolveAround | src/Engine/diff.h:297-311 | for d > 1 the list is extended with a script of d edits: the first half, the snake, the second half |
| Diff.DiffCalc.SolveBack | src/Engine/diff.h:302-310 | after the first half, recording the snake and solving the second half completes a script of d edits |
| Diff.DiffCalc.SolveTail | src/Engine/diff.h:304-310 | once the snake is recorded, the second half is solved with exactly d / 2 edits (never cut off by dmax), so the whole list is a script of d edits |
| Diff.DiffCalc.Ses | src/Engine/diff.h:269-361 | either the list grows by a script whose edit count is the edit distance of the two sub-sequences, describing them and keeping neighbours of different kinds and no insertion before a deletion; or it returns dmax unchanged when no script is shorter than dmax |
| Diff.DiffCalc.PrefixLength | src/Engine/diff.h:602-608 | returns the length of the longest common prefix |
| Diff.PrefixReady | src/Engine/diff.h:599-618 | the common prefix recorded as one match describes the prefix with no edits, and leaves a problem of the shape `_ses` accepts |
| Diff.SameShortest | src/Engine/diff.h:612-613 | for equal sequences the recorded prefix is one match of the whole sequence (no block when it is empty), and it is a shortest script |
| Diff.SesOutcome | src/Engine/diff.h:618-622 | what `_ses` leaves after the prefix fits both sequences and, unless dmax was reached, is a shortest script of the whole sequences |
| Diff.FirstBlock | src/Engine/diff.h:637-639 | the first block of the stored result is a match exactly when the common prefix is not empty, and it is that prefix |
| Diff.DiffCalc.Compare | src/Engine/diff.h:591-614 | makes a the shorter sequence: the two are exchanged when the first is longer, and for equal lengths only when the second comparison is kept. Equal sequences give the single match of the whole and skip the passes; otherwise the passes are skipped only when the list was emptied. A dmax of -1 empties the list when neither sequence is a prefix of the other. The list fits both sequences, with neighbours of different kinds and no insertion before a deletion, and below dmax is shortest. It reports the longest common prefix, and a non-empty list starts with that prefix's match (with a non-match when the prefix is empty). For equal lengths the list is the second comparison's exactly when it has no fewer replacements than the first |
| Diff.DiffCalc.Align | src/Engine/diff.h:597-614 | for a no longer than b: records the longest common prefix as a match and returns it alone when the sequences are equal; otherwise the list Solve completes starts with that match. The sequences are exchanged only when they have equal length, and then exactly when the second list has no fewer replacements |
| Diff.DiffCalc.Solve | src/Engine/diff.h:616-656 | after the common prefix, a dmax of -1 empties the list when neither sequence is a prefix of the other, and skips the passes. Otherwise the list extends the prefix's match. For different lengths it is the first comparison's list. For equal lengths it is the second comparison's, with the sequences exchanged, exactly when that list has no fewer replacements than the first. Both lists fit their orientation of the sequences, with neighbours of different kinds and no insertion before a deletion, and are shortest below dmax |
| Diff.DiffCalc.Recompare | src/Engine/diff.h:627-656 | the second comparison, of the exchanged sequences, gives a list that fits them and is shortest below dmax. It is kept, with the exchange, when it has no fewer replacements than the first list; otherwise the first list and the original order come back, which happens only when the second list has fewer replacements or the second comparison gave up at a dmax of -1 |
| Diff.DiffCalc.Retry | src/Engine/diff.h:633-644 | with the sequences exchanged and the leading match restored, the new list extends that match, fits the exchanged sequences and, below dmax, is shortest. A negative result is dmax |
| CombinePass.EndOff | src/Engine/diff.h:428-436 | the corrected offset of the match re-created at the end: moved by the passed block's length only when that block is a deletion; SinkFits and CombineCorrected state that the list then still fits |
| CombinePass.EndOffAsWritten | src/Engine/diff.h:430-434 | the offset the source gives the new end match differs from the right one whenever the block it passes is a non-empty insertion |
| CombinePass.TailStep | src/Engine/diff.h:405-410 | one more equal pair, compared from the back, extends the repeated tail by one element |
| CombinePass.TailBreak | src/Engine/diff.h:405-416 | an unequal pair among the compared ones means the match does not repeat the block's end |
| CombinePass.TailRepeats | src/Engine/diff.h:400-416 | the test the backward comparison loop makes: the match's elements repeat as the last elements of the following block; MatchRepeats proves the loop answers exactly it |
| CombinePass.MatchRepeats | src/Engine/diff.h:400-416 | the backward comparison loop answers whether the match repeats the end of the following block |
| CombinePass.SinkKinds | src/Engine/diff.h:418-471 | moving a match down keeps neighbours of different kinds and no insertion before a deletion. The list gets shorter, or keeps its length with fewer inner matches, so the pass ends |
| CombinePass.SinkTotals | src/Engine/diff.h:421-462 | moving a match down keeps the total length of every kind |
| CombinePass.SinkFits | src/Engine/diff.h:418-467 | when the match repeats the end of the next block, moving it behind the block still fits both sequences |
| CombinePass.Moved | src/Engine/diff.h:418-444 | the first steps of moving a match down: the match after the next block grows by it (or a match is re-created at the end), the next block starts that much earlier, and the moved match is erased. SinkTotals and SinkFits state what these steps keep |
| CombinePass.Settle | src/Engine/diff.h:446-471 | the last steps: the block now at i joins the block of its kind just before it (or two before, past a block of the other kind), or a deletion is swapped in front of the insertion before it; the loop index goes back to recheck the earlier match. SinkKinds states that neighbours keep different kinds |
| CombinePass.Sink | src/Engine/diff.h:418-471 | one whole sink step; SinkKinds, SinkTotals and SinkFits give its kinds, its totals, its fit and the measure that makes the pass end |
| CombinePass.CombineFrom | src/Engine/diff.h:370-473 | the pass from loop index i: it skips non-matches, a deletion followed by an insertion, and matches that are longer than the next block or do not repeat its end, and sinks the others. CombineKeeps states what it keeps |
| CombinePass.Combined | src/Engine/diff.h:367-474 | the corrected pass from index 1; CombinedDescribes states that it describes the same elements with the same edit count and no more blocks |
| CombinePass.CombinedAsWritten | src/Engine/diff.h:367-474 | the pass with the end offset diff.h:433 computes; CombineAsWrittenBreaks shows an input where it leaves a list that does not fit |
| CombinePass.CombineKeeps | src/Engine/diff.h:367-474 | the pass from any index keeps the list fitting both sequences, with neighbours of different kinds, no insertion before a deletion, no more blocks and the same totals |
| CombinePass.CombinedDescribes | src/Engine/diff.h:367-474 | the combined list describes the same elements of both sequences with the same edit count and no more blocks |
| CombinePass.CombineAsWrittenBreaks | src/Engine/diff.h:428-436 | on "a" against "baa" the source's pass turns a list describing both sequences into [In2(0,2), Match(1,1)], which does not fit: the match's offset is past the end of "a" |
| CombinePass.CombineCorrected | src/Engine/diff.h:428-436 | with the corrected offset the same input gives [In2(0,2), Match(0,1)], which describes both sequences |
| Diff.DiffCalc.CombineDiffs | src/Engine/diff.h:367-474 | the loop leaves the list that the corrected pass function gives |
| ShiftPass.ShiftReorders | src/Engine/diff.h:522-561 | on "xy" against "xx" the pass turns [In2(0,1), Match(0,1), In1(1,1)] into [Match(0,1), In2(1,1), In1(1,1)]: a shift can leave an insertion right before a deletion |
| Diff.DiffCalc.SinkMatch | src/Engine/diff.h:418-444 | the in-place link or append, offset update and erase give the list and index of the corrected sink step, which moves the end match's offset by the passed block's length only for a deletion |
| Diff.DiffCalc.SettleAt | src/Engine/diff.h:445-471 | the merge or swap of the blocks that meet, with the index rewind, gives the model's settle step |
| ShiftPass.MaxShift | src/Engine/diff.h:509 | the limit of a shift, the shorter of the block and the match after it; ShiftLenRepeats states that the shift never passes the match's end |
| ShiftPass.ShiftLen | src/Engine/diff.h:511-519 | the counted shift is at most the limit, and when it is positive both compared runs lie inside the sequence |
| ShiftPass.ShiftLenRun | src/Engine/diff.h:511-519 | the elements a block is shifted past equal its first elements |
| ShiftPass.ShiftLenStops | src/Engine/diff.h:511-519 | the scan stops below the limit only at a sequence end or at an unequal pair |
| ShiftPass.ShiftLenRepeats | src/Engine/diff.h:509-519 | the scan never passes the end of the following match, and the block's first elements repeat right after it |
| ShiftPass.ShiftMoved | src/Engine/diff.h:522-544 | the first steps of a shift: the block moves down, the match before it grows (or a match is put first) and the match after it shrinks. ShiftOnceKeeps states what the whole shift keeps |
| ShiftPass.ShiftSettle | src/Engine/diff.h:546-561 | the last steps: an emptied match is erased, and the block then joins the block after it when both have one kind, with the index moved back to revisit it |
| ShiftPass.ShiftOnce | src/Engine/diff.h:522-561 | the index the pass continues from is at least -1, and no more blocks are left from it than were left from the shifted block |
| ShiftPass.ShiftOnceKeeps | src/Engine/diff.h:522-561 | shifting a block that sits between matches keeps the list fitting both sequences, with neighbours of different kinds and the same totals |
| ShiftPass.ShiftStep | src/Engine/diff.h:485-563 | every visit of the loop leaves fewer blocks to visit, so the pass ends |
| ShiftPass.ShiftStepKeeps | src/Engine/diff.h:485-563 | one visit of the corrected loop keeps the list fitting, with neighbours of different kinds and the same totals |
| ShiftPass.ShiftFrom | src/Engine/diff.h:485-564 | the pass from loop index i, either with the corrected guard or with the guard diff.h uses; ShiftStep gives its termination and ShiftKeeps what the corrected pass keeps |
| ShiftPass.Shifted | src/Engine/diff.h:483-565 | the corrected pass from index 0; ShiftedDescribes states that it describes the same elements with the same edit count |
| ShiftPass.ShiftedAsWritten | src/Engine/diff.h:483-565 | the pass as diff.h writes it; ShiftAsWrittenBreaks shows an input where it turns a complete script into one that no longer covers the second sequence |
| ShiftPass.ShiftKeeps | src/Engine/diff.h:483-565 | the corrected pass from any index keeps the list fitting, with neighbours of different kinds and the same totals |
| ShiftPass.ShiftedDescribes | src/Engine/diff.h:483-565 | the corrected pass keeps what the list says: it fits the same elements of both sequences, with the same edit count and no two neighbours of one kind, and a complete script stays complete |
| ShiftPass.ShiftAsWrittenBreaks | src/Engine/diff.h:522-561 | on "babba" against "abaaa" the source's pass turns a complete script into one whose insertions and matches cover only 4 of the 5 elements of the second sequence |
| ShiftPass.ShiftCorrected | src/Engine/diff.h:522-561 | the corrected pass on the same input gives a complete script with no two neighbours of one kind |
| Diff.DiffCalc.ShiftBoundaries | src/Engine/diff.h:483-565 | the loop leaves the list that the corrected pass function gives |
| Diff.DiffCalc.ShiftTurn | src/Engine/diff.h:485-507 | one visit of the loop (skip a match, skip a deletion followed by an insertion, or try a shift) gives the model's step |
| Diff.DiffCalc.ShiftBlock | src/Engine/diff.h:504-563 | trying a shift limits it by both blocks' lengths, scans, and applies the shift found |
| Diff.DiffCalc.ShiftLength | src/Engine/diff.h:509-519 | the scan loop counts the shift the model's function defines |
| Diff.DiffCalc.ShiftAt | src/Engine/diff.h:522-561 | the in-place updates (grow or insert the match before, move and shrink the match after, erase it and merge when empty) give the list and index of the model's shift |
| EditGraph.DistSwap | src/Engine/diff.h:591-597 | exchanging the sequences keeps the edit distance |
| EditGraph.AtLeastSwap | src/Engine/diff.h:591-597 | exchanging the sequences keeps every lower bound on the distance |
| Diff.Passes | src/Engine/diff.h:658-662 | the combining pass runs first and the shifting pass second, each only when its flag is set; Run states what its result is |
| Diff.DiffCalc.SesAfter | src/Engine/diff.h:616-637 | the `_ses` call on everything after the common prefix (made for the first comparison and again for the second): the list extends the prefix's match and fits both sequences, is shortest unless dmax was reached, and a result below 0 is dmax |
| Diff.DiffCalc.Run | src/Engine/diff.h:587-665 | returns the list and the swap flag. The sequences are exchanged when the first is longer, and for equal lengths exactly when the second comparison's list has no fewer replacements than the first. The list fits the sequences in their returned order with no two neighbours of one kind. Equal sequences give one match without a swap. A dmax of -1 empties the list when neither sequence is a prefix of the other; otherwise the passes run on the compared list and the result is what the corrected passes make of it. Below dmax the list is a complete script with the edit distance as its edit count whichever corrected passes run, and a shortest script with no passes. Without the shifting pass no insertion precedes a deletion |

## Left out

- The default arguments of diff.h:87-94 (`max = INTPTR_MAX`, both pass flags `false`) are not modelled. The constructor and `Run` take any dmax and any flags, so no behaviour is lost.
- The constructor taking raw arrays and sizes (diff.h:131-136) is the same as the one taking vectors once both are sequences. The model has one constructor.
- The `info` field of `diff_info<UserDataT>` is never set by the class and is not modelled.
- `intptr_t` arithmetic is modelled with unbounded integers. The overflow of offsets and lengths near `INTPTR_MAX` is not captured.
- `varray` growth and memory use are not modelled, and varray.h is not part of this model. The buffer is a map whose unwritten slots read 0; that `varray` reads 0 there too is an assumption. No proof depends on it: every slot a round reads was written earlier in the same search, which the predicate `Ready` states for each round. Wiping the buffer is modelled as emptying the map.
- Diff.DiffCalc.Retry: keeps the leading match only when the stored list is not empty. The source reads `storedDiff[0]` unchecked, which is undefined behaviour when the first comparison stopped at dmax with an empty prefix.
- CombinePass: the source keeps pointers into `_diff` across `emplace_back`, which may reallocate. The model works on values, so this aliasing is not captured.
- Diff.DiffCalc.ShiftLength: a read outside the sequence ends the scan, where the source would read out of bounds. This only happens on the as-written path; the corrected guard keeps every read in range.
- Diff.DiffCalc.ShiftLength: the source moves `diff.off` one element at a time during the scan. The model counts with local variables and moves the offset once, in `ShiftAt`.
- Diff.DiffCalc.CombineDiffs: implements the corrected end offset, which adds the passed block's length only for a deletion. diff.h:433 always adds `next_diff->len`; the source's behaviour is the function `CombinePass.CombinedAsWritten` (see "## Findings").
- Diff.DiffCalc.SinkMatch: models diff.h:418-444 with the same corrected end offset, not the offset diff.h:433 computes.
- Diff.DiffCalc.ShiftBoundaries: implements the corrected guard. The source's behaviour is the function `ShiftPass.ShiftedAsWritten` (see "## Findings").
- ShiftPass.ShiftedDescribes: does not state that no insertion precedes a deletion, because the pass does not keep it. When an insertion is shifted past the whole match after it, the match is erased and the insertion meets the deletion that followed the match: `ShiftPass.ShiftReorders` shows this on "xy" against "xx". `Run` states the order only when the shifting pass is off.
- Diff.DiffCalc.Run: requires an object that has not compared yet (`diff == []`). A second call of `operator()` on the same object appends to the old list and is not modelled.
- Diff.DiffCalc.Run: when the distance reaches dmax, the model states only that the partial list fits both sequences with no two neighbours of one kind. The source promises nothing more there.

## Findings

| source | as written | input that shows it | evidently intended | confidence | as-written member | corrected member |
|---|---|---|---|---|---|---|
| src/Engine/diff.h:428-436 | the match re-created at the end gets `match.off + next_diff->len`, also when the block it passes is a `DIFF_IN_2`, whose length counts elements of the second sequence | a = "a", b = "baa", list [In2(0,1), Match(0,1), In2(2,1)] (describes both), combining on: the result is [In2(0,2), Match(1,1)], and offset 1 is past the end of "a" | move the offset by the block's length only for a `DIFF_IN_1`; an insertion leaves offsets in the first sequence unchanged | high, not executed | CombinePass.CombineAsWrittenBreaks | CombinePass.CombineCorrected |
| src/Engine/diff.h:524-526 | after a shift, `_diff[i - 1].len += shift_len` assumes the block before is a match. Once an earlier shift has emptied a match and made a deletion and an insertion neighbours, the insertion's shift lengthens the deletion instead | a = "babba", b = "abaaa", list [In1(0,1), Match(1,1), In1(2,1), Match(3,1), In2(2,1), Match(4,1), In2(4,1)] (a complete script), shifting on: the result [In1(0,1), Match(1,2), In1(3,2), In2(3,2)] covers only 4 elements of "abaaa" | shift a block only when the blocks before and after it are matches | high, not executed | ShiftPass.ShiftAsWrittenBreaks | ShiftPass.ShiftCorrected |

=== FILE: blocks.dfy ===
/**
 * The difference list produced by DiffCalc: a sequence of blocks, each either common to
 * both compared sequences or present in only one of them, and what it means for such a
 * list to describe two given sequences.
 */
module DiffBlocks {

  /** The kind of a block: common to both sequences, only in the first, only in the second. */
  datatype DiffType = Match | In1 | In2

  /**
   * One block of the list. `off` is an index into the first sequence for Match and In1
   * blocks and an index into the second sequence for In2 blocks.
   */
  datatype DiffInfo = DiffInfo(kind: DiffType, off: int, len: int)

  /** Sum of the lengths of the blocks of kind `t`. */
  function Total(d: seq<DiffInfo>, t: DiffType): int
  {
    if d == [] then 0
    else (if d[0].kind == t then d[0].len else 0) + Total(d[1..], t)
  }

  /** Number of elements of the first sequence that `d` accounts for. */
  function SumA(d: seq<DiffInfo>): int
  {
    Total(d, Match) + Total(d, In1)
  }

  /** Number of elements of the second sequence that `d` accounts for. */
  function SumB(d: seq<DiffInfo>): int
  {
    Total(d, Match) + Total(d, In2)
  }

  /** Elements of the first sequence one block accounts for. */
  function LenA(blk: DiffInfo): int
  {
    if blk.kind == In2 then 0 else blk.len
  }

  /** Elements of the second sequence one block accounts for. */
  function LenB(blk: DiffInfo): int
  {
    if blk.kind == In1 then 0 else blk.len
  }

  /**
   * `blk` describes the elements of `a` from `ia` and of `b` from `ib`: it is not empty,
   * its offset is the cursor of the sequence it indexes, it stays inside the sequences it
   * consumes, and a Match block pairs equal runs.
   */
  predicate BlockFits<T(==)>(blk: DiffInfo, a: seq<T>, b: seq<T>, ia: int, ib: int)
  {
    0 <= ia && 0 <= ib && blk.len > 0 &&
    match blk.kind
    case Match =>
      blk.off == ia && ia + blk.len <= |a| && ib + blk.len <= |b| &&
      a[ia..ia + blk.len] == b[ib..ib + blk.len]
    case In1 => blk.off == ia && ia + blk.len <= |a|
    case In2 => blk.off == ib && ib + blk.len <= |b|
  }

  /** Read in order from the cursors `ia` and `ib`, every block of `d` fits the elements that follow. */
  predicate Fits<T(==)>(d: seq<DiffInfo>, a: seq<T>, b: seq<T>, ia: int, ib: int)
    decreases |d|
  {
    d == [] ||
    (BlockFits(d[0], a, b, ia, ib) && Fits(d[1..], a, b, ia + LenA(d[0]), ib + LenB(d[0])))
  }

  /** `d` describes all of `a` and all of `b`: it is an edit script turning `a` into `b`. */
  predicate Covers<T(==)>(d: seq<DiffInfo>, a: seq<T>, b: seq<T>)
  {
    Fits(d, a, b, 0, 0) && SumA(d) == |a| && SumB(d) == |b|
  }

  /** Consecutive blocks never have the same kind. */
  predicate Coalesced(d: seq<DiffInfo>)
  {
    forall i, j :: 0 <= i < |d| && 0 <= j < |d| && j == i + 1 ==> d[i].kind != d[j].kind
  }

  /** No block present only in the second sequence is directly followed by one present only in the first. */
  predicate NoIn2In1(d: seq<DiffInfo>)
  {
    forall i, j :: 0 <= i < |d| && 0 <= j < |d| && j == i + 1 ==> !(d[i].kind == In2 && d[j].kind == In1)
  }

  /**
   * `d` continues `d0`: it keeps the blocks of `d0` with their kinds and offsets, and only
   * the last of them may have grown.
   */
  predicate Extends(d0: seq<DiffInfo>, d: seq<DiffInfo>)
  {
    |d0| <= |d| &&
    forall i :: 0 <= i < |d0| ==>
      d[i].kind == d0[i].kind && d[i].off == d0[i].off && d0[i].len <= d[i].len &&
      (i < |d0| - 1 ==> d[i].len == d0[i].len)
  }

  lemma {:induction false} ExtendsTrans(d0: seq<DiffInfo>, d1: seq<DiffInfo>, d2: seq<DiffInfo>)
    requires Extends(d0, d1) && Extends(d1, d2)
    ensures Extends(d0, d2)
  {
  }

  /** Number of edits, deletions and insertions, the list stands for. */
  function Edits(d: seq<DiffInfo>): int
  {
    Total(d, In1) + Total(d, In2)
  }

  /**
   * `d` describes the first `ia` elements of `a` and the first `ib` of `b`, with no two
   * neighbouring blocks of the same kind and no insertion block directly followed by a
   * deletion block.
   */
  predicate Described<T(==)>(d: seq<DiffInfo>, a: seq<T>, b: seq<T>, ia: int, ib: int)
  {
    Fits(d, a, b, 0, 0) && SumA(d) == ia && SumB(d) == ib && Coalesced(d) && NoIn2In1(d)
  }

  function Last(d: seq<DiffInfo>): DiffInfo
    requires d != []
  {
    d[|d| - 1]
  }

  /**
   * The list after recording `len` elements of kind `kind` at `off`: nothing for an empty
   * run, a new block when the list is empty or ends with another kind, else the last block
   * grows.
   */
  function Edited(d: seq<DiffInfo>, kind: DiffType, off: int, len: int): (r: seq<DiffInfo>)
    ensures forall t :: Total(r, t) == Total(d, t) + (if t == kind then len else 0)
    ensures Coalesced(d) ==> Coalesced(r)
    ensures NoIn2In1(d) && (kind == In1 && len != 0 ==> d == [] || Last(d).kind != In2) ==> NoIn2In1(r)
    ensures len != 0 ==> r != [] && Last(r).kind == kind
    ensures 0 <= len ==> Extends(d, r)
  {
    if len == 0 then d
    else if d == [] || Last(d).kind != kind then
      TotalAppend(d, [DiffInfo(kind, off, len)]);
      TotalSingle(DiffInfo(kind, off, len));
      d + [DiffInfo(kind, off, len)]
    else
      var p := d[..|d| - 1];
      assert d == p + [Last(d)];
      TotalAppend(p, [Last(d)]);
      TotalAppend(p, [Last(d).(len := Last(d).len + len)]);
      TotalSingle(Last(d));
      TotalSingle(Last(d).(len := Last(d).len + len));
      var r := p + [Last(d).(len := Last(d).len + len)];
      assert forall i :: 0 <= i < |p| ==> r[i] == d[i];
      r
  }

  lemma {:induction false} TotalSingle(blk: DiffInfo)
    ensures forall t :: Total([blk], t) == (if blk.kind == t then blk.len else 0)
  {
    assert [blk][1..] == [];
  }

  /** The first block's share of the sums. */
  lemma {:induction false} SumFront(d: seq<DiffInfo>)
    requires d != []
    ensures SumA(d) == LenA(d[0]) + SumA(d[1..]) && SumB(d) == LenB(d[0]) + SumB(d[1..])
  {
  }

  lemma {:induction false} SumAppendSingle(d: seq<DiffInfo>, blk: DiffInfo)
    ensures SumA(d + [blk]) == SumA(d) + LenA(blk) && SumB(d + [blk]) == SumB(d) + LenB(blk)
  {
    TotalAppend(d, [blk]);
    TotalSingle(blk);
  }

  lemma {:induction false} FitsSingle<T>(blk: DiffInfo, a: seq<T>, b: seq<T>, ia: int, ib: int)
    ensures Fits([blk], a, b, ia, ib) <==> BlockFits(blk, a, b, ia, ib)
  {
    assert [blk][1..] == [];
  }

  lemma {:induction false} TotalAppend(d1: seq<DiffInfo>, d2: seq<DiffInfo>)
    ensures forall t :: Total(d1 + d2, t) == Total(d1, t) + Total(d2, t)
  {
    if d1 == [] {
      assert d1 + d2 == d2;
    } else {
      assert (d1 + d2)[1..] == d1[1..] + d2;
      TotalAppend(d1[1..], d2);
    }
  }

  /** Fitting a concatenation is fitting the first part and then the second from where the first ends. */
  lemma {:induction false} FitsAppend<T>(d1: seq<DiffInfo>, d2: seq<DiffInfo>, a: seq<T>, b: seq<T>, ia: int, ib: int)
    ensures Fits(d1 + d2, a, b, ia, ib) <==>
            Fits(d1, a, b, ia, ib) && Fits(d2, a, b, ia + SumA(d1), ib + SumB(d1))
    decreases |d1|
  {
    if d1 == [] {
      assert d1 + d2 == d2;
    } else {
      assert (d1 + d2)[1..] == d1[1..] + d2;
      assert (d1 + d2)[0] == d1[0];
      SumFront(d1);
      FitsAppend(d1[1..], d2, a, b, ia + LenA(d1[0]), ib + LenB(d1[0]));
    }
  }

  /** Two runs of the same kind that fit one after the other fit as one longer run. */
  lemma {:induction false} BlockGrow<T>(l: DiffInfo, len: int, a: seq<T>, b: seq<T>, ia: int, ib: int)
    requires BlockFits(l, a, b, ia, ib)
    requires BlockFits(DiffInfo(l.kind, if l.kind == In2 then ib + LenB(l) else ia + LenA(l), len),
                       a, b, ia + LenA(l), ib + LenB(l))
    ensures BlockFits(l.(len := l.len + len), a, b, ia, ib)
  {
    if l.kind == Match {
      assert a[ia..ia + l.len + len] == a[ia..ia + l.len] + a[ia + l.len..ia + l.len + len];
      assert b[ib..ib + l.len + len] == b[ib..ib + l.len] + b[ib + l.len..ib + l.len + len];
    }
  }

  /**
   * Recording a run that fits right after the part `d` describes extends the description
   * by that run: an edit script for prefixes grows into one for longer prefixes.
   */
  lemma {:induction false} EditedFits<T>(d: seq<DiffInfo>, a: seq<T>, b: seq<T>, kind: DiffType, off: int, len: int)
    requires Fits(d, a, b, 0, 0)
    requires len == 0 || BlockFits(DiffInfo(kind, off, len), a, b, SumA(d), SumB(d))
    ensures Fits(Edited(d, kind, off, len), a, b, 0, 0)
  {
    var blk := DiffInfo(kind, off, len);
    var r := Edited(d, kind, off, len);
    if len == 0 {
      assert r == d;
    } else if d == [] || Last(d).kind != kind {
      var r' := d + [blk];
      assert r == r';
      FitsSingle(blk, a, b, SumA(d), SumB(d));
      FitsAppend(d, [blk], a, b, 0, 0);
      assert Fits(r', a, b, 0, 0);
    } else {
      var p := d[..|d| - 1];
      var r' := p + [Last(d).(len := Last(d).len + len)];
      assert r == r';
      assert d == p + [Last(d)];
      SumAppendSingle(p, Last(d));
      ExtendLastFits(p, Last(d), a, b, len);
      assert Fits(r', a, b, 0, 0);
    }
  }

  lemma {:induction false} ExtendLastFits<T>(p: seq<DiffInfo>, l: DiffInfo, a: seq<T>, b: seq<T>, len: int)
    requires Fits(p + [l], a, b, 0, 0)
    requires BlockFits(DiffInfo(l.kind, if l.kind == In2 then SumB(p) + LenB(l) else SumA(p) + LenA(l), len),
                       a, b, SumA(p) + LenA(l), SumB(p) + LenB(l))
    ensures Fits(p + [l.(len := l.len + len)], a, b, 0, 0)
  {
    FitsAppend(p, [l], a, b, 0, 0);
    FitsSingle(l, a, b, SumA(p), SumB(p));
    var m := l.(len := l.len + len);
    BlockGrow(l, len, a, b, SumA(p), SumB(p));
    FitsSingle(m, a, b, SumA(p), SumB(p));
    FitsAppend(p, [m], a, b, 0, 0);
  }

  /**
   * Recording a run that fits right after the part `d` describes keeps the description
   * well formed, as long as a deletion is not recorded right after an insertion.
   */
  lemma {:induction false} EditedDescribed<T>(d: seq<DiffInfo>, a: seq<T>, b: seq<T>, kind: DiffType, off: int, len: int)
    requires Described(d, a, b, SumA(d), SumB(d))
    requires len == 0 || BlockFits(DiffInfo(kind, off, len), a, b, SumA(d), SumB(d))
    requires kind == In1 && len != 0 ==> d == [] || Last(d).kind != In2
    ensures var r := Edited(d, kind, off, len);
            Described(r, a, b, SumA(d) + (if kind == In2 then 0 else len), SumB(d) + (if kind == In1 then 0 else len)) &&
            Edits(r) == Edits(d) + (if kind == Match then 0 else len)
  {
    EditedFits(d, a, b, kind, off, len);
  }

  // ---------------------------------------------------------------------------------
  // Windows of a list
  // ---------------------------------------------------------------------------------

  /** Two blocks may follow each other in a list produced by Ses. */
  predicate Good(x: DiffInfo, y: DiffInfo)
  {
    x.kind != y.kind && !(x.kind == In2 && y.kind == In1)
  }

  /** Joining two well-kinded lists whose meeting blocks may follow each other. */
  lemma {:induction false} KindsAppend(x: seq<DiffInfo>, y: seq<DiffInfo>)
    requires Coalesced(x) && NoIn2In1(x) && Coalesced(y) && NoIn2In1(y)
    requires x != [] && y != [] ==> Good(Last(x), y[0])
    ensures Coalesced(x + y) && NoIn2In1(x + y)
  {
    var z := x + y;
    forall i, j | 0 <= i < |z| && 0 <= j < |z| && j == i + 1
      ensures z[i].kind != z[j].kind && !(z[i].kind == In2 && z[j].kind == In1)
    {
      if j < |x| {
        assert z[i] == x[i] && z[j] == x[j];
      } else if i >= |x| {
        assert z[i] == y[i - |x|] && z[j] == y[j - |x|];
      } else {
        assert z[i] == Last(x) && z[j] == y[0];
      }
    }
  }

  /** A window of a well-kinded list is well kinded. */
  lemma {:induction false} KindsSlice(d: seq<DiffInfo>, lo: int, hi: int)
    requires Coalesced(d) && NoIn2In1(d) && 0 <= lo <= hi <= |d|
    ensures Coalesced(d[lo..hi]) && NoIn2In1(d[lo..hi])
  {
    var s := d[lo..hi];
    forall i, j | 0 <= i < |s| && 0 <= j < |s| && j == i + 1
      ensures s[i].kind != s[j].kind && !(s[i].kind == In2 && s[j].kind == In1)
    {
      assert s[i] == d[lo + i] && s[j] == d[lo + j];
    }
  }

  /** Putting a well-kinded window between two well-kinded lists. */
  lemma {:induction false} Splice(y: seq<DiffInfo>, w: seq<DiffInfo>, tl: seq<DiffInfo>)
    requires Coalesced(y) && NoIn2In1(y) && w != [] && Coalesced(w) && NoIn2In1(w)
    requires tl != [] && Coalesced(tl) && NoIn2In1(tl)
    requires y != [] ==> Good(Last(y), w[0])
    requires Good(Last(w), tl[0])
    ensures Coalesced(y + w + tl) && NoIn2In1(y + w + tl)
  {
    KindsAppend(y, w);
    assert Last(y + w) == Last(w);
    KindsAppend(y + w, tl);
  }

  /** Totals of a concatenation, kind by kind. */
  lemma {:induction false} ReplaceTotals(x: seq<DiffInfo>, w: seq<DiffInfo>, w2: seq<DiffInfo>, y: seq<DiffInfo>)
    requires forall t :: Total(w2, t) == Total(w, t)
    ensures forall t :: Total(x + w2 + y, t) == Total(x + w + y, t)
  {
    TotalAppend(x, w);
    TotalAppend(x, w2);
    TotalAppend(x + w, y);
    TotalAppend(x + w2, y);
  }

  lemma {:induction false} SumsAppend(x: seq<DiffInfo>, y: seq<DiffInfo>)
    ensures SumA(x + y) == SumA(x) + SumA(y) && SumB(x + y) == SumB(x) + SumB(y)
  {
    TotalAppend(x, y);
  }

  /** Fitting three parts one after the other. */
  lemma {:induction false} FitsParts<T>(x: seq<DiffInfo>, w: seq<DiffInfo>, y: seq<DiffInfo>, a: seq<T>, b: seq<T>)
    ensures Fits(x + w + y, a, b, 0, 0) <==>
            Fits(x, a, b, 0, 0) && Fits(w, a, b, SumA(x), SumB(x)) &&
            Fits(y, a, b, SumA(x) + SumA(w), SumB(x) + SumB(w))
  {
    SumsAppend(x, w);
    FitsAppend(x + w, y, a, b, 0, 0);
    FitsAppend(x, w, a, b, 0, 0);
  }

  /** Replacing a window of a list by blocks that fit where the window did and account for as many elements. */
  lemma {:induction false} ReplaceFits<T>(x: seq<DiffInfo>, w: seq<DiffInfo>, w2: seq<DiffInfo>, y: seq<DiffInfo>, a: seq<T>, b: seq<T>)
    requires Fits(x + w + y, a, b, 0, 0)
    requires Fits(w, a, b, SumA(x), SumB(x)) ==> Fits(w2, a, b, SumA(x), SumB(x))
    requires SumA(w2) == SumA(w) && SumB(w2) == SumB(w)
    ensures Fits(x + w2 + y, a, b, 0, 0)
  {
    FitsParts(x, w, y, a, b);
    FitsParts(x, w2, y, a, b);
  }

  /** Fitting a list of two blocks. */
  lemma {:induction false} FitsPair<T>(u: DiffInfo, v: DiffInfo, a: seq<T>, b: seq<T>, ia: int, ib: int)
    ensures Fits([u, v], a, b, ia, ib) <==>
            BlockFits(u, a, b, ia, ib) && BlockFits(v, a, b, ia + LenA(u), ib + LenB(u))
  {
    assert [u, v][1..] == [v];
    FitsSingle(v, a, b, ia + LenA(u), ib + LenB(u));
  }

  /** Fitting a list of three blocks. */
  lemma {:induction false} FitsTriple<T>(u: DiffInfo, v: DiffInfo, w: DiffInfo, a: seq<T>, b: seq<T>, ia: int, ib: int)
    ensures Fits([u, v, w], a, b, ia, ib) <==>
            BlockFits(u, a, b, ia, ib) && BlockFits(v, a, b, ia + LenA(u), ib + LenB(u)) &&
            BlockFits(w, a, b, ia + LenA(u) + LenA(v), ib + LenB(u) + LenB(v))
  {
    assert [u, v, w][1..] == [v, w];
    FitsPair(v, w, a, b, ia + LenA(u), ib + LenB(u));
  }

  /** A block that fits, followed by a list that fits after it. */
  lemma {:induction false} FitsCons<T>(u: DiffInfo, t: seq<DiffInfo>, a: seq<T>, b: seq<T>, ia: int, ib: int)
    requires BlockFits(u, a, b, ia, ib) && Fits(t, a, b, ia + LenA(u), ib + LenB(u))
    ensures Fits([u] + t, a, b, ia, ib)
  {
    assert ([u] + t)[1..] == t;
  }

  /** Two blocks that fit one after the other make a list that fits. */
  lemma {:induction false} PairFits<T>(u: DiffInfo, v: DiffInfo, a: seq<T>, b: seq<T>, ia: int, ib: int)
    requires BlockFits(u, a, b, ia, ib) && BlockFits(v, a, b, ia + LenA(u), ib + LenB(u))
    ensures Fits([u, v], a, b, ia, ib)
  {
    FitsPair(u, v, a, b, ia, ib);
  }

  /** The blocks of a list of three that fits, each where the blocks before it end. */
  lemma {:induction false} TripleParts<T>(u: DiffInfo, v: DiffInfo, w: DiffInfo, a: seq<T>, b: seq<T>, ia: int, ib: int)
    requires Fits([u, v, w], a, b, ia, ib)
    ensures BlockFits(u, a, b, ia, ib) && BlockFits(v, a, b, ia + LenA(u), ib + LenB(u))
    ensures BlockFits(w, a, b, ia + LenA(u) + LenA(v), ib + LenB(u) + LenB(v))
  {
    FitsTriple(u, v, w, a, b, ia, ib);
  }

  /** The blocks of a list of two that fits. */
  lemma {:induction false} PairParts<T>(u: DiffInfo, v: DiffInfo, a: seq<T>, b: seq<T>, ia: int, ib: int)
    requires Fits([u, v], a, b, ia, ib)
    ensures BlockFits(u, a, b, ia, ib) && BlockFits(v, a, b, ia + LenA(u), ib + LenB(u))
  {
    FitsPair(u, v, a, b, ia, ib);
  }

  /** Totals of lists of two and three blocks. */
  lemma {:induction false} TotalPair(u: DiffInfo, v: DiffInfo)
    ensures forall t :: Total([u, v], t) == Total([u], t) + Total([v], t)
  {
    assert [u, v] == [u] + [v];
    TotalAppend([u], [v]);
  }

  lemma {:induction false} TotalTriple(u: DiffInfo, v: DiffInfo, w: DiffInfo)
    ensures forall t :: Total([u, v, w], t) == Total([u], t) + Total([v], t) + Total([w], t)
  {
    assert [u, v, w] == [u] + [v, w];
    TotalAppend([u], [v, w]);
    TotalPair(v, w);
  }

  /** Taking a list apart into three parts that fit one after the other. */
  lemma {:induction false} FitsApart<T>(x: seq<DiffInfo>, w: seq<DiffInfo>, y: seq<DiffInfo>, a: seq<T>, b: seq<T>)
    requires Fits(x + w + y, a, b, 0, 0)
    ensures Fits(x, a, b, 0, 0) && Fits(w, a, b, SumA(x), SumB(x))
    ensures Fits(y, a, b, SumA(x) + SumA(w), SumB(x) + SumB(w))
  {
    FitsParts(x, w, y, a, b);
  }

  /** Putting three parts that fit one after the other together. */
  lemma {:induction false} FitsTogether<T>(x: seq<DiffInfo>, w: seq<DiffInfo>, y: seq<DiffInfo>, a: seq<T>, b: seq<T>)
    requires Fits(x, a, b, 0, 0) && Fits(w, a, b, SumA(x), SumB(x))
    requires Fits(y, a, b, SumA(x) + SumA(w), SumB(x) + SumB(w))
    ensures Fits(x + w + y, a, b, 0, 0)
  {
    FitsParts(x, w, y, a, b);
  }

  /**
   * Replacing a window of a list by blocks that fit where the window did and account for
   * as many elements of each kind keeps the fit and the totals.
   */
  lemma {:induction false} ReplaceWindow<T>(x: seq<DiffInfo>, w: seq<DiffInfo>, w2: seq<DiffInfo>, y: seq<DiffInfo>, a: seq<T>, b: seq<T>)
    requires Fits(x + w + y, a, b, 0, 0)
    requires Fits(w, a, b, SumA(x), SumB(x)) ==> Fits(w2, a, b, SumA(x), SumB(x))
    requires forall t :: Total(w2, t) == Total(w, t)
    ensures Fits(x + w2 + y, a, b, 0, 0)
  {
    assert SumA(w2) == SumA(w) && SumB(w2) == SumB(w);
    ReplaceFits(x, w, w2, y, a, b);
  }

  /** Two neighbouring blocks of one kind fit as one. */
  lemma {:induction false} MergeFits<T>(p: DiffInfo, nx: DiffInfo, a: seq<T>, b: seq<T>, ia: int, ib: int)
    requires p.kind == nx.kind && Fits([p, nx], a, b, ia, ib)
    ensures Fits([p.(len := p.len + nx.len)], a, b, ia, ib)
  {
    FitsPair(p, nx, a, b, ia, ib);
    BlockGrow(p, nx.len, a, b, ia, ib);
    FitsSingle(p.(len := p.len + nx.len), a, b, ia, ib);
  }

  /** A block of the kind of the block before it joins that block, keeping the fit. */
  lemma {:induction false} JoinFits<T>(x: seq<DiffInfo>, p: DiffInfo, nx: DiffInfo, tl: seq<DiffInfo>, a: seq<T>, b: seq<T>)
    requires nx.kind == p.kind && Fits(x + [p] + [nx] + tl, a, b, 0, 0)
    ensures Fits(x + [p.(len := p.len + nx.len)] + tl, a, b, 0, 0)
  {
    assert x + [p] + [nx] + tl == x + [p, nx] + tl;
    if Fits([p, nx], a, b, SumA(x), SumB(x)) {
      MergeFits(p, nx, a, b, SumA(x), SumB(x));
    }
    MergeTotals(p, nx);
    ReplaceWindow(x, [p, nx], [p.(len := p.len + nx.len)], tl, a, b);
  }

  lemma {:induction false} MergeTotals(p: DiffInfo, nx: DiffInfo)
    requires p.kind == nx.kind
    ensures forall k :: Total([p.(len := p.len + nx.len)], k) == Total([p, nx], k)
  {
    TotalPair(p, nx);
    TotalSingle(p);
    TotalSingle(nx);
    TotalSingle(p.(len := p.len + nx.len));
  }

  // ---------------------------------------------------------------------------------
  // Replacements
  // ---------------------------------------------------------------------------------

  /**
   * Number of replacements in `d`, read from the front: a deletion block directly followed
   * by an insertion block counts once, and the reading resumes after the pair.
   */
  function Replaces(d: seq<DiffInfo>): nat
    decreases |d|
  {
    if |d| < 2 then 0
    else if d[0].kind == In1 && d[1].kind == In2 then 1 + Replaces(d[2..])
    else Replaces(d[1..])
  }

  /** Number of positions i where a deletion block is directly followed by an insertion block. */
  function Pairs(d: seq<DiffInfo>): nat
    decreases |d|
  {
    if |d| < 2 then 0
    else (if d[0].kind == In1 && d[1].kind == In2 then 1 else 0) + Pairs(d[1..])
  }

  /**
   * Skipping the insertion block of a counted pair loses no pair: an insertion block
   * cannot start one. So reading from the front counts every adjacent pair, and there are
   * at most half as many as blocks.
   */
  lemma {:induction false} ReplacesArePairs(d: seq<DiffInfo>)
    ensures Replaces(d) == Pairs(d) && 2 * Replaces(d) <= |d|
    decreases |d|
  {
    if |d| >= 2 {
      if d[0].kind == In1 && d[1].kind == In2 {
        ReplacesArePairs(d[2..]);
        assert d[1..][1..] == d[2..];
      } else {
        ReplacesArePairs(d[1..]);
      }
    }
  }
}

=== FILE: combine.dfy ===
/**
 * The optional combining pass of DiffCalc. A match block whose elements repeat at the end
 * of the difference block after it is moved behind that block: with [ ] around the
 * differences, [abc]d[efgd]hi becomes [abcdefg]dhi. The difference blocks that meet where
 * the match was are then joined, and a deletion that ends up after an insertion is put
 * before it.
 */
module CombinePass {
  import opened DiffBlocks

  // ---------------------------------------------------------------------------------
  // Counting match blocks
  // ---------------------------------------------------------------------------------

  /** Number of match blocks. */
  function Matches(d: seq<DiffInfo>): nat
  {
    if d == [] then 0 else (if d[0].kind == Match then 1 else 0) + Matches(d[1..])
  }

  /** Number of match blocks before the last block: each sink that keeps the length lowers it. */
  function InnerMatches(d: seq<DiffInfo>): nat
  {
    if d == [] then 0 else Matches(d[..|d| - 1])
  }

  lemma {:induction false} MatchesAppend(x: seq<DiffInfo>, y: seq<DiffInfo>)
    ensures Matches(x + y) == Matches(x) + Matches(y)
    decreases |x|
  {
    if x == [] {
      assert x + y == y;
    } else {
      assert (x + y)[1..] == x[1..] + y;
      MatchesAppend(x[1..], y);
    }
  }

  // ---------------------------------------------------------------------------------
  // One sink
  // ---------------------------------------------------------------------------------

  /**
   * The m elements of el before position q repeat as the last m of the n elements from q;
   * the pass compares them from the back.
   */
  predicate TailRepeats<T(==)>(el: seq<T>, q: int, n: int, m: int)
  {
    0 <= m <= q && 0 <= n && q + n <= |el| && el[q - m..q] == el[q + n - m..q + n]
  }

  /**
   * Offset in the first sequence of a match `mt` re-created behind the difference block
   * `nx`: a deletion moves it by the deletion's length, an insertion does not move it.
   */
  function EndOff(mt: DiffInfo, nx: DiffInfo): int
  {
    if nx.kind == In1 then mt.off + nx.len else mt.off
  }

  /** The same offset as diff.h computes it, for every kind of `nx`. */
  function EndOffAsWritten(mt: DiffInfo, nx: DiffInfo): (r: int)
    ensures nx.kind == In2 && nx.len != 0 ==> r != EndOff(mt, nx)
  {
    mt.off + nx.len
  }

  /**
   * The first steps of a sink: the match after the moved one grows by it (or a match is
   * re-created at the end, at offset `endOff`), the block after the moved match starts
   * that much earlier, and the moved match is erased.
   */
  function Moved(d: seq<DiffInfo>, i: int, endOff: int): seq<DiffInfo>
    requires 1 <= i && i + 1 < |d|
  {
    var m := d[i].len;
    var next := d[i + 1];
    var d1 := if i + 2 < |d| then d[i + 2 := d[i + 2].(off := d[i + 2].off - m, len := d[i + 2].len + m)]
              else d + [DiffInfo(Match, endOff, m)];
    var d2 := d1[i + 1 := next.(off := next.off - m)];
    d2[..i] + d2[i + 1..]
  }

  /**
   * The last steps of a sink, on the list `d3` Moved leaves: the block now at i joins the
   * block of its kind before it, or, when it is a deletion, is swapped with the insertion
   * before it. Returns the list and the next value of the loop index.
   */
  function Settle(d3: seq<DiffInfo>, i: int): (seq<DiffInfo>, int)
    requires 1 <= i < |d3|
  {
    var nx := d3[i];
    var k := if nx.kind != d3[i - 1].kind && i - 1 > 0 && d3[i - 2].kind == nx.kind then i - 2 else i - 1;
    if nx.kind == d3[k].kind then
      var d4 := d3[k := d3[k].(len := d3[k].len + nx.len)];
      (d4[..i] + d4[i + 1..], if k > 1 then k - 1 else i)
    else if nx.kind == In1 then
      (d3[k := nx][i := d3[k]], if k > 1 then k - 1 else i + 1)
    else
      (d3, if k > 1 then k - 1 else i + 1)
  }

  /** Sinks the match at i behind the block at i + 1, step by step as the pass does. */
  function Sink(d: seq<DiffInfo>, i: int, endOff: int): (seq<DiffInfo>, int)
    requires 1 <= i && i + 1 < |d|
  {
    Settle(Moved(d, i, endOff), i)
  }

  /** The blocks from the moved match on: the following match grown by it, or the match re-created at the end. */
  function Tail(d: seq<DiffInfo>, i: int, endOff: int): seq<DiffInfo>
    requires 1 <= i && i + 1 < |d|
  {
    var m := d[i].len;
    if i + 2 < |d| then [d[i + 2].(off := d[i + 2].off - m, len := d[i + 2].len + m)] + d[i + 3..]
    else [DiffInfo(Match, endOff, m)]
  }

  /**
   * What the last steps of a sink leave on x + [p, nx] + tl, with the loop at nx: nx joins
   * p when it has p's kind, else joins the last block of x over p when that has its kind,
   * else, when it is a deletion, goes before the insertion p.
   */
  function SettleResult(x: seq<DiffInfo>, p: DiffInfo, nx: DiffInfo, tl: seq<DiffInfo>): seq<DiffInfo>
  {
    if nx.kind == p.kind then x + [p.(len := p.len + nx.len)] + tl
    else if x != [] && Last(x).kind == nx.kind then x[..|x| - 1] + [Last(x).(len := Last(x).len + nx.len), p] + tl
    else if nx.kind == In1 then x + [nx, p] + tl
    else x + [p, nx] + tl
  }

  /** The list Sink leaves, block by block: the block after the match moved back over it, then settled. */
  function SinkResult(d: seq<DiffInfo>, i: int, endOff: int): seq<DiffInfo>
    requires 1 <= i && i + 1 < |d|
  {
    SettleResult(d[..i - 1], d[i - 1], d[i + 1].(off := d[i + 1].off - d[i].len), Tail(d, i, endOff))
  }

  /** Moved leaves the blocks before the match, the next block moved back, and the tail. */
  lemma {:induction false} MovedShape(d: seq<DiffInfo>, i: int, endOff: int)
    requires 1 <= i && i + 1 < |d|
    ensures Moved(d, i, endOff) == d[..i] + [d[i + 1].(off := d[i + 1].off - d[i].len)] + Tail(d, i, endOff)
  {
    if i + 2 < |d| {
      MovedLinkShape(d, i, endOff);
    } else {
      MovedEndShape(d, i, endOff);
    }
  }

  lemma {:induction false} MovedLinkShape(d: seq<DiffInfo>, i: int, endOff: int)
    requires 1 <= i && i + 2 < |d|
    ensures Moved(d, i, endOff) == d[..i] + [d[i + 1].(off := d[i + 1].off - d[i].len)] + Tail(d, i, endOff)
  {
    var m := d[i].len;
    var d1 := d[i + 2 := d[i + 2].(off := d[i + 2].off - m, len := d[i + 2].len + m)];
    var d2 := d1[i + 1 := d[i + 1].(off := d[i + 1].off - m)];
    assert d2[..i] == d[..i];
    assert d2[i + 1..] == [d2[i + 1]] + [d1[i + 2]] + d[i + 3..];
  }

  lemma {:induction false} MovedEndShape(d: seq<DiffInfo>, i: int, endOff: int)
    requires 1 <= i && i + 2 == |d|
    ensures Moved(d, i, endOff) == d[..i] + [d[i + 1].(off := d[i + 1].off - d[i].len)] + Tail(d, i, endOff)
  {
    var m := d[i].len;
    var d1 := d + [DiffInfo(Match, endOff, m)];
    var d2 := d1[i + 1 := d[i + 1].(off := d[i + 1].off - m)];
    assert d2[..i] == d[..i];
    assert d2[i + 1..] == [d2[i + 1], DiffInfo(Match, endOff, m)];
  }

  /** Settle on a list whose blocks at i - 1 and i are p and nx leaves what SettleResult says. */
  lemma {:induction false} SettleShape(x: seq<DiffInfo>, p: DiffInfo, nx: DiffInfo, tl: seq<DiffInfo>)
    ensures Settle(x + [p] + [nx] + tl, |x| + 1).0 == SettleResult(x, p, nx, tl)
  {
    if nx.kind == p.kind {
      SettleMerge(x, p, nx, tl);
    } else if x != [] && Last(x).kind == nx.kind {
      SettleMergeOver(x, p, nx, tl);
    } else if nx.kind == In1 {
      SettleSwap(x, p, nx, tl);
    } else {
      SettleKeep(x, p, nx, tl);
    }
  }

  lemma {:induction false} SettleMerge(x: seq<DiffInfo>, p: DiffInfo, nx: DiffInfo, tl: seq<DiffInfo>)
    requires nx.kind == p.kind
    ensures Settle(x + [p] + [nx] + tl, |x| + 1).0 == x + [p.(len := p.len + nx.len)] + tl
  {
    var i := |x| + 1;
    var d3 := x + [p] + [nx] + tl;
    assert d3[i] == nx && d3[i - 1] == p;
    var d4 := d3[i - 1 := p.(len := p.len + nx.len)];
    assert d4[..i] == x + [p.(len := p.len + nx.len)];
    assert d4[i + 1..] == tl;
  }

  lemma {:induction false} SettleMergeOver(x: seq<DiffInfo>, p: DiffInfo, nx: DiffInfo, tl: seq<DiffInfo>)
    requires nx.kind != p.kind && x != [] && Last(x).kind == nx.kind
    ensures Settle(x + [p] + [nx] + tl, |x| + 1).0 == x[..|x| - 1] + [Last(x).(len := Last(x).len + nx.len), p] + tl
  {
    var i := |x| + 1;
    var d3 := x + [p] + [nx] + tl;
    assert d3[i] == nx && d3[i - 1] == p && d3[i - 2] == Last(x);
    var d4 := d3[i - 2 := Last(x).(len := Last(x).len + nx.len)];
    assert d4[..i] == x[..i - 2] + [Last(x).(len := Last(x).len + nx.len), p];
    assert d4[i + 1..] == tl;
  }

  lemma {:induction false} SettleSwap(x: seq<DiffInfo>, p: DiffInfo, nx: DiffInfo, tl: seq<DiffInfo>)
    requires nx.kind != p.kind && !(x != [] && Last(x).kind == nx.kind) && nx.kind == In1
    ensures Settle(x + [p] + [nx] + tl, |x| + 1).0 == x + [nx, p] + tl
  {
    var i := |x| + 1;
    var d3 := x + [p] + [nx] + tl;
    assert d3[i] == nx && d3[i - 1] == p && (i > 1 ==> d3[i - 2] == Last(x));
    assert d3[i - 1 := nx][i := p] == x + [nx, p] + tl;
  }

  lemma {:induction false} SettleKeep(x: seq<DiffInfo>, p: DiffInfo, nx: DiffInfo, tl: seq<DiffInfo>)
    requires nx.kind != p.kind && !(x != [] && Last(x).kind == nx.kind) && nx.kind != In1
    ensures Settle(x + [p] + [nx] + tl, |x| + 1).0 == x + [p, nx] + tl
  {
    var i := |x| + 1;
    var d3 := x + [p] + [nx] + tl;
    assert d3[i] == nx && d3[i - 1] == p && (i > 1 ==> d3[i - 2] == Last(x));
    assert d3 == x + [p, nx] + tl;
  }

  /** Sink leaves the list SinkResult describes. */
  lemma {:induction false} SinkIsResult(d: seq<DiffInfo>, i: int, endOff: int)
    requires 1 <= i && i + 1 < |d|
    ensures Sink(d, i, endOff).0 == SinkResult(d, i, endOff)
  {
    MovedShape(d, i, endOff);
    assert d[..i] == d[..i - 1] + [d[i - 1]];
    SettleShape(d[..i - 1], d[i - 1], d[i + 1].(off := d[i + 1].off - d[i].len), Tail(d, i, endOff));
  }

  /** The tail of a sink starts with a match and is well kinded. */
  lemma {:induction false} TailKinds(d: seq<DiffInfo>, i: int, endOff: int)
    requires 1 <= i && i + 1 < |d| && Coalesced(d) && NoIn2In1(d) && d[i].kind == Match
    requires !(d[i + 1].kind == In1 && i + 2 < |d| && d[i + 2].kind == In2)
    ensures var tl := Tail(d, i, endOff); tl != [] && tl[0].kind == Match && Coalesced(tl) && NoIn2In1(tl)
  {
    if i + 2 < |d| {
      var r0 := d[i + 2].(off := d[i + 2].off - d[i].len, len := d[i + 2].len + d[i].len);
      assert d[i + 1].kind != d[i + 2].kind && d[i].kind != d[i + 1].kind;
      assert !(d[i + 1].kind == In2 && d[i + 2].kind == In1);
      KindsSlice(d, i + 3, |d|);
      if i + 3 < |d| {
        assert Good(d[i + 2], d[i + 3]) && d[i + 3..][0] == d[i + 3];
      }
      KindsAppend([r0], d[i + 3..]);
    }
  }

  /** The front x of a well-kinded list x + [p], and x without its last block, are well kinded. */
  lemma {:induction false} FrontKinds(x: seq<DiffInfo>, p: DiffInfo)
    requires Coalesced(x + [p]) && NoIn2In1(x + [p])
    ensures Coalesced(x) && NoIn2In1(x) && (x != [] ==> Good(Last(x), p))
    ensures x != [] ==> Coalesced(x[..|x| - 1]) && NoIn2In1(x[..|x| - 1])
    ensures |x| > 1 ==> Good(x[|x| - 2], Last(x))
  {
    var z := x + [p];
    KindsSlice(z, 0, |x|);
    assert z[0..|x|] == x;
    if x != [] {
      assert z[|x| - 1] == Last(x) && z[|x|] == p;
      KindsSlice(z, 0, |x| - 1);
      assert z[0..|x| - 1] == x[..|x| - 1];
    }
    if |x| > 1 {
      assert z[|x| - 2] == x[|x| - 2];
    }
  }

  /** What Settle leaves is well kinded, when the tail starts with a match. */
  lemma {:induction false} SettleKinds(x: seq<DiffInfo>, p: DiffInfo, nx: DiffInfo, tl: seq<DiffInfo>)
    requires Coalesced(x + [p]) && NoIn2In1(x + [p]) && p.kind != Match && nx.kind != Match
    requires tl != [] && tl[0].kind == Match && Coalesced(tl) && NoIn2In1(tl)
    ensures Coalesced(SettleResult(x, p, nx, tl)) && NoIn2In1(SettleResult(x, p, nx, tl))
  {
    FrontKinds(x, p);
    if nx.kind == p.kind {
      Splice(x, [p.(len := p.len + nx.len)], tl);
    } else if x != [] && Last(x).kind == nx.kind {
      assert x[..|x| - 1] != [] ==> Last(x[..|x| - 1]) == x[|x| - 2];
      Splice(x[..|x| - 1], [Last(x).(len := Last(x).len + nx.len), p], tl);
    } else if nx.kind == In1 {
      Splice(x, [nx, p], tl);
    } else {
      Splice(x, [p, nx], tl);
    }
  }

  /** The blocks of a well-kinded list up to the match at i, and the kinds around that match. */
  lemma {:induction false} FrontOf(d: seq<DiffInfo>, i: int)
    requires 1 <= i && i + 1 < |d| && Coalesced(d) && NoIn2In1(d) && d[i].kind == Match
    ensures Coalesced(d[..i - 1] + [d[i - 1]]) && NoIn2In1(d[..i - 1] + [d[i - 1]])
    ensures d[i - 1].kind != Match && d[i + 1].kind != Match
  {
    KindsSlice(d, 0, i);
    assert d[0..i] == d[..i - 1] + [d[i - 1]];
    assert d[i - 1].kind != d[i].kind && d[i].kind != d[i + 1].kind;
  }

  /** The list SinkResult describes is well kinded. */
  lemma {:induction false} ResultKinds(d: seq<DiffInfo>, i: int, endOff: int)
    requires 1 <= i && i + 1 < |d| && Coalesced(d) && NoIn2In1(d) && d[i].kind == Match
    requires !(d[i + 1].kind == In1 && i + 2 < |d| && d[i + 2].kind == In2)
    ensures Coalesced(SinkResult(d, i, endOff)) && NoIn2In1(SinkResult(d, i, endOff))
  {
    TailKinds(d, i, endOff);
    FrontOf(d, i);
    SettleKinds(d[..i - 1], d[i - 1], d[i + 1].(off := d[i + 1].off - d[i].len), Tail(d, i, endOff));
  }

  /** The list SinkResult describes is shorter, or as long with fewer matches before its last block. */
  lemma {:induction false} ResultShrinks(d: seq<DiffInfo>, i: int, endOff: int)
    requires 1 <= i && i + 1 < |d| && Coalesced(d) && d[i].kind == Match
    ensures var r := SinkResult(d, i, endOff);
            |r| < |d| || (|r| == |d| && InnerMatches(r) < InnerMatches(d))
  {
    var r := SinkResult(d, i, endOff);
    var x, p := d[..i - 1], d[i - 1];
    var nx := d[i + 1].(off := d[i + 1].off - d[i].len);
    assert d[i - 1].kind != d[i].kind && d[i].kind != d[i + 1].kind;
    if i + 2 == |d| && nx.kind != p.kind && !(x != [] && Last(x).kind == nx.kind) {
      var w := if nx.kind == In1 then [nx, p] else [p, nx];
      assert r == x + w + [DiffInfo(Match, endOff, d[i].len)];
      assert r[..|r| - 1] == x + w && d[..|d| - 1] == x + [p, d[i]];
      MatchesAppend(x, w);
      MatchesAppend(x, [p, d[i]]);
      assert [p, d[i]][1..] == [d[i]] && [d[i]][1..] == [];
      assert w[1..] == [w[1]] && [w[1]][1..] == [];
    }
  }

  /** Sinking keeps the blocks well kinded, moves the loop back no further than 1, and shrinks the list or its inner matches. */
  lemma {:induction false} SinkKinds(d: seq<DiffInfo>, i: int, endOff: int)
    requires 1 <= i && i + 1 < |d| && Coalesced(d) && NoIn2In1(d) && d[i].kind == Match
    requires !(d[i + 1].kind == In1 && i + 2 < |d| && d[i + 2].kind == In2)
    ensures var (r, j) := Sink(d, i, endOff);
            Coalesced(r) && NoIn2In1(r) && 1 <= j &&
            (|r| < |d| || (|r| == |d| && InnerMatches(r) < InnerMatches(d)))
  {
    SinkIsResult(d, i, endOff);
    ResultKinds(d, i, endOff);
    ResultShrinks(d, i, endOff);
  }

  // ---------------------------------------------------------------------------------
  // A sink keeps the description
  // ---------------------------------------------------------------------------------

  /**
   * Moving the match `mt` behind the difference block `nx` it repeats the end of: the
   * block starts where the match did, and a match re-created behind it pairs the repeated
   * elements.
   */
  lemma {:induction false} MoveBlocks<T>(mt: DiffInfo, nx: DiffInfo, a: seq<T>, b: seq<T>, ia: int, ib: int)
    requires mt.kind == Match && nx.kind != Match && mt.len <= nx.len
    requires TailRepeats(if nx.kind == In1 then a else b, nx.off, nx.len, mt.len)
    requires BlockFits(mt, a, b, ia, ib) && BlockFits(nx, a, b, ia + mt.len, ib + mt.len)
    ensures BlockFits(nx.(off := nx.off - mt.len), a, b, ia, ib)
    ensures BlockFits(DiffInfo(Match, EndOff(mt, nx), mt.len), a, b, ia + LenA(nx), ib + LenB(nx))
  {
    if nx.kind == In1 {
      MoveBlocksDeleted(mt, nx, a, b, ia, ib);
    } else {
      MoveBlocksInserted(mt, nx, a, b, ia, ib);
    }
  }

  lemma {:induction false} MoveBlocksDeleted<T>(mt: DiffInfo, nx: DiffInfo, a: seq<T>, b: seq<T>, ia: int, ib: int)
    requires mt.kind == Match && nx.kind == In1 && mt.len <= nx.len
    requires TailRepeats(a, nx.off, nx.len, mt.len)
    requires BlockFits(mt, a, b, ia, ib) && BlockFits(nx, a, b, ia + mt.len, ib + mt.len)
    ensures BlockFits(nx.(off := nx.off - mt.len), a, b, ia, ib)
    ensures BlockFits(DiffInfo(Match, mt.off + nx.len, mt.len), a, b, ia + nx.len, ib)
  {
    assert a[ia..ia + mt.len] == a[ia + nx.len..ia + nx.len + mt.len];
  }

  lemma {:induction false} MoveBlocksInserted<T>(mt: DiffInfo, nx: DiffInfo, a: seq<T>, b: seq<T>, ia: int, ib: int)
    requires mt.kind == Match && nx.kind == In2 && mt.len <= nx.len
    requires TailRepeats(b, nx.off, nx.len, mt.len)
    requires BlockFits(mt, a, b, ia, ib) && BlockFits(nx, a, b, ia + mt.len, ib + mt.len)
    ensures BlockFits(nx.(off := nx.off - mt.len), a, b, ia, ib)
    ensures BlockFits(DiffInfo(Match, mt.off, mt.len), a, b, ia, ib + nx.len)
  {
    assert b[ib..ib + mt.len] == b[ib + nx.len..ib + nx.len + mt.len];
  }

  /** The match re-created behind `nx` joins the match `r` after it. */
  lemma {:induction false} LinkBlocks<T>(mt: DiffInfo, nx: DiffInfo, r: DiffInfo, a: seq<T>, b: seq<T>, ia: int, ib: int)
    requires mt.kind == Match && nx.kind != Match && mt.len <= nx.len && r.kind == Match
    requires BlockFits(DiffInfo(Match, EndOff(mt, nx), mt.len), a, b, ia + LenA(nx), ib + LenB(nx))
    requires BlockFits(r, a, b, ia + LenA(nx) + mt.len, ib + LenB(nx) + mt.len)
    ensures BlockFits(r.(off := r.off - mt.len, len := r.len + mt.len), a, b, ia + LenA(nx), ib + LenB(nx))
  {
    var en := DiffInfo(Match, EndOff(mt, nx), mt.len);
    BlockGrow(en, r.len, a, b, ia + LenA(nx), ib + LenB(nx));
    assert en.(len := en.len + r.len) == r.(off := r.off - mt.len, len := r.len + mt.len);
  }

  /** Moving a match behind a difference block and joining it to the match after that block. */
  lemma {:induction false} MoveLink<T>(mt: DiffInfo, nx: DiffInfo, r: DiffInfo, a: seq<T>, b: seq<T>, ia: int, ib: int)
    requires mt.kind == Match && nx.kind != Match && mt.len <= nx.len && r.kind == Match
    requires TailRepeats(if nx.kind == In1 then a else b, nx.off, nx.len, mt.len)
    requires Fits([mt, nx, r], a, b, ia, ib)
    ensures var n2, r2 := nx.(off := nx.off - mt.len), r.(off := r.off - mt.len, len := r.len + mt.len);
            Fits([n2, r2], a, b, ia, ib)
  {
    var n2, r2 := nx.(off := nx.off - mt.len), r.(off := r.off - mt.len, len := r.len + mt.len);
    TripleParts(mt, nx, r, a, b, ia, ib);
    MoveLinkBlocks(mt, nx, r, a, b, ia, ib);
    PairFits(n2, r2, a, b, ia, ib);
  }

  /** The blocks of MoveLink, one by one. */
  lemma {:induction false} MoveLinkBlocks<T>(mt: DiffInfo, nx: DiffInfo, r: DiffInfo, a: seq<T>, b: seq<T>, ia: int, ib: int)
    requires mt.kind == Match && nx.kind != Match && mt.len <= nx.len && r.kind == Match
    requires TailRepeats(if nx.kind == In1 then a else b, nx.off, nx.len, mt.len)
    requires BlockFits(mt, a, b, ia, ib) && BlockFits(nx, a, b, ia + LenA(mt), ib + LenB(mt))
    requires BlockFits(r, a, b, ia + LenA(mt) + LenA(nx), ib + LenB(mt) + LenB(nx))
    ensures var n2, r2 := nx.(off := nx.off - mt.len), r.(off := r.off - mt.len, len := r.len + mt.len);
            BlockFits(n2, a, b, ia, ib) && BlockFits(r2, a, b, ia + LenA(n2), ib + LenB(n2))
  {
    var n2 := nx.(off := nx.off - mt.len);
    MoveBlocks(mt, nx, a, b, ia, ib);
    LinkBlocks(mt, nx, r, a, b, ia, ib);
    assert LenA(n2) == LenA(nx) && LenB(n2) == LenB(nx);
  }

  lemma {:induction false} MoveLinkSums(mt: DiffInfo, nx: DiffInfo, r: DiffInfo)
    requires mt.kind == Match && r.kind == Match
    ensures var n2, r2 := nx.(off := nx.off - mt.len), r.(off := r.off - mt.len, len := r.len + mt.len);
            forall k :: Total([n2, r2], k) == Total([mt, nx, r], k)
  {
    var n2, r2 := nx.(off := nx.off - mt.len), r.(off := r.off - mt.len, len := r.len + mt.len);
    TotalPair(n2, r2);
    TotalTriple(mt, nx, r);
    TotalSingle(mt);
    TotalSingle(nx);
    TotalSingle(r);
    TotalSingle(n2);
    TotalSingle(r2);
  }

  /** Moving a match behind a difference block and joining it to the next match keeps the counts of elements. */
  lemma {:induction false} MoveLinkCounts(mt: DiffInfo, nx: DiffInfo, r: DiffInfo)
    requires mt.kind == Match && r.kind == Match
    ensures var n2, r2 := nx.(off := nx.off - mt.len), r.(off := r.off - mt.len, len := r.len + mt.len);
            SumA([n2, r2]) == SumA([mt, nx, r]) && SumB([n2, r2]) == SumB([mt, nx, r])
  {
    MoveLinkSums(mt, nx, r);
  }

  /** Moving the last match behind a difference block keeps the counts of elements. */
  lemma {:induction false} MoveEndCounts(mt: DiffInfo, nx: DiffInfo, e: int)
    requires mt.kind == Match
    ensures var n2, en := nx.(off := nx.off - mt.len), DiffInfo(Match, e, mt.len);
            SumA([n2, en]) == SumA([mt, nx]) && SumB([n2, en]) == SumB([mt, nx])
  {
    MoveEndSums(mt, nx, e);
  }

  /** The first steps of a sink keep the fit, when a match follows the moved block. */
  lemma {:induction false} MovedFitsLink<T>(d: seq<DiffInfo>, i: int, a: seq<T>, b: seq<T>, e: int)
    requires 1 <= i && i + 2 < |d| && d[i].kind == Match && d[i + 1].kind != Match && d[i + 2].kind == Match
    requires d[i].len <= d[i + 1].len
    requires TailRepeats(if d[i + 1].kind == In1 then a else b, d[i + 1].off, d[i + 1].len, d[i].len)
    requires Fits(d, a, b, 0, 0)
    ensures Fits(d[..i] + [d[i + 1].(off := d[i + 1].off - d[i].len)] + Tail(d, i, e), a, b, 0, 0)
  {
    LinkParts(d, i, e);
    MoveLinkWithin(d[..i], d[i], d[i + 1], d[i + 2], d[i + 3..], a, b);
  }

  /** MoveLink inside a list. */
  lemma {:induction false} MoveLinkWithin<T>(x: seq<DiffInfo>, mt: DiffInfo, nx: DiffInfo, r: DiffInfo, y: seq<DiffInfo>, a: seq<T>, b: seq<T>)
    requires mt.kind == Match && nx.kind != Match && mt.len <= nx.len && r.kind == Match
    requires TailRepeats(if nx.kind == In1 then a else b, nx.off, nx.len, mt.len)
    requires Fits(x + [mt, nx, r] + y, a, b, 0, 0)
    ensures var n2, r2 := nx.(off := nx.off - mt.len), r.(off := r.off - mt.len, len := r.len + mt.len);
            Fits(x + [n2, r2] + y, a, b, 0, 0)
  {
    var n2, r2 := nx.(off := nx.off - mt.len), r.(off := r.off - mt.len, len := r.len + mt.len);
    FitsApart(x, [mt, nx, r], y, a, b);
    MoveLink(mt, nx, r, a, b, SumA(x), SumB(x));
    MoveLinkCounts(mt, nx, r);
    FitsTogether(x, [n2, r2], y, a, b);
  }

  /** The parts of a list around a match with a match two places after it, before and after the first steps of a sink. */
  lemma {:induction false} LinkParts(d: seq<DiffInfo>, i: int, e: int)
    requires 1 <= i && i + 2 < |d|
    ensures d == d[..i] + [d[i], d[i + 1], d[i + 2]] + d[i + 3..]
    ensures var n2, r2 := d[i + 1].(off := d[i + 1].off - d[i].len), d[i + 2].(off := d[i + 2].off - d[i].len, len := d[i + 2].len + d[i].len);
            d[..i] + [n2] + Tail(d, i, e) == d[..i] + [n2, r2] + d[i + 3..]
  {
    var n2, r2 := d[i + 1].(off := d[i + 1].off - d[i].len), d[i + 2].(off := d[i + 2].off - d[i].len, len := d[i + 2].len + d[i].len);
    assert Tail(d, i, e) == [r2] + d[i + 3..];
    assert [n2] + ([r2] + d[i + 3..]) == [n2, r2] + d[i + 3..];
  }

  /** Moving the last match behind the difference block before it. */
  lemma {:induction false} MoveEnd<T>(mt: DiffInfo, nx: DiffInfo, a: seq<T>, b: seq<T>, ia: int, ib: int)
    requires mt.kind == Match && nx.kind != Match && mt.len <= nx.len
    requires TailRepeats(if nx.kind == In1 then a else b, nx.off, nx.len, mt.len)
    requires Fits([mt, nx], a, b, ia, ib)
    ensures Fits([nx.(off := nx.off - mt.len), DiffInfo(Match, EndOff(mt, nx), mt.len)], a, b, ia, ib)
  {
    PairParts(mt, nx, a, b, ia, ib);
    MoveBlocks(mt, nx, a, b, ia, ib);
    PairFits(nx.(off := nx.off - mt.len), DiffInfo(Match, EndOff(mt, nx), mt.len), a, b, ia, ib);
  }

  lemma {:induction false} MoveEndSums(mt: DiffInfo, nx: DiffInfo, e: int)
    requires mt.kind == Match
    ensures forall k :: Total([nx.(off := nx.off - mt.len), DiffInfo(Match, e, mt.len)], k) == Total([mt, nx], k)
  {
    var n2, en := nx.(off := nx.off - mt.len), DiffInfo(Match, e, mt.len);
    TotalPair(n2, en);
    TotalPair(mt, nx);
    TotalSingle(mt);
    TotalSingle(nx);
    TotalSingle(n2);
    TotalSingle(en);
  }

  /** The first steps of a sink keep the fit, when the moved block is the last. */
  lemma {:induction false} MovedFitsEnd<T>(d: seq<DiffInfo>, i: int, a: seq<T>, b: seq<T>)
    requires 1 <= i && i + 2 == |d| && d[i].kind == Match && d[i + 1].kind != Match
    requires d[i].len <= d[i + 1].len
    requires TailRepeats(if d[i + 1].kind == In1 then a else b, d[i + 1].off, d[i + 1].len, d[i].len)
    requires Fits(d, a, b, 0, 0)
    ensures Fits(d[..i] + [d[i + 1].(off := d[i + 1].off - d[i].len)] + Tail(d, i, EndOff(d[i], d[i + 1])), a, b, 0, 0)
  {
    var mt, nx := d[i], d[i + 1];
    var n2, en := nx.(off := nx.off - mt.len), DiffInfo(Match, EndOff(mt, nx), mt.len);
    var x := d[..i];
    assert d == x + [mt, nx] + [];
    FitsApart(x, [mt, nx], [], a, b);
    MoveEnd(mt, nx, a, b, SumA(x), SumB(x));
    MoveEndCounts(mt, nx, EndOff(mt, nx));
    FitsTogether(x, [n2, en], [], a, b);
    assert x + [n2, en] + [] == x + [n2] + Tail(d, i, EndOff(mt, nx));
  }

  /** A deletion and an insertion next to each other fit in either order. */
  lemma {:induction false} SwapFits<T>(p: DiffInfo, nx: DiffInfo, a: seq<T>, b: seq<T>, ia: int, ib: int)
    requires p.kind != Match && nx.kind != Match && p.kind != nx.kind && Fits([p, nx], a, b, ia, ib)
    ensures Fits([nx, p], a, b, ia, ib)
  {
    FitsPair(p, nx, a, b, ia, ib);
    FitsPair(nx, p, a, b, ia, ib);
  }

  /** A block joins the block of its kind two places back, over a block of the other difference kind. */
  lemma {:induction false} MergeOverFits<T>(q: DiffInfo, p: DiffInfo, nx: DiffInfo, a: seq<T>, b: seq<T>, ia: int, ib: int)
    requires q.kind == nx.kind && p.kind != Match && nx.kind != Match && p.kind != nx.kind
    requires Fits([q, p, nx], a, b, ia, ib)
    ensures Fits([q.(len := q.len + nx.len), p], a, b, ia, ib)
  {
    var ja, jb := ia + LenA(q), ib + LenB(q);
    FitsTriple(q, p, nx, a, b, ia, ib);
    assert BlockFits(nx, a, b, ja, jb) && BlockFits(p, a, b, ja + LenA(nx), jb + LenB(nx));
    BlockGrow(q, nx.len, a, b, ia, ib);
    FitsPair(q.(len := q.len + nx.len), p, a, b, ia, ib);
  }

  /** A block joins the block of its kind two places back, keeping the fit. */
  lemma {:induction false} SettleMergeOverFits<T>(x: seq<DiffInfo>, p: DiffInfo, nx: DiffInfo, tl: seq<DiffInfo>, a: seq<T>, b: seq<T>)
    requires p.kind != Match && nx.kind != Match && nx.kind != p.kind && x != [] && Last(x).kind == nx.kind
    requires Fits(x + [p] + [nx] + tl, a, b, 0, 0)
    ensures Fits(x[..|x| - 1] + [Last(x).(len := Last(x).len + nx.len), p] + tl, a, b, 0, 0)
  {
    var y, q := x[..|x| - 1], Last(x);
    assert x == y + [q];
    assert x + [p] + [nx] + tl == y + [q, p, nx] + tl;
    if Fits([q, p, nx], a, b, SumA(y), SumB(y)) {
      MergeOverFits(q, p, nx, a, b, SumA(y), SumB(y));
    }
    MergeOverTotals(q, p, nx);
    ReplaceWindow(y, [q, p, nx], [q.(len := q.len + nx.len), p], tl, a, b);
  }

  /** A deletion after an insertion goes before it, keeping the fit. */
  lemma {:induction false} SettleSwapFits<T>(x: seq<DiffInfo>, p: DiffInfo, nx: DiffInfo, tl: seq<DiffInfo>, a: seq<T>, b: seq<T>)
    requires p.kind != Match && nx.kind != Match && nx.kind != p.kind
    requires Fits(x + [p] + [nx] + tl, a, b, 0, 0)
    ensures Fits(x + [nx, p] + tl, a, b, 0, 0)
  {
    assert x + [p] + [nx] + tl == x + [p, nx] + tl;
    if Fits([p, nx], a, b, SumA(x), SumB(x)) {
      SwapFits(p, nx, a, b, SumA(x), SumB(x));
    }
    TotalPair(p, nx);
    TotalPair(nx, p);
    ReplaceWindow(x, [p, nx], [nx, p], tl, a, b);
  }

  /** The last steps of a sink keep the fit. */
  lemma {:induction false} SettleFits<T>(x: seq<DiffInfo>, p: DiffInfo, nx: DiffInfo, tl: seq<DiffInfo>, a: seq<T>, b: seq<T>)
    requires p.kind != Match && nx.kind != Match && Fits(x + [p] + [nx] + tl, a, b, 0, 0)
    ensures Fits(SettleResult(x, p, nx, tl), a, b, 0, 0)
  {
    if nx.kind == p.kind {
      JoinFits(x, p, nx, tl, a, b);
    } else if x != [] && Last(x).kind == nx.kind {
      SettleMergeOverFits(x, p, nx, tl, a, b);
    } else if nx.kind == In1 {
      SettleSwapFits(x, p, nx, tl, a, b);
    } else {
      assert x + [p] + [nx] + tl == x + [p, nx] + tl;
    }
  }

  lemma {:induction false} MergeOverTotals(q: DiffInfo, p: DiffInfo, nx: DiffInfo)
    requires q.kind == nx.kind
    ensures forall k :: Total([q.(len := q.len + nx.len), p], k) == Total([q, p, nx], k)
  {
    TotalTriple(q, p, nx);
    TotalPair(q.(len := q.len + nx.len), p);
    TotalSingle(q);
    TotalSingle(nx);
    TotalSingle(q.(len := q.len + nx.len));
  }

  /** The last steps of a sink keep the totals. */
  lemma {:induction false} SettleTotals(x: seq<DiffInfo>, p: DiffInfo, nx: DiffInfo, tl: seq<DiffInfo>)
    ensures forall k :: Total(SettleResult(x, p, nx, tl), k) == Total(x + [p] + [nx] + tl, k)
  {
    assert x + [p] + [nx] + tl == x + [p, nx] + tl;
    if nx.kind == p.kind {
      MergeTotals(p, nx);
      ReplaceTotals(x, [p, nx], [p.(len := p.len + nx.len)], tl);
    } else if x != [] && Last(x).kind == nx.kind {
      var y, q := x[..|x| - 1], Last(x);
      assert x == y + [q];
      assert x + [p, nx] + tl == y + [q, p, nx] + tl;
      MergeOverTotals(q, p, nx);
      ReplaceTotals(y, [q, p, nx], [q.(len := q.len + nx.len), p], tl);
    } else if nx.kind == In1 {
      TotalPair(p, nx);
      TotalPair(nx, p);
      ReplaceTotals(x, [p, nx], [nx, p], tl);
    }
  }

  /** The first steps of a sink keep the totals, whatever offset the re-created match gets. */
  lemma {:induction false} MovedTotals(d: seq<DiffInfo>, i: int, e: int)
    requires 1 <= i && i + 1 < |d| && d[i].kind == Match && (i + 2 < |d| ==> d[i + 2].kind == Match)
    ensures forall k :: Total(d[..i] + [d[i + 1].(off := d[i + 1].off - d[i].len)] + Tail(d, i, e), k) == Total(d, k)
  {
    var mt, nx := d[i], d[i + 1];
    var n2 := nx.(off := nx.off - mt.len);
    var x := d[..i];
    var tl := Tail(d, i, e);
    if i + 2 < |d| {
      var r := d[i + 2];
      var r2 := r.(off := r.off - mt.len, len := r.len + mt.len);
      assert d == x + [mt, nx, r] + d[i + 3..];
      MoveLinkSums(mt, nx, r);
      ReplaceTotals(x, [mt, nx, r], [n2, r2], d[i + 3..]);
      assert x + [n2, r2] + d[i + 3..] == x + [n2] + tl;
    } else {
      var en := DiffInfo(Match, e, mt.len);
      assert d == x + [mt, nx] + [];
      MoveEndSums(mt, nx, e);
      ReplaceTotals(x, [mt, nx], [n2, en], []);
      assert x + [n2, en] + [] == x + [n2] + tl;
    }
  }

  /**
   * A sink keeps the totals: as many matched, deleted and inserted elements, whatever
   * offset the re-created match gets.
   */
  lemma {:induction false} SinkTotals(d: seq<DiffInfo>, i: int, e: int)
    requires 1 <= i && i + 1 < |d| && d[i].kind == Match && (i + 2 < |d| ==> d[i + 2].kind == Match)
    ensures forall k :: Total(SinkResult(d, i, e), k) == Total(d, k)
  {
    MovedTotals(d, i, e);
    assert d[..i] == d[..i - 1] + [d[i - 1]];
    SettleTotals(d[..i - 1], d[i - 1], d[i + 1].(off := d[i + 1].off - d[i].len), Tail(d, i, e));
  }

  /**
   * A sink keeps the description: the list still fits both sequences, block by block, and
   * accounts for as many matched, deleted and inserted elements.
   */
  lemma {:induction false} SinkFits<T>(d: seq<DiffInfo>, i: int, a: seq<T>, b: seq<T>)
    requires 1 <= i && i + 1 < |d| && Coalesced(d) && NoIn2In1(d) && d[i].kind == Match
    requires !(d[i + 1].kind == In1 && i + 2 < |d| && d[i + 2].kind == In2)
    requires d[i].len <= d[i + 1].len
    requires TailRepeats(if d[i + 1].kind == In1 then a else b, d[i + 1].off, d[i + 1].len, d[i].len)
    requires Fits(d, a, b, 0, 0)
    ensures var r := SinkResult(d, i, EndOff(d[i], d[i + 1]));
            Fits(r, a, b, 0, 0) && forall k :: Total(r, k) == Total(d, k)
  {
    var e := EndOff(d[i], d[i + 1]);
    assert d[i - 1].kind != d[i].kind && d[i].kind != d[i + 1].kind;
    if i + 2 < |d| {
      assert d[i + 1].kind != d[i + 2].kind && !(d[i + 1].kind == In2 && d[i + 2].kind == In1);
      MovedFitsLink(d, i, a, b, e);
    } else {
      MovedFitsEnd(d, i, a, b);
    }
    assert d[..i] == d[..i - 1] + [d[i - 1]];
    SettleFits(d[..i - 1], d[i - 1], d[i + 1].(off := d[i + 1].off - d[i].len), Tail(d, i, e), a, b);
    SinkTotals(d, i, e);
  }

  /** The block at index i fits where the blocks before it end. */
  lemma {:induction false} FitsAt<T>(d: seq<DiffInfo>, a: seq<T>, b: seq<T>, i: int)
    requires 0 <= i < |d| && Fits(d, a, b, 0, 0)
    ensures BlockFits(d[i], a, b, SumA(d[..i]), SumB(d[..i]))
  {
    assert d == d[..i] + d[i..];
    FitsAppend(d[..i], d[i..], a, b, 0, 0);
  }

  /**
   * In a list that fits, the run a match would be compared with, the elements just before
   * the difference block after it, lies inside the sequence that block indexes.
   */
  lemma {:induction false} NextInRange<T>(d: seq<DiffInfo>, a: seq<T>, b: seq<T>, i: int)
    requires 0 <= i && i + 1 < |d| && Fits(d, a, b, 0, 0) && d[i].kind == Match && d[i + 1].kind != Match
    ensures var el := if d[i + 1].kind == In1 then a else b;
            0 <= d[i].len <= d[i + 1].off && 0 <= d[i + 1].len && d[i + 1].off + d[i + 1].len <= |el|
  {
    FitsAt(d, a, b, i);
    FitsAt(d, a, b, i + 1);
    assert d[..i + 1] == d[..i] + [d[i]];
    SumAppendSingle(d[..i], d[i]);
  }

  /** One more equal pair, compared from the back, extends the repeated tail by one. */
  lemma {:induction false} TailStep<T>(el: seq<T>, q: int, n: int, t: int)
    requires 0 <= t < q && 0 <= n && q + n <= |el|
    requires el[q - t..q] == el[q + n - t..q + n] && el[q - 1 - t] == el[q + n - 1 - t]
    ensures el[q - (t + 1)..q] == el[q + n - (t + 1)..q + n]
  {
    assert el[q - (t + 1)..q] == [el[q - 1 - t]] + el[q - t..q];
    assert el[q + n - (t + 1)..q + n] == [el[q + n - 1 - t]] + el[q + n - t..q + n];
  }

  /** A differing pair among the last m compared ones means the tail does not repeat. */
  lemma {:induction false} TailBreak<T>(el: seq<T>, q: int, n: int, m: int, t: int)
    requires 0 <= t < m <= q && 0 <= n && q + n <= |el| && el[q - 1 - t] != el[q + n - 1 - t]
    ensures !TailRepeats(el, q, n, m)
  {
    assert el[q - m..q][m - 1 - t] == el[q - 1 - t];
    assert el[q + n - m..q + n][m - 1 - t] == el[q + n - 1 - t];
  }

  /**
   * Compares the m elements of el before q with the last m of the n elements from q, from
   * the back, as the pass does.
   */
  method MatchRepeats<T(==)>(el: seq<T>, q: int, n: int, m: int) returns (r: bool)
    requires 0 <= m <= q && 0 <= n && q + n <= |el|
    ensures r == TailRepeats(el, q, n, m)
  {
    var ml := m;
    var mo := q - 1;
    var co := q + n - 1;
    while ml > 0 && el[mo] == el[co]
      invariant 0 <= ml <= m && mo == q - 1 - (m - ml) && co == mo + n
      invariant el[q - (m - ml)..q] == el[q + n - (m - ml)..q + n]
      decreases ml
    {
      TailStep(el, q, n, m - ml);
      mo, co, ml := mo - 1, co - 1, ml - 1;
    }
    r := ml == 0;
    if ml > 0 {
      TailBreak(el, q, n, m, m - ml);
    }
  }

  // ---------------------------------------------------------------------------------
  // The whole pass
  // ---------------------------------------------------------------------------------

  /**
   * The list the pass leaves when its loop reaches index i of d; with `asWritten` the
   * re-created match at the end gets the offset diff.h gives it.
   */
  function CombineFrom<T(==)>(d: seq<DiffInfo>, i: int, a: seq<T>, b: seq<T>, asWritten: bool): seq<DiffInfo>
    requires 1 <= i && Coalesced(d) && NoIn2In1(d)
    decreases |d|, InnerMatches(d), |d| - i
  {
    if i >= |d| then d
    else if d[i].kind != Match || i + 1 == |d| then CombineFrom(d, i + 1, a, b, asWritten)
    else if d[i + 1].kind == In1 && i + 2 < |d| && d[i + 2].kind == In2 then CombineFrom(d, i + 3, a, b, asWritten)
    else
      var next := d[i + 1];
      var el := if next.kind == In1 then a else b;
      if d[i].len > next.len || !TailRepeats(el, next.off, next.len, d[i].len) then
        CombineFrom(d, i + 2, a, b, asWritten)
      else
        var endOff := if asWritten then EndOffAsWritten(d[i], next) else EndOff(d[i], next);
        SinkKinds(d, i, endOff);
        var (r, j) := Sink(d, i, endOff);
        CombineFrom(r, j, a, b, asWritten)
  }

  /** The list after the combining pass. */
  function Combined<T(==)>(d: seq<DiffInfo>, a: seq<T>, b: seq<T>): seq<DiffInfo>
    requires Coalesced(d) && NoIn2In1(d)
  {
    CombineFrom(d, 1, a, b, false)
  }

  /** The list after the combining pass as diff.h writes it. */
  function CombinedAsWritten<T(==)>(d: seq<DiffInfo>, a: seq<T>, b: seq<T>): seq<DiffInfo>
    requires Coalesced(d) && NoIn2In1(d)
  {
    CombineFrom(d, 1, a, b, true)
  }

  /**
   * The pass keeps the description: from any point of its loop, the list it leaves fits
   * both sequences, accounts for as many matched, deleted and inserted elements, stays
   * well kinded and has no more blocks.
   */
  lemma {:induction false} CombineKeeps<T>(d: seq<DiffInfo>, i: int, a: seq<T>, b: seq<T>)
    requires 1 <= i && Coalesced(d) && NoIn2In1(d) && Fits(d, a, b, 0, 0)
    ensures var r := CombineFrom(d, i, a, b, false);
            Fits(r, a, b, 0, 0) && Coalesced(r) && NoIn2In1(r) && |r| <= |d| &&
            forall k :: Total(r, k) == Total(d, k)
    decreases |d|, InnerMatches(d), |d| - i
  {
    if i >= |d| {
    } else if d[i].kind != Match || i + 1 == |d| {
      CombineKeeps(d, i + 1, a, b);
    } else if d[i + 1].kind == In1 && i + 2 < |d| && d[i + 2].kind == In2 {
      CombineKeeps(d, i + 3, a, b);
    } else {
      var next := d[i + 1];
      var el := if next.kind == In1 then a else b;
      if d[i].len > next.len || !TailRepeats(el, next.off, next.len, d[i].len) {
        CombineKeeps(d, i + 2, a, b);
      } else {
        var e := EndOff(d[i], next);
        SinkKinds(d, i, e);
        SinkIsResult(d, i, e);
        SinkFits(d, i, a, b);
        ResultShrinks(d, i, e);
        var (r, j) := Sink(d, i, e);
        CombineKeeps(r, j, a, b);
      }
    }
  }

  /** The combined list describes the same two sequences with the same number of edits. */
  lemma {:induction false} CombinedDescribes<T>(d: seq<DiffInfo>, a: seq<T>, b: seq<T>, ia: int, ib: int)
    requires Described(d, a, b, ia, ib)
    ensures Described(Combined(d, a, b), a, b, ia, ib)
    ensures Edits(Combined(d, a, b)) == Edits(d) && |Combined(d, a, b)| <= |d|
  {
    CombineKeeps(d, 1, a, b);
  }

  // ---------------------------------------------------------------------------------
  // The offset of the re-created match
  // ---------------------------------------------------------------------------------

  /** The list of the example below describes "a" and "baa". */
  lemma ExampleDescribed()
    ensures Described([DiffInfo(In2, 0, 1), DiffInfo(Match, 0, 1), DiffInfo(In2, 2, 1)], "a", "baa", 1, 3)
  {
    var d := [DiffInfo(In2, 0, 1), DiffInfo(Match, 0, 1), DiffInfo(In2, 2, 1)];
    assert "a"[0..1] == "baa"[1..2];
    FitsSingle(d[2], "a", "baa", 1, 2);
    assert d[2..] == [d[2]] && d[1..][1..] == d[2..];
    assert Fits(d[1..], "a", "baa", 0, 1);
    assert Total(d[2..], In2) == 1;
  }

  /** The one sink of the example below. */
  lemma ExampleSink(e: int)
    ensures var d := [DiffInfo(In2, 0, 1), DiffInfo(Match, 0, 1), DiffInfo(In2, 2, 1)];
            var r := [DiffInfo(In2, 0, 2), DiffInfo(Match, e, 1)];
            Sink(d, 1, e) == (r, 1) && Coalesced(r) && NoIn2In1(r) &&
            CombineFrom(r, 1, "a", "baa", true) == r && CombineFrom(r, 1, "a", "baa", false) == r
  {
    var d := [DiffInfo(In2, 0, 1), DiffInfo(Match, 0, 1), DiffInfo(In2, 2, 1)];
    var r := [DiffInfo(In2, 0, 2), DiffInfo(Match, e, 1)];
    MovedShape(d, 1, e);
    var d3 := [DiffInfo(In2, 0, 1), DiffInfo(In2, 1, 1), DiffInfo(Match, e, 1)];
    assert Moved(d, 1, e) == d3;
    var d4 := d3[0 := DiffInfo(In2, 0, 2)];
    assert d4[..1] + d4[2..] == r;
    assert Settle(d3, 1) == (r, 1);
    assert CombineFrom(r, 2, "a", "baa", true) == r;
    assert CombineFrom(r, 2, "a", "baa", false) == r;
  }

  /** The combining pass on the example below, with either offset for the re-created match. */
  lemma ExampleCombine(asWritten: bool)
    ensures var d := [DiffInfo(In2, 0, 1), DiffInfo(Match, 0, 1), DiffInfo(In2, 2, 1)];
            CombineFrom(d, 1, "a", "baa", asWritten) == [DiffInfo(In2, 0, 2), DiffInfo(Match, if asWritten then 1 else 0, 1)]
  {
    var d := [DiffInfo(In2, 0, 1), DiffInfo(Match, 0, 1), DiffInfo(In2, 2, 1)];
    assert Coalesced(d) && NoIn2In1(d);
    assert TailRepeats("baa", 2, 1, 1) by {
      assert "baa"[1..2] == "baa"[2..3];
    }
    var e := if asWritten then EndOffAsWritten(d[1], d[2]) else EndOff(d[1], d[2]);
    assert e == if asWritten then 1 else 0;
    ExampleSink(e);
  }

  /**
   * With a = "a" and b = "baa", the list [+b] a [+a] (an insertion, a match, an
   * insertion) describes the pair. Its match repeats the end of the last insertion, and
   * the pass as written re-creates it at the end with offset 0 + 1, past the end of a.
   */
  lemma CombineAsWrittenBreaks()
    ensures var d := [DiffInfo(In2, 0, 1), DiffInfo(Match, 0, 1), DiffInfo(In2, 2, 1)];
            Described(d, "a", "baa", 1, 3) &&
            CombinedAsWritten(d, "a", "baa") == [DiffInfo(In2, 0, 2), DiffInfo(Match, 1, 1)] &&
            !Fits(CombinedAsWritten(d, "a", "baa"), "a", "baa", 0, 0)
  {
    ExampleDescribed();
    ExampleCombine(true);
    var c := [DiffInfo(In2, 0, 2), DiffInfo(Match, 1, 1)];
    assert !Fits(c, "a", "baa", 0, 0) by {
      assert !BlockFits(c[1], "a", "baa", 0, 2);
      assert c[1..] == [c[1]];
      FitsSingle(c[1], "a", "baa", 0, 2);
    }
  }

  /** On the same input the pass with the corrected offset leaves a list that still describes the pair. */
  lemma CombineCorrected()
    ensures var d := [DiffInfo(In2, 0, 1), DiffInfo(Match, 0, 1), DiffInfo(In2, 2, 1)];
            Combined(d, "a", "baa") == [DiffInfo(In2, 0, 2), DiffInfo(Match, 0, 1)] &&
            Described(Combined(d, "a", "baa"), "a", "baa", 1, 3)
  {
    var d := [DiffInfo(In2, 0, 1), DiffInfo(Match, 0, 1), DiffInfo(In2, 2, 1)];
    ExampleDescribed();
    ExampleCombine(false);
    CombinedDescribes(d, "a", "baa", 1, 3);
  }
}

=== FILE: diff_calc.dfy ===
/**
 * DiffCalc: compares two sequences and lists their differences as blocks (DiffBlocks).
 * Myers' O(ND) algorithm finds a middle snake of the shortest edit script with a forward
 * and a backward search that meet halfway (Hirschberg's linear-space refinement), and the
 * script is built by solving the two halves around that snake recursively.
 */
module Diff {
  import opened DiffBlocks
  import opened EditGraph
  import opened Snakes
  import opened MiddleSnakes
  import opened CombinePass
  import opened ShiftPass

  /** The middle snake of a sub-problem: from (x, y) to (u, v) along one diagonal. */
  datatype MiddleSnake = MiddleSnake(x: int, y: int, u: int, v: int)

  /**
   * The buffer slot of diagonal k for the forward (r == 0) or backward (r == 1) search:
   * diagonals -N..N are packed into non-negative indexes, the two searches interleaved.
   */
  function VIndex(k: int, r: int): (j: int)
    ensures 0 <= r <= 1 ==> 0 <= j
  {
    if k <= 0 then -k * 4 + r else k * 4 + (r - 2)
  }

  /** Two different slots never share an index. */
  lemma {:induction false} VIndexInjective(k1: int, r1: int, k2: int, r2: int)
    requires 0 <= r1 <= 1 && 0 <= r2 <= 1
    ensures VIndex(k1, r1) == VIndex(k2, r2) <==> k1 == k2 && r1 == r2
  {
    if (k1 <= 0) != (k2 <= 0) {
      assert VIndex(k1, r1) % 4 != VIndex(k2, r2) % 4;
    }
  }

  /** The value a buffer holds in the slot of diagonal k for search r; slots never written hold 0. */
  function Slot(m: map<int, int>, k: int, r: int): int
  {
    var j := VIndex(k, r);
    if j in m then m[j] else 0
  }

  /** Writing one slot changes that slot and no other. */
  lemma {:induction false} SlotUpdate(m: map<int, int>, k: int, r: int, x: int, k2: int, r2: int)
    requires 0 <= r <= 1 && 0 <= r2 <= 1
    ensures Slot(m[VIndex(k, r) := x], k2, r2) == if k2 == k && r2 == r then x else Slot(m, k2, r2)
  {
    VIndexInjective(k, r, k2, r2);
  }

  /** Slots of search r hold f's values on the diagonals of round d above lo (search r numbers diagonal j as j - off). */
  ghost predicate Row(m: map<int, int>, r: int, off: int, d: int, lo: int, f: int -> int)
  {
    forall j {:trigger Held(m, j, r)} :: OnRound(d, j - off) && lo < j - off ==> Held(m, j, r) == f(j - off)
  }

  /**
   * Slot under a name of its own: a row is read through RowAt only, so that reading a
   * slot in a method does not bring in every fact about the row.
   */
  ghost function Held(m: map<int, int>, j: int, r: int): int
  {
    Slot(m, j, r)
  }

  /** A slot in the recorded part of a row holds f's value. */
  lemma {:induction false} RowAt(m: map<int, int>, r: int, off: int, d: int, lo: int, f: int -> int, i: int)
    requires Row(m, r, off, d, lo, f) && OnRound(d, i) && lo < i
    ensures Slot(m, off + i, r) == f(i)
  {
    assert (off + i) - off == i;
    assert Held(m, off + i, r) == f(i);
  }

  /** Recording f's value of diagonal k extends the recorded part of round d past k. */
  lemma {:induction false} RowAdd(m: map<int, int>, r: int, off: int, d: int, k: int, f: int -> int, x: int)
    requires 0 <= r <= 1 && Row(m, r, off, d, k, f) && OnRound(d, k) && x == f(k)
    ensures Row(m[VIndex(off + k, r) := x], r, off, d, k - 2, f)
  {
    var m' := m[VIndex(off + k, r) := x];
    forall j | OnRound(d, j - off) && k - 2 < j - off
      ensures Held(m', j, r) == f(j - off)
    {
      SlotUpdate(m, off + k, r, x, j, r);
      if j != off + k {
        NextOnRound(d, k, j - off);
        RowAt(m, r, off, d, k, f, j - off);
      }
    }
  }

  /** A write to a slot outside the recorded part keeps a row. */
  lemma {:induction false} RowKeep(m: map<int, int>, r: int, off: int, d: int, lo: int, f: int -> int, j: int, r2: int, x: int)
    requires 0 <= r <= 1 && 0 <= r2 <= 1 && Row(m, r, off, d, lo, f)
    requires r2 != r || !OnRound(d, j - off)
    ensures Row(m[VIndex(j, r2) := x], r, off, d, lo, f)
  {
    var m' := m[VIndex(j, r2) := x];
    forall j2 | OnRound(d, j2 - off) && lo < j2 - off
      ensures Held(m', j2, r) == f(j2 - off)
    {
      SlotUpdate(m, j, r2, x, j2, r);
      RowAt(m, r, off, d, lo, f, j2 - off);
    }
  }

  /** The forward results of round d, as a function of the diagonal. */
  ghost function FwdF<T>(A: seq<T>, B: seq<T>, d: int): int -> int
  {
    k => if OnRound(d, k) then Fwd(A, B, d, k) else 0
  }

  /** The backward results of round d, as a function of the backward search's diagonal. */
  ghost function BwdF<T>(A: seq<T>, B: seq<T>, d: int): int -> int
  {
    k => if OnRound(d, k) then Bwd(A, B, d, k) else 0
  }

  /** The buffer holds the forward search's furthest points of round d on the diagonals above lo. */
  ghost predicate FwdRow<T>(A: seq<T>, B: seq<T>, m: map<int, int>, d: int, lo: int)
  {
    Row(m, 0, 0, d, lo, FwdF(A, B, d))
  }

  /** The buffer holds the backward search's nearest points of round d on its diagonals above lo. */
  ghost predicate BwdRow<T>(A: seq<T>, B: seq<T>, m: map<int, int>, d: int, lo: int)
  {
    Row(m, 1, |A| - |B|, d, lo, BwdF(A, B, d))
  }

  /** A recorded forward result. */
  lemma {:induction false} FwdRowAt<T>(A: seq<T>, B: seq<T>, m: map<int, int>, d: int, lo: int, i: int)
    requires FwdRow(A, B, m, d, lo) && OnRound(d, i) && lo < i
    ensures Slot(m, i, 0) == Fwd(A, B, d, i)
  {
    RowAt(m, 0, 0, d, lo, FwdF(A, B, d), i);
  }

  /** A recorded backward result, in the slot of the absolute diagonal j = |A| - |B| + i. */
  lemma {:induction false} BwdRowAt<T>(A: seq<T>, B: seq<T>, m: map<int, int>, d: int, lo: int, i: int, j: int)
    requires BwdRow(A, B, m, d, lo) && OnRound(d, i) && lo < i && j == |A| - |B| + i
    ensures Slot(m, j, 1) == Bwd(A, B, d, i)
  {
    RowAt(m, 1, |A| - |B|, d, lo, BwdF(A, B, d), i);
  }

  /** Diagonal k is the first one (from the top) where round d of the forward search overlaps, and ms is its snake. */
  ghost predicate FwdFound<T>(A: seq<T>, B: seq<T>, d: int, k: int, ms: MiddleSnake)
  {
    FwdHit(A, B, d, k) && NoFwdHit(A, B, d, k) &&
    ms == MiddleSnake(FwdStart(A, B, d, k), FwdStart(A, B, d, k) - k, Fwd(A, B, d, k), Fwd(A, B, d, k) - k)
  }

  /** Diagonal k is the first one (from the top) where round d of the backward search overlaps, and ms is its snake. */
  ghost predicate BwdFound<T>(A: seq<T>, B: seq<T>, d: int, k: int, ms: MiddleSnake)
  {
    var kr := |A| - |B| + k;
    BwdHit(A, B, d, k) && NoBwdHit(A, B, d, k) &&
    ms == MiddleSnake(Bwd(A, B, d, k), Bwd(A, B, d, k) - kr, BwdStart(A, B, d, k), BwdStart(A, B, d, k) - kr)
  }

  /**
   * The buffer is ready for round d: it holds the seeds of both searches before round 0,
   * and all the results of round d - 1 after it.
   */
  ghost predicate Ready<T>(A: seq<T>, B: seq<T>, m: map<int, int>, d: int)
  {
    0 <= d &&
    (d == 0 ==> Slot(m, 1, 0) == 0 && Slot(m, |A| - |B| - 1, 1) == |A|) &&
    (d > 0 ==> FwdRow(A, B, m, d - 1, -d - 1) && BwdRow(A, B, m, d - 1, -d - 1))
  }

  /** Round d of the forward pass has handled the diagonals above k, none of them overlapping. */
  ghost predicate FwdPassInv<T>(A: seq<T>, B: seq<T>, m: map<int, int>, d: int, k: int)
  {
    -d - 2 <= k <= d && (d - k) % 2 == 0 &&
    Ready(A, B, m, d) && FwdRow(A, B, m, d, k) && NoFwdHit(A, B, d, k)
  }

  /**
   * The forward pass of round d is over without an overlap, and the backward pass has
   * handled its diagonals above k, none of them overlapping.
   */
  ghost predicate BwdPassInv<T>(A: seq<T>, B: seq<T>, m: map<int, int>, d: int, k: int)
  {
    -d - 2 <= k <= d && (d - k) % 2 == 0 &&
    Ready(A, B, m, d) && FwdRow(A, B, m, d, -d - 2) && NoFwdHit(A, B, d, -d - 2) &&
    BwdRow(A, B, m, d, k) && NoBwdHit(A, B, d, k)
  }

  /** The neighbours of a diagonal of round d that were searched in round d - 1. */
  lemma {:induction false} PrevRound(d: int, k: int)
    requires OnRound(d, k) && 0 < d
    ensures k != -d ==> OnRound(d - 1, k - 1)
    ensures k != d ==> OnRound(d - 1, k + 1)
  {
  }

  /** A diagonal of round d is not one of round d - 1. */
  lemma {:induction false} RoundsApart(d: int, k: int)
    requires OnRound(d, k)
    ensures !OnRound(d - 1, k)
  {
  }

  /** The forward overlap test of round d reads a backward result of round d - 1. */
  lemma {:induction false} CrossRound(d: int, k: int, delta: int)
    requires OnRound(d, k) && delta % 2 == 1 && delta - (d - 1) <= k <= delta + (d - 1)
    ensures OnRound(d - 1, k - delta)
  {
  }

  /** The backward overlap test of round d reads a forward result of round d. */
  lemma {:induction false} SameRound(d: int, k: int, delta: int)
    requires OnRound(d, k) && delta % 2 == 0 && -d <= delta + k <= d
    ensures OnRound(d, delta + k)
  {
  }

  /** On one round, the diagonal after k (going down) is k - 2. */
  lemma {:induction false} NextOnRound(d: int, k: int, k2: int)
    requires OnRound(d, k) && OnRound(d, k2) && k - 2 < k2 && k2 != k
    ensures k < k2
  {
  }

  /** Where the forward pass starts diagonal k of round d: one step down from k + 1 or right from k - 1. */
  function FwdStartAt(m: map<int, int>, d: int, k: int): int
  {
    if k == -d || (k != d && Slot(m, k - 1, 0) < Slot(m, k + 1, 0)) then Slot(m, k + 1, 0)
    else Slot(m, k - 1, 0) + 1
  }

  /** Where the backward pass starts its diagonal k of round d (absolute diagonal delta + k). */
  function BwdStartAt(m: map<int, int>, delta: int, d: int, k: int): int
  {
    if k == d || (k != -d && Slot(m, delta + k - 1, 1) < Slot(m, delta + k + 1, 1)) then Slot(m, delta + k - 1, 1)
    else Slot(m, delta + k + 1, 1) - 1
  }

  /** FwdStart of round d > 0, read from slots holding the results of round d - 1 on diagonals k - 1 and k + 1. */
  lemma {:induction false} FwdStartOf<T>(A: seq<T>, B: seq<T>, m: map<int, int>, d: int, k: int)
    requires OnRound(d, k) && 0 < d
    requires k != -d ==> OnRound(d - 1, k - 1) && Slot(m, k - 1, 0) == Fwd(A, B, d - 1, k - 1)
    requires k != d ==> OnRound(d - 1, k + 1) && Slot(m, k + 1, 0) == Fwd(A, B, d - 1, k + 1)
    ensures FwdStart(A, B, d, k) == FwdStartAt(m, d, k)
  {
  }

  /** BwdStart of round d > 0, read from slots holding the results of round d - 1 on its diagonals k - 1 and k + 1. */
  lemma {:induction false} BwdStartOf<T>(A: seq<T>, B: seq<T>, m: map<int, int>, d: int, k: int)
    requires OnRound(d, k) && 0 < d
    requires k != -d ==> OnRound(d - 1, k - 1) && Slot(m, |A| - |B| + k - 1, 1) == Bwd(A, B, d - 1, k - 1)
    requires k != d ==> OnRound(d - 1, k + 1) && Slot(m, |A| - |B| + k + 1, 1) == Bwd(A, B, d - 1, k + 1)
    ensures BwdStart(A, B, d, k) == BwdStartAt(m, |A| - |B|, d, k)
  {
  }

  /** The forward start read from a ready buffer is FwdStart. */
  lemma {:induction false} FwdStartFromSlots<T>(A: seq<T>, B: seq<T>, m: map<int, int>, d: int, k: int)
    requires Ready(A, B, m, d) && OnRound(d, k)
    ensures FwdStart(A, B, d, k) == FwdStartAt(m, d, k)
  {
    if d > 0 {
      FwdStartFromRow(A, B, m, d, k);
    }
  }

  lemma {:induction false} FwdStartFromRow<T>(A: seq<T>, B: seq<T>, m: map<int, int>, d: int, k: int)
    requires 0 < d && OnRound(d, k) && FwdRow(A, B, m, d - 1, -d - 1)
    ensures FwdStart(A, B, d, k) == FwdStartAt(m, d, k)
  {
    PrevRound(d, k);
    if k != -d {
      FwdRowAt(A, B, m, d - 1, -d - 1, k - 1);
    }
    if k != d {
      FwdRowAt(A, B, m, d - 1, -d - 1, k + 1);
    }
    FwdStartOf(A, B, m, d, k);
  }

  /** The backward start read from a ready buffer is BwdStart. */
  lemma {:induction false} BwdStartFromSlots<T>(A: seq<T>, B: seq<T>, m: map<int, int>, d: int, k: int)
    requires Ready(A, B, m, d) && OnRound(d, k)
    ensures BwdStart(A, B, d, k) == BwdStartAt(m, |A| - |B|, d, k)
  {
    if d > 0 {
      BwdStartFromRow(A, B, m, d, k);
    }
  }

  lemma {:induction false} BwdStartFromRow<T>(A: seq<T>, B: seq<T>, m: map<int, int>, d: int, k: int)
    requires 0 < d && OnRound(d, k) && BwdRow(A, B, m, d - 1, -d - 1)
    ensures BwdStart(A, B, d, k) == BwdStartAt(m, |A| - |B|, d, k)
  {
    var delta := |A| - |B|;
    PrevRound(d, k);
    if k != -d {
      BwdRowAt(A, B, m, d - 1, -d - 1, k - 1, delta + k - 1);
    }
    if k != d {
      BwdRowAt(A, B, m, d - 1, -d - 1, k + 1, delta + k + 1);
    }
    BwdStartOf(A, B, m, d, k);
  }

  /** A write in round d to a diagonal of round d leaves the buffer ready for round d. */
  lemma {:induction false} ReadyKeep<T>(A: seq<T>, B: seq<T>, m: map<int, int>, d: int, k: int, r: int, x: int)
    requires Ready(A, B, m, d) && OnRound(d, k) && 0 <= r <= 1
    ensures var j := if r == 0 then k else |A| - |B| + k;
            Ready(A, B, m[VIndex(j, r) := x], d)
  {
    var delta := |A| - |B|;
    var j := if r == 0 then k else delta + k;
    assert j - (if r == 0 then 0 else delta) == k;
    if d == 0 {
      SlotUpdate(m, j, r, x, 1, 0);
      SlotUpdate(m, j, r, x, delta - 1, 1);
    } else {
      RoundsApart(d, k);
      RowKeep(m, 0, 0, d - 1, -d - 1, FwdF(A, B, d - 1), j, r, x);
      RowKeep(m, 1, delta, d - 1, -d - 1, BwdF(A, B, d - 1), j, r, x);
    }
  }

  /** A ready buffer starts the forward pass of round d. */
  lemma {:induction false} FwdPassBegin<T>(A: seq<T>, B: seq<T>, m: map<int, int>, d: int)
    requires Ready(A, B, m, d)
    ensures FwdPassInv(A, B, m, d, d)
  {
  }

  /** The end of the forward pass starts the backward pass of round d. */
  lemma {:induction false} BwdPassBegin<T>(A: seq<T>, B: seq<T>, m: map<int, int>, d: int)
    requires FwdPassInv(A, B, m, d, -d - 2)
    ensures BwdPassInv(A, B, m, d, d)
  {
  }

  /** Where the forward pass starts a diagonal lies inside the sub-problem. */
  lemma {:induction false} FwdStartInside<T>(A: seq<T>, B: seq<T>, m: map<int, int>, d: int, k: int)
    requires -d <= k
    ensures FwdPassInv(A, B, m, d, k) ==>
              OnRound(d, k) && FwdStartAt(m, d, k) == FwdStart(A, B, d, k) && 0 <= FwdStartAt(m, d, k) && 0 <= FwdStartAt(m, d, k) - k
  {
    if FwdPassInv(A, B, m, d, k) {
      FwdStartFromSlots(A, B, m, d, k);
      FwdBounds(A, B, d, k);
    }
  }

  /** Where the backward pass starts a diagonal lies inside the sub-problem. */
  lemma {:induction false} BwdStartInside<T>(A: seq<T>, B: seq<T>, m: map<int, int>, delta: int, d: int, k: int)
    requires -d <= k && delta == |A| - |B|
    ensures BwdPassInv(A, B, m, d, k) ==>
              OnRound(d, k) && BwdStartAt(m, delta, d, k) == BwdStart(A, B, d, k) &&
              BwdStartAt(m, delta, d, k) <= |A| && BwdStartAt(m, delta, d, k) - (delta + k) <= |B|
  {
    if BwdPassInv(A, B, m, d, k) {
      BwdStartFromSlots(A, B, m, d, k);
      BwdBounds(A, B, d, k);
    }
  }

  /** The forward result of diagonal k is the snake from its start. */
  lemma {:induction false} FwdIs<T>(A: seq<T>, B: seq<T>, d: int, k: int, s: int, x: int)
    requires OnRound(d, k) && s == FwdStart(A, B, d, k) && x == Slide(A, B, s, s - k)
    ensures x == Fwd(A, B, d, k)
  {
  }

  /** The backward result of diagonal k is the snake back from its start. */
  lemma {:induction false} BwdIs<T>(A: seq<T>, B: seq<T>, d: int, k: int, s: int, x: int)
    requires OnRound(d, k) && s == BwdStart(A, B, d, k) && x == SlideBack(A, B, s, s - (|A| - |B| + k))
    ensures x == Bwd(A, B, d, k)
  {
  }

  /** A ready buffer holds the backward result of round d - 1 on the absolute diagonal k. */
  lemma {:induction false} BwdSlot<T>(A: seq<T>, B: seq<T>, m: map<int, int>, d: int, k: int)
    requires Ready(A, B, m, d) && 0 < d && OnRound(d - 1, k - (|A| - |B|))
    ensures Slot(m, k, 1) == Bwd(A, B, d - 1, k - (|A| - |B|))
  {
    BwdRowAt(A, B, m, d - 1, -d - 1, k - (|A| - |B|), k);
  }

  /** The forward result of round d on absolute diagonal k, from a buffer holding it. */
  lemma {:induction false} FwdSlot<T>(A: seq<T>, B: seq<T>, m: map<int, int>, d: int, k: int)
    requires FwdRow(A, B, m, d, -d - 2) && OnRound(d, k)
    ensures Slot(m, k, 0) == Fwd(A, B, d, k)
  {
    FwdRowAt(A, B, m, d, -d - 2, k);
  }

  /** The forward overlap test reads the backward result of round d - 1 from a ready buffer. */
  lemma {:induction false} FwdHitReads<T>(A: seq<T>, B: seq<T>, m: map<int, int>, d: int, k: int)
    requires Ready(A, B, m, d) && OnRound(d, k)
    requires (|A| - |B|) % 2 == 1 && (|A| - |B|) - (d - 1) <= k <= (|A| - |B|) + (d - 1)
    ensures OnRound(d - 1, k - (|A| - |B|)) && Slot(m, k, 1) == Bwd(A, B, d - 1, k - (|A| - |B|))
  {
    CrossRound(d, k, |A| - |B|);
    BwdSlot(A, B, m, d, k);
  }

  /** The backward overlap test reads the forward result of round d from the buffer. */
  lemma {:induction false} BwdHitReads<T>(A: seq<T>, B: seq<T>, m: map<int, int>, d: int, k: int)
    requires FwdRow(A, B, m, d, -d - 2) && OnRound(d, k)
    requires (|A| - |B|) % 2 == 0 && -d <= (|A| - |B|) + k <= d
    ensures OnRound(d, (|A| - |B|) + k) && Slot(m, (|A| - |B|) + k, 0) == Fwd(A, B, d, (|A| - |B|) + k)
  {
    SameRound(d, k, |A| - |B|);
    FwdSlot(A, B, m, d, (|A| - |B|) + k);
  }

  /** The overlap test of the forward pass, given the backward result it reads, is FwdHit. */
  lemma {:induction false} FwdHitTest<T>(A: seq<T>, B: seq<T>, d: int, k: int, x: int, y: int)
    requires OnRound(d, k) && x == Fwd(A, B, d, k)
    requires (|A| - |B|) % 2 == 1 && (|A| - |B|) - (d - 1) <= k <= (|A| - |B|) + (d - 1) ==>
             OnRound(d - 1, k - (|A| - |B|)) && y == Bwd(A, B, d - 1, k - (|A| - |B|))
    ensures FwdHit(A, B, d, k) <==>
            (|A| - |B|) % 2 == 1 && (|A| - |B|) - (d - 1) <= k <= (|A| - |B|) + (d - 1) && x >= y
  {
  }

  /** The overlap test of the backward pass, given the forward result it reads, is BwdHit. */
  lemma {:induction false} BwdHitTest<T>(A: seq<T>, B: seq<T>, d: int, k: int, x: int, y: int)
    requires OnRound(d, k) && x == Bwd(A, B, d, k)
    requires (|A| - |B|) % 2 == 0 && -d <= (|A| - |B|) + k <= d ==>
             OnRound(d, (|A| - |B|) + k) && y == Fwd(A, B, d, (|A| - |B|) + k)
    ensures BwdHit(A, B, d, k) <==>
            (|A| - |B|) % 2 == 0 && -d <= (|A| - |B|) + k <= d && x <= y
  {
  }

  /** A diagonal without a forward overlap extends the part of round d known to have none. */
  lemma {:induction false} NoFwdHitAdd<T>(A: seq<T>, B: seq<T>, d: int, k: int)
    requires NoFwdHit(A, B, d, k) && OnRound(d, k) && !FwdHit(A, B, d, k)
    ensures NoFwdHit(A, B, d, k - 2)
  {
    forall k2 | OnRound(d, k2) && k - 2 < k2
      ensures !FwdHit(A, B, d, k2)
    {
      if k2 != k {
        NextOnRound(d, k, k2);
      }
    }
  }

  /** A diagonal without a backward overlap extends the part of round d known to have none. */
  lemma {:induction false} NoBwdHitAdd<T>(A: seq<T>, B: seq<T>, d: int, k: int)
    requires NoBwdHit(A, B, d, k) && OnRound(d, k) && !BwdHit(A, B, d, k)
    ensures NoBwdHit(A, B, d, k - 2)
  {
    forall k2 | OnRound(d, k2) && k - 2 < k2
      ensures !BwdHit(A, B, d, k2)
    {
      if k2 != k {
        NextOnRound(d, k, k2);
      }
    }
  }

  /** Recording the result of diagonal k without an overlap moves the forward pass on to k - 2. */
  lemma {:induction false} FwdAdvance<T>(A: seq<T>, B: seq<T>, m: map<int, int>, d: int, k: int, x: int)
    requires FwdPassInv(A, B, m, d, k) && OnRound(d, k) && x == Fwd(A, B, d, k) && !FwdHit(A, B, d, k)
    ensures FwdPassInv(A, B, m[VIndex(k, 0) := x], d, k - 2)
  {
    ReadyKeep(A, B, m, d, k, 0, x);
    assert x == FwdF(A, B, d)(k);
    RowAdd(m, 0, 0, d, k, FwdF(A, B, d), x);
    NoFwdHitAdd(A, B, d, k);
  }

  /** Recording the result of diagonal k without an overlap moves the backward pass on to k - 2. */
  lemma {:induction false} BwdAdvance<T>(A: seq<T>, B: seq<T>, m: map<int, int>, d: int, k: int, x: int)
    requires BwdPassInv(A, B, m, d, k) && OnRound(d, k) && x == Bwd(A, B, d, k) && !BwdHit(A, B, d, k)
    ensures BwdPassInv(A, B, m[VIndex(|A| - |B| + k, 1) := x], d, k - 2)
  {
    ReadyKeep(A, B, m, d, k, 1, x);
    BwdRowsKeep(A, B, m, d, k, x);
    NoBwdHitAdd(A, B, d, k);
  }

  /** The backward step's write keeps the forward row of round d and extends the backward one. */
  lemma {:induction false} BwdRowsKeep<T>(A: seq<T>, B: seq<T>, m: map<int, int>, d: int, k: int, x: int)
    requires FwdRow(A, B, m, d, -d - 2) && BwdRow(A, B, m, d, k) && OnRound(d, k) && x == Bwd(A, B, d, k)
    ensures var m' := m[VIndex(|A| - |B| + k, 1) := x];
            FwdRow(A, B, m', d, -d - 2) && BwdRow(A, B, m', d, k - 2)
  {
    var delta := |A| - |B|;
    RowKeep(m, 0, 0, d, -d - 2, FwdF(A, B, d), delta + k, 1, x);
    assert x == BwdF(A, B, d)(k);
    RowAdd(m, 1, delta, d, k, BwdF(A, B, d), x);
  }

  /**
   * One step of the forward pass: the snake from the start of diagonal k is its result of
   * round d, the buffer test is FwdHit, and without an overlap the pass moves on to k - 2.
   */
  lemma {:induction false} FwdStep<T>(A: seq<T>, B: seq<T>, m: map<int, int>, m': map<int, int>,
                                      delta: int, d: int, k: int, x0: int, x: int, hit: bool)
    requires OnRound(d, k) && delta == |A| - |B|
    requires x0 == FwdStart(A, B, d, k) && x == Slide(A, B, x0, x0 - k) && m' == m[VIndex(k, 0) := x]
    requires hit == (delta % 2 == 1 && delta - (d - 1) <= k <= delta + (d - 1) && x >= Slot(m', k, 1))
    ensures FwdPassInv(A, B, m, d, k) ==>
              (hit ==> FwdFound(A, B, d, k, MiddleSnake(x0, x0 - k, x, x - k))) &&
              (!hit ==> FwdPassInv(A, B, m', d, k - 2))
  {
    if FwdPassInv(A, B, m, d, k) {
      FwdIs(A, B, d, k, FwdStart(A, B, d, k), x);
      SlotUpdate(m, k, 0, x, k, 1);
      if delta % 2 == 1 && delta - (d - 1) <= k <= delta + (d - 1) {
        FwdHitReads(A, B, m, d, k);
      }
      FwdHitTest(A, B, d, k, x, Slot(m, k, 1));
      if !FwdHit(A, B, d, k) {
        FwdAdvance(A, B, m, d, k, x);
      }
    }
  }

  /**
   * One step of the backward pass: the snake back from the start of its diagonal k is its
   * result of round d, the buffer test is BwdHit, and without an overlap the pass moves on.
   */
  lemma {:induction false} BwdStep<T>(A: seq<T>, B: seq<T>, m: map<int, int>, m': map<int, int>,
                                      delta: int, d: int, k: int, x0: int, x: int, hit: bool)
    requires OnRound(d, k) && delta == |A| - |B|
    requires x0 == BwdStart(A, B, d, k) && x == SlideBack(A, B, x0, x0 - (delta + k))
    requires m' == m[VIndex(delta + k, 1) := x]
    requires hit == (delta % 2 == 0 && -d <= delta + k <= d && x <= Slot(m', delta + k, 0))
    ensures BwdPassInv(A, B, m, d, k) ==>
              (hit ==> BwdFound(A, B, d, k, MiddleSnake(x, x - (delta + k), x0, x0 - (delta + k)))) &&
              (!hit ==> BwdPassInv(A, B, m', d, k - 2))
  {
    if BwdPassInv(A, B, m, d, k) {
      BwdIs(A, B, d, k, BwdStart(A, B, d, k), x);
      SlotUpdate(m, delta + k, 1, x, delta + k, 0);
      if delta % 2 == 0 && -d <= delta + k <= d {
        BwdHitReads(A, B, m, d, k);
      }
      BwdHitTest(A, B, d, k, x, Slot(m, delta + k, 0));
      if !BwdHit(A, B, d, k) {
        BwdAdvance(A, B, m, d, k, x);
      }
    }
  }

  /**
   * A round without an overlap in either pass is not the last one the distance D needs,
   * and it leaves the buffer ready for the next round.
   */
  lemma {:induction false} RoundDone<T>(A: seq<T>, B: seq<T>, m: map<int, int>, D: nat, d: int)
    requires IsDist(A, B, D)
    ensures d <= (D + 1) / 2 && BwdPassInv(A, B, m, d, -d - 2) ==> d + 1 <= (D + 1) / 2 && Ready(A, B, m, d + 1)
  {
    if d <= (D + 1) / 2 && BwdPassInv(A, B, m, d, -d - 2) {
      var k := OptimalHit(A, B, D);
      DistParity(A, B, D);
    }
  }

  /** An overlap found by the forward pass of round d gives the distance and the middle snake. */
  lemma {:induction false} OddFound<T>(A: seq<T>, B: seq<T>, D: nat, d: int, k: int, ms: MiddleSnake)
    requires IsDist(A, B, D)
    ensures d <= (D + 1) / 2 && FwdFound(A, B, d, k, ms) ==> 0 <= 2 * d - 1 == D && IsMiddleSnake(A, B, D, ms)
  {
    if d <= (D + 1) / 2 && FwdFound(A, B, d, k, ms) {
      OddHit(A, B, D, d, k, ms);
    }
  }

  /** The forward overlap of round d as a middle snake given by its record. */
  lemma {:induction false} OddHit<T>(A: seq<T>, B: seq<T>, D: nat, d: int, k: int, ms: MiddleSnake)
    requires IsDist(A, B, D) && d <= (D + 1) / 2 && FwdHit(A, B, d, k) && NoFwdHit(A, B, d, k)
    requires ms == MiddleSnake(FwdStart(A, B, d, k), FwdStart(A, B, d, k) - k, Fwd(A, B, d, k), Fwd(A, B, d, k) - k)
    ensures 0 <= 2 * d - 1 == D && IsMiddleSnake(A, B, D, ms)
  {
    OddResult(A, B, D, d, k);
    SnakeNamed(A, B, D, ms, FwdStart(A, B, d, k), FwdStart(A, B, d, k) - k, Fwd(A, B, d, k), Fwd(A, B, d, k) - k);
  }

  /** An overlap found by the backward pass of round d gives the distance and the middle snake. */
  lemma {:induction false} EvenFound<T>(A: seq<T>, B: seq<T>, D: nat, d: int, k: int, ms: MiddleSnake)
    requires IsDist(A, B, D)
    ensures d <= (D + 1) / 2 && BwdFound(A, B, d, k, ms) ==> 0 <= 2 * d == D && IsMiddleSnake(A, B, D, ms)
  {
    if d <= (D + 1) / 2 && BwdFound(A, B, d, k, ms) {
      EvenHit(A, B, D, d, k, ms);
    }
  }

  /** The backward overlap of round d as a middle snake given by its record. */
  lemma {:induction false} EvenHit<T>(A: seq<T>, B: seq<T>, D: nat, d: int, k: int, ms: MiddleSnake)
    requires IsDist(A, B, D) && d <= (D + 1) / 2 && BwdHit(A, B, d, k) && NoBwdHit(A, B, d, k)
    requires ms == MiddleSnake(Bwd(A, B, d, k), Bwd(A, B, d, k) - (|A| - |B| + k),
                               BwdStart(A, B, d, k), BwdStart(A, B, d, k) - (|A| - |B| + k))
    ensures 0 <= 2 * d == D && IsMiddleSnake(A, B, D, ms)
  {
    EvenResult(A, B, D, d, k);
    SnakeNamed(A, B, D, ms, Bwd(A, B, d, k), Bwd(A, B, d, k) - (|A| - |B| + k),
               BwdStart(A, B, d, k), BwdStart(A, B, d, k) - (|A| - |B| + k));
  }

  /** ms, given as a record, is a middle snake of A and B at distance r. */
  ghost predicate IsMiddleSnake<T>(A: seq<T>, B: seq<T>, r: nat, ms: MiddleSnake)
  {
    0 <= ms.x <= ms.u <= |A| && 0 <= ms.y <= ms.v <= |B| && MiddleSnakeOf(A, B, r, ms.x, ms.y, ms.u, ms.v)
  }

  /** A middle snake given by its corners is one given as a record. */
  lemma SnakeNamed<T>(A: seq<T>, B: seq<T>, r: nat, ms: MiddleSnake, x: int, y: int, u: int, v: int)
    requires ms == MiddleSnake(x, y, u, v)
    ensures MiddleSnakeOf(A, B, r, x, y, u, v) ==> IsMiddleSnake(A, B, r, ms)
  {
  }

  // ---------------------------------------------------------------------------------
  // The recursion of _ses
  // ---------------------------------------------------------------------------------

  /**
   * What a solved sub-problem A, B leaves behind: the list `d` grown from `d0` by a script
   * of r edits, which is the distance of A and B, describing the sequences up to (ia, ib);
   * when the script ends with an insertion, so can a shortest script of A and B.
   */
  ghost predicate Solved<T>(d0: seq<DiffInfo>, d: seq<DiffInfo>, a: seq<T>, b: seq<T>,
                                A: seq<T>, B: seq<T>, ia: int, ib: int, r: int)
  {
    0 <= r && IsDist(A, B, r) && Described(d, a, b, ia, ib) && Extends(d0, d) && Edits(d) == Edits(d0) + r &&
    (0 < |A| + |B| ==> d != [] && (Last(d).kind == In2 ==> 0 < r && Path(A, B, r - 1, 0, 0, |A|, |B| - 1)))
  }

  /** The parts of a window of s are windows of s. */
  lemma {:induction false} Window<T>(s: seq<T>, off: int, len: int, i: int, j: int)
    requires 0 <= off && 0 <= i <= j <= len && off + len <= |s|
    ensures s[off..off + len][..j] == s[off..off + j]
    ensures s[off..off + len][i..] == s[off + i..off + len]
    ensures s[off..off + len][i..j] == s[off + i..off + j]
  {
  }

  /** A problem whose distance is below m is not cut off at m. */
  lemma {:induction false} BelowCut<T>(A: seq<T>, B: seq<T>, e: nat, m: int)
    requires IsDist(A, B, e) && e < m
    ensures !AtLeast(A, B, m)
  {
    assert Path(A, B, e, 0, 0, |A|, |B|);
  }

  /** A call of Ses on a problem whose distance e is below the cut-off solves it with e edits. */
  lemma {:induction false} NotCut<T>(d0: seq<DiffInfo>, d1: seq<DiffInfo>, a: seq<T>, b: seq<T>, A: seq<T>, B: seq<T>,
                                     ia: int, ib: int, r: int, dmax: int, e: nat)
    requires Solved(d0, d1, a, b, A, B, ia, ib, r) || (r == dmax && AtLeast(A, B, dmax) && d1 == d0)
    requires IsDist(A, B, e) && e < dmax
    ensures r == e && Solved(d0, d1, a, b, A, B, ia, ib, r)
  {
    BelowCut(A, B, e, dmax);
    DistUnique(A, B, r, e);
  }

  /** Two recorded blocks that make a script of one edit solve a problem of distance 1. */
  lemma {:induction false} BaseSolved<T>(d0: seq<DiffInfo>, d1: seq<DiffInfo>, d2: seq<DiffInfo>, a: seq<T>, b: seq<T>,
                                         A: seq<T>, B: seq<T>, ia: int, ib: int, ja: int, jb: int,
                                         b1: DiffInfo, b2: DiffInfo)
    requires Described(d0, a, b, ia, ib) && IsDist(A, B, 1)
    requires d1 == Edited(d0, b1.kind, b1.off, b1.len) && d2 == Edited(d1, b2.kind, b2.off, b2.len)
    requires BlockFits(b1, a, b, ia, ib) && BlockFits(b2, a, b, ia + LenA(b1), ib + LenB(b1))
    requires ja == ia + LenA(b1) + LenA(b2) && jb == ib + LenB(b1) + LenB(b2)
    requires b1.kind != b2.kind && (b1.kind == Match || b2.kind == Match)
    requires (if b1.kind == Match then b2.len else b1.len) == 1
    requires b1.kind == In1 ==> d0 == [] || Last(d0).kind != In2
    requires b2.kind == In2 ==> Path(A, B, 0, 0, 0, |A|, |B| - 1)
    ensures Solved(d0, d2, a, b, A, B, ja, jb, 1)
  {
    BaseDescribed(d0, d1, d2, a, b, ia, ib, ja, jb, b1, b2);
    ExtendsTrans(d0, d1, d2);
  }

  /** Two recorded blocks that make a script of one edit describe the sequences past both. */
  lemma {:induction false} BaseDescribed<T>(d0: seq<DiffInfo>, d1: seq<DiffInfo>, d2: seq<DiffInfo>, a: seq<T>, b: seq<T>,
                                            ia: int, ib: int, ja: int, jb: int, b1: DiffInfo, b2: DiffInfo)
    requires Described(d0, a, b, ia, ib)
    requires d1 == Edited(d0, b1.kind, b1.off, b1.len) && d2 == Edited(d1, b2.kind, b2.off, b2.len)
    requires BlockFits(b1, a, b, ia, ib) && BlockFits(b2, a, b, ia + LenA(b1), ib + LenB(b1))
    requires ja == ia + LenA(b1) + LenA(b2) && jb == ib + LenB(b1) + LenB(b2)
    requires b1.kind != b2.kind && (b1.kind == Match || b2.kind == Match)
    requires (if b1.kind == Match then b2.len else b1.len) == 1
    requires b1.kind == In1 ==> d0 == [] || Last(d0).kind != In2
    ensures Described(d2, a, b, ja, jb) && Edits(d2) == Edits(d0) + 1
    ensures d2 != [] && Last(d2).kind == b2.kind
  {
    EditedDescribed(d0, a, b, b1.kind, b1.off, b1.len);
    EditedDescribed(d1, a, b, b2.kind, b2.off, b2.len);
  }

  /**
   * When the list ends with an insertion after the first half and the middle snake, the
   * part after the snake has no shortest script starting with a deletion.
   */
  lemma {:induction false} MiddleNoDelete<T>(d0: seq<DiffInfo>, d1: seq<DiffInfo>, d2: seq<DiffInfo>, a: seq<T>, b: seq<T>,
                                             A: seq<T>, B: seq<T>, ia: int, ib: int, d: int, ms: MiddleSnake, r1: int)
    requires 1 < d && IsMiddleSnake(A, B, d, ms) && r1 == (d + 1) / 2
    requires Solved(d0, d1, a, b, A[..ms.x], B[..ms.y], ia, ib, r1)
    requires d2 == Edited(d1, Match, ia, ms.u - ms.x)
    requires d2 != [] && Last(d2).kind == In2
    ensures NoDeleteFirst(A[ms.u..], B[ms.v..])
  {
    SecondHalfNoDelete(A, B, d, ms.x, ms.y, ms.u, ms.v);
  }

  /** The first half's script, the middle snake and the second half's script solve the whole. */
  lemma {:induction false} JoinSolved<T>(d0: seq<DiffInfo>, d1: seq<DiffInfo>, d2: seq<DiffInfo>, d3: seq<DiffInfo>,
                                         a: seq<T>, b: seq<T>, A: seq<T>, B: seq<T>, ia: int, ib: int,
                                         aend: int, bend: int, d: int, ms: MiddleSnake, r1: int, r2: int)
    requires 1 < d && aend == |A| && bend == |B| && r1 == (d + 1) / 2 && r2 == d / 2
    requires d2 == Edited(d1, Match, ia + ms.x, ms.u - ms.x)
    ensures IsDist(A, B, d) && IsMiddleSnake(A, B, d, ms) &&
            Solved(d0, d1, a, b, A[..ms.x], B[..ms.y], ia + ms.x, ib + ms.y, r1) &&
            (ms.u == ms.x || BlockFits(DiffInfo(Match, ia + ms.x, ms.u - ms.x), a, b, ia + ms.x, ib + ms.y)) &&
            Solved(d2, d3, a, b, A[ms.u..], B[ms.v..], ia + ms.u + (aend - ms.u), ib + ms.v + (bend - ms.v), r2) ==>
              Solved(d0, d3, a, b, A, B, ia + aend, ib + bend, d)
  {
    if IsDist(A, B, d) && IsMiddleSnake(A, B, d, ms) &&
       Solved(d0, d1, a, b, A[..ms.x], B[..ms.y], ia + ms.x, ib + ms.y, r1) &&
       (ms.u == ms.x || BlockFits(DiffInfo(Match, ia + ms.x, ms.u - ms.x), a, b, ia + ms.x, ib + ms.y)) &&
       Solved(d2, d3, a, b, A[ms.u..], B[ms.v..], ia + ms.u + (aend - ms.u), ib + ms.v + (bend - ms.v), r2) {
      EditedDescribed(d1, a, b, Match, ia + ms.x, ms.u - ms.x);
      ExtendsTrans(d0, d1, d2);
      ExtendsTrans(d0, d2, d3);
      if Last(d3).kind == In2 {
        InsertLastJoins(A, B, d, ms.x, ms.y, ms.u, ms.v);
      }
    }
  }

  /** Base case: A is B without its last element; match A, then insert B's last element. */
  lemma {:induction false} BaseInsertLast<T>(d0: seq<DiffInfo>, d1: seq<DiffInfo>, d2: seq<DiffInfo>, a: seq<T>, b: seq<T>,
                                             A: seq<T>, B: seq<T>, aoff: int, aend: int, boff: int, bend: int)
    requires 0 <= aoff && 0 < aend && aoff + aend <= |a| && 0 <= boff && 0 < bend && boff + bend <= |b|
    requires A == a[aoff..aoff + aend] && B == b[boff..boff + bend]
    requires IsDist(A, B, 1) && |B| == |A| + 1 && A == B[..|A|] && Described(d0, a, b, aoff, boff)
    requires d1 == Edited(d0, Match, aoff, aend) && d2 == Edited(d1, In2, boff + (bend - 1), 1)
    ensures Solved(d0, d2, a, b, A, B, aoff + aend, boff + bend, 1)
  {
    Window(b, boff, bend, 0, aend);
    AddLastInsertsLast(A, B);
    BaseSolved(d0, d1, d2, a, b, A, B, aoff, boff, aoff + aend, boff + bend,
               DiffInfo(Match, aoff, aend), DiffInfo(In2, boff + (bend - 1), 1));
  }

  /** Base case: A is B without its first element; insert B's first element, then match A. */
  lemma {:induction false} BaseInsertFirst<T>(d0: seq<DiffInfo>, d1: seq<DiffInfo>, d2: seq<DiffInfo>, a: seq<T>, b: seq<T>,
                                              A: seq<T>, B: seq<T>, aoff: int, aend: int, boff: int, bend: int)
    requires 0 <= aoff && 0 < aend && aoff + aend <= |a| && 0 <= boff && 0 < bend && boff + bend <= |b|
    requires A == a[aoff..aoff + aend] && B == b[boff..boff + bend]
    requires IsDist(A, B, 1) && |B| == |A| + 1 && A == B[1..] && Described(d0, a, b, aoff, boff)
    requires d1 == Edited(d0, In2, boff, 1) && d2 == Edited(d1, Match, aoff, aend)
    ensures Solved(d0, d2, a, b, A, B, aoff + aend, boff + bend, 1)
  {
    Window(b, boff, bend, 1, bend);
    BaseSolved(d0, d1, d2, a, b, A, B, aoff, boff, aoff + aend, boff + bend,
               DiffInfo(In2, boff, 1), DiffInfo(Match, aoff, aend));
  }

  /** Base case: B is A without its last element; match B, then delete A's last element. */
  lemma {:induction false} BaseDeleteLast<T>(d0: seq<DiffInfo>, d1: seq<DiffInfo>, d2: seq<DiffInfo>, a: seq<T>, b: seq<T>,
                                             A: seq<T>, B: seq<T>, aoff: int, aend: int, boff: int, bend: int)
    requires 0 <= aoff && 0 < aend && aoff + aend <= |a| && 0 <= boff && 0 < bend && boff + bend <= |b|
    requires A == a[aoff..aoff + aend] && B == b[boff..boff + bend]
    requires IsDist(A, B, 1) && |A| == |B| + 1 && B == A[..|B|] && Described(d0, a, b, aoff, boff)
    requires d1 == Edited(d0, Match, aoff, bend) && d2 == Edited(d1, In1, aoff + (aend - 1), 1)
    ensures Solved(d0, d2, a, b, A, B, aoff + aend, boff + bend, 1)
  {
    Window(a, aoff, aend, 0, bend);
    BaseSolved(d0, d1, d2, a, b, A, B, aoff, boff, aoff + aend, boff + bend,
               DiffInfo(Match, aoff, bend), DiffInfo(In1, aoff + (aend - 1), 1));
  }

  /**
   * Base case: B is A without its first element; delete A's first element, then match B.
   * Deleting first is a shortest script, so the list must not end with an insertion.
   */
  lemma {:induction false} BaseDeleteFirst<T>(d0: seq<DiffInfo>, d1: seq<DiffInfo>, d2: seq<DiffInfo>, a: seq<T>, b: seq<T>,
                                              A: seq<T>, B: seq<T>, aoff: int, aend: int, boff: int, bend: int)
    requires 0 <= aoff && 0 < aend && aoff + aend <= |a| && 0 <= boff && 0 < bend && boff + bend <= |b|
    requires A == a[aoff..aoff + aend] && B == b[boff..boff + bend]
    requires IsDist(A, B, 1) && |A| == |B| + 1 && B == A[1..] && Described(d0, a, b, aoff, boff)
    requires d0 != [] && Last(d0).kind == In2 ==> NoDeleteFirst(A, B)
    requires d1 == Edited(d0, In1, aoff, 1) && d2 == Edited(d1, Match, aoff + 1, bend)
    ensures Solved(d0, d2, a, b, A, B, aoff + aend, boff + bend, 1)
  {
    Window(a, aoff, aend, 1, aend);
    DropFirstDeletesFirst(A, B);
    BaseSolved(d0, d1, d2, a, b, A, B, aoff, boff, aoff + aend, boff + bend,
               DiffInfo(In1, aoff, 1), DiffInfo(Match, aoff + 1, bend));
  }

  /** The part in front of the middle snake is a problem Ses accepts. */
  lemma {:induction false} FrontReady<T>(d0: seq<DiffInfo>, a: seq<T>, b: seq<T>, A: seq<T>, B: seq<T>,
                                         aoff: int, aend: int, boff: int, bend: int, d: int, ms: MiddleSnake)
    requires 0 <= aoff && 0 < aend && aoff + aend <= |a| && 0 <= boff && 0 < bend && boff + bend <= |b|
    requires A == a[aoff..aoff + aend] && B == b[boff..boff + bend]
    requires 1 < d && IsDist(A, B, d) && IsMiddleSnake(A, B, d, ms)
    requires d0 != [] && Last(d0).kind == In2 ==> NoDeleteFirst(A, B)
    ensures 0 <= ms.x <= ms.u <= aend && 0 <= ms.y <= ms.v <= bend
    ensures A[..ms.x] == a[aoff..aoff + ms.x] && B[..ms.y] == b[boff..boff + ms.y]
    ensures EditAtAnEnd(A[..ms.x], B[..ms.y])
    ensures d0 != [] && Last(d0).kind == In2 ==> NoDeleteFirst(A[..ms.x], B[..ms.y])
  {
    Window(a, aoff, aend, ms.x, ms.u);
    Window(b, boff, bend, ms.y, ms.v);
    if d0 != [] && Last(d0).kind == In2 {
      FirstHalfNoDelete(A, B, d, ms.x, ms.y, ms.u, ms.v);
    }
  }

  /** What a middle snake of distance d > 1 says about the parts before and after it. */
  lemma {:induction false} SnakeHalves<T>(A: seq<T>, B: seq<T>, d: int, ms: MiddleSnake)
    requires 1 < d
    ensures IsMiddleSnake(A, B, d, ms) ==>
              A[ms.x..ms.u] == B[ms.y..ms.v] &&
              IsDist(A[..ms.x], B[..ms.y], (d + 1) / 2) && EditAtAnEnd(A[..ms.x], B[..ms.y]) &&
              IsDist(A[ms.u..], B[ms.v..], d / 2) && EditAtAnEnd(A[ms.u..], B[ms.v..])
  {
    if IsMiddleSnake(A, B, d, ms) {
      assert Halves(A, B, d, ms.x, ms.y, ms.u, ms.v);
    }
  }

  /** A snake of the window A, B of a, b is a match block of a and b. */
  lemma {:induction false} SnakeFits<T>(a: seq<T>, b: seq<T>, A: seq<T>, B: seq<T>,
                                        aoff: int, aend: int, boff: int, bend: int, ms: MiddleSnake)
    requires 0 <= aoff && 0 < aend && aoff + aend <= |a| && 0 <= boff && 0 < bend && boff + bend <= |b|
    requires A == a[aoff..aoff + aend] && B == b[boff..boff + bend]
    ensures 0 <= ms.x <= ms.u <= aend && 0 <= ms.y <= ms.v <= bend && ms.u - ms.x == ms.v - ms.y &&
            A[ms.x..ms.u] == B[ms.y..ms.v] ==>
              ms.u == ms.x || BlockFits(DiffInfo(Match, aoff + ms.x, ms.u - ms.x), a, b, aoff + ms.x, boff + ms.y)
  {
    if 0 <= ms.x <= ms.u <= aend && 0 <= ms.y <= ms.v <= bend && ms.u - ms.x == ms.v - ms.y &&
       A[ms.x..ms.u] == B[ms.y..ms.v] {
      Window(a, aoff, aend, ms.x, ms.u);
      Window(b, boff, bend, ms.y, ms.v);
      assert aoff + ms.x + (ms.u - ms.x) == aoff + ms.u && boff + ms.y + (ms.u - ms.x) == boff + ms.v;
    }
  }

  /** A described list stays described, up to the end of the match, once a match is recorded. */
  lemma {:induction false} MatchDescribed<T>(d1: seq<DiffInfo>, d2: seq<DiffInfo>, a: seq<T>, b: seq<T>,
                                             ia: int, ib: int, len: int, ja: int, jb: int)
    requires d2 == Edited(d1, Match, ia, len) && ja == ia + len && jb == ib + len
    ensures Described(d1, a, b, ia, ib) && (len == 0 || BlockFits(DiffInfo(Match, ia, len), a, b, ia, ib)) ==>
              Described(d2, a, b, ja, jb)
  {
    if Described(d1, a, b, ia, ib) && (len == 0 || BlockFits(DiffInfo(Match, ia, len), a, b, ia, ib)) {
      EditedDescribed(d1, a, b, Match, ia, len);
    }
  }

  /** The part after the middle snake is a problem Ses accepts once the snake is recorded. */
  lemma {:induction false} BackReady<T>(d0: seq<DiffInfo>, d1: seq<DiffInfo>, d2: seq<DiffInfo>, a: seq<T>, b: seq<T>,
                                        A: seq<T>, B: seq<T>, aoff: int, aend: int, boff: int, bend: int,
                                        d: int, ms: MiddleSnake, r1: int)
    requires 0 <= aoff && 0 < aend && aoff + aend <= |a| && 0 <= boff && 0 < bend && boff + bend <= |b|
    requires A == a[aoff..aoff + aend] && B == b[boff..boff + bend]
    requires 1 < d && r1 == (d + 1) / 2 && d2 == Edited(d1, Match, aoff + ms.x, ms.u - ms.x)
    ensures IsMiddleSnake(A, B, d, ms) && Solved(d0, d1, a, b, A[..ms.x], B[..ms.y], aoff + ms.x, boff + ms.y, r1) ==>
              SesReady(d2, a, b, A[ms.u..], B[ms.v..], aoff + ms.u, aend - ms.u, boff + ms.v, bend - ms.v) &&
              IsDist(A[ms.u..], B[ms.v..], d / 2) &&
              (ms.u == ms.x || BlockFits(DiffInfo(Match, aoff + ms.x, ms.u - ms.x), a, b, aoff + ms.x, boff + ms.y))
  {
    BackHalf(a, b, A, B, aoff, aend, boff, bend, d, ms);
    BackJoin(d0, d1, d2, a, b, A, B, aoff, aend, boff, bend, d, ms, r1);
  }

  /** The second half of a middle snake's comparison is a window of a and b at distance d / 2. */
  lemma {:induction false} BackHalf<T>(a: seq<T>, b: seq<T>, A: seq<T>, B: seq<T>,
                                       aoff: int, aend: int, boff: int, bend: int, d: int, ms: MiddleSnake)
    requires 0 <= aoff && 0 < aend && aoff + aend <= |a| && 0 <= boff && 0 < bend && boff + bend <= |b|
    requires A == a[aoff..aoff + aend] && B == b[boff..boff + bend]
    requires 1 < d
    ensures IsMiddleSnake(A, B, d, ms) ==>
              A[ms.u..] == a[aoff + ms.u..aoff + ms.u + (aend - ms.u)] && B[ms.v..] == b[boff + ms.v..boff + ms.v + (bend - ms.v)] &&
              EditAtAnEnd(A[ms.u..], B[ms.v..]) && IsDist(A[ms.u..], B[ms.v..], d / 2)
  {
    if IsMiddleSnake(A, B, d, ms) {
      Window(a, aoff, aend, ms.x, ms.u);
      Window(b, boff, bend, ms.y, ms.v);
      SnakeHalves(A, B, d, ms);
    }
  }

  /** The list with the middle snake's match appended describes a and b up to the snake's end. */
  lemma {:induction false} BackJoin<T>(d0: seq<DiffInfo>, d1: seq<DiffInfo>, d2: seq<DiffInfo>, a: seq<T>, b: seq<T>,
                                       A: seq<T>, B: seq<T>, aoff: int, aend: int, boff: int, bend: int,
                                       d: int, ms: MiddleSnake, r1: int)
    requires 0 <= aoff && 0 < aend && aoff + aend <= |a| && 0 <= boff && 0 < bend && boff + bend <= |b|
    requires A == a[aoff..aoff + aend] && B == b[boff..boff + bend]
    requires 1 < d && r1 == (d + 1) / 2 && d2 == Edited(d1, Match, aoff + ms.x, ms.u - ms.x)
    ensures IsMiddleSnake(A, B, d, ms) && Solved(d0, d1, a, b, A[..ms.x], B[..ms.y], aoff + ms.x, boff + ms.y, r1) ==>
              Described(d2, a, b, aoff + ms.u, boff + ms.v) &&
              (ms.u == ms.x || BlockFits(DiffInfo(Match, aoff + ms.x, ms.u - ms.x), a, b, aoff + ms.x, boff + ms.y)) &&
              (d2 != [] && Last(d2).kind == In2 ==> NoDeleteFirst(A[ms.u..], B[ms.v..]))
  {
    if IsMiddleSnake(A, B, d, ms) && Solved(d0, d1, a, b, A[..ms.x], B[..ms.y], aoff + ms.x, boff + ms.y, r1) {
      SnakeFits(a, b, A, B, aoff, aend, boff, bend, ms);
      MatchDescribed(d1, d2, a, b, aoff + ms.x, boff + ms.y, ms.u - ms.x, aoff + ms.u, boff + ms.v);
      if d2 != [] && Last(d2).kind == In2 {
        MiddleNoDelete(d0, d1, d2, a, b, A, B, aoff + ms.x, boff + ms.y, d, ms, r1);
      }
    }
  }

  // ---------------------------------------------------------------------------------
  // The comparison
  // ---------------------------------------------------------------------------------

  /**
   * `d` is what a completed comparison promises: an edit script turning a into b with the
   * fewest edits, no two neighbouring blocks of one kind and no insertion block directly
   * followed by a deletion block.
   */
  ghost predicate Shortest<T>(d: seq<DiffInfo>, a: seq<T>, b: seq<T>)
  {
    Covers(d, a, b) && Coalesced(d) && NoIn2In1(d) && 0 <= Edits(d) && IsDist(a, b, Edits(d))
  }

  /** Neither sequence is a prefix of the other. */
  predicate Diverge<T(==)>(x: seq<T>, y: seq<T>)
  {
    exists i :: 0 <= i < |x| && i < |y| && x[i] != y[i]
  }

  /** The common prefix recorded as one match leaves a problem Ses accepts. */
  lemma {:induction false} PrefixReady<T>(a: seq<T>, b: seq<T>, off: int, d0: seq<DiffInfo>)
    requires 0 <= off <= |a| && off <= |b| && a[..off] == b[..off]
    requires off < |a| && off < |b| ==> a[off] != b[off]
    requires d0 == Edited([], Match, 0, off)
    ensures Described(d0, a, b, off, off) && Edits(d0) == 0 && (d0 == [] || Last(d0).kind == Match)
    ensures EditAtAnEnd(a[off..off + (|a| - off)], b[off..off + (|b| - off)])
    ensures Diverge(a, b) ==> off < |a| && off < |b|
  {
    assert a[0..off] == a[..off] && b[0..off] == b[..off];
    EditedDescribed([], a, b, Match, 0, off);
    var A, B := a[off..off + (|a| - off)], b[off..off + (|b| - off)];
    if 0 < |A| && 0 < |B| {
      assert A[0] == a[off] && B[0] == b[off];
      StartDiffers(A, B);
    }
    forall j | 0 <= j < off
      ensures a[j] == b[j]
    {
      assert a[..off][j] == b[..off][j];
    }
  }

  /** Equal sequences: one match block, or none when they are empty, is their shortest script. */
  lemma {:induction false} SameShortest<T>(a: seq<T>, b: seq<T>, d: seq<DiffInfo>)
    requires a == b && d == Edited([], Match, 0, |a|)
    ensures d == (if a == [] then [] else [DiffInfo(Match, 0, |a|)])
    ensures Shortest(d, a, b)
  {
    assert a[0..|a|] == a;
    EditedDescribed([], a, b, Match, 0, |a|);
    PathZero(a, b, 0, 0, |a|, |b|);
  }

  /**
   * Ses on what follows the common prefix either found that a and b need at least m
   * edits, or completed a shortest script of a and b; either way the list starts with the
   * prefix's match.
   */
  lemma {:induction false} SesOutcome<T>(d0: seq<DiffInfo>, d: seq<DiffInfo>, a: seq<T>, b: seq<T>, off: int, r: int, m: int)
    requires 0 <= off <= |a| && off <= |b| && a[..off] == b[..off]
    requires Described(d0, a, b, off, off) && Edits(d0) == 0
    requires var A, B := a[off..off + (|a| - off)], b[off..off + (|b| - off)];
             Solved(d0, d, a, b, A, B, off + (|a| - off), off + (|b| - off), r) || (r == m && AtLeast(A, B, m) && d == d0)
    ensures Extends(d0, d) && Fits(d, a, b, 0, 0) && Coalesced(d) && NoIn2In1(d)
    ensures AtLeast(a, b, m) || Shortest(d, a, b)
    ensures 0 <= r || r == m
  {
    var A, B := a[off..off + (|a| - off)], b[off..off + (|b| - off)];
    assert A == a[off..] && B == b[off..];
    if r == m && AtLeast(A, B, m) && d == d0 {
      forall e: nat | e < m
        ensures !Path(a, b, e, 0, 0, |a|, |b|)
      {
        CommonPrefix(a, b, off, e);
      }
    } else {
      CommonPrefix(a, b, off, r);
      if 0 < r {
        CommonPrefix(a, b, off, r - 1);
      }
    }
  }

  /**
   * The first block of a list Ses completed after the common prefix is the prefix's match,
   * when there is a prefix, and is not a match otherwise: the element after the prefix
   * differs.
   */
  lemma {:induction false} FirstBlock<T>(d0: seq<DiffInfo>, d: seq<DiffInfo>, a: seq<T>, b: seq<T>, off: int)
    requires 0 <= off <= |a| && off <= |b| && a[..off] == b[..off]
    requires off < |a| && off < |b| ==> a[off] != b[off]
    requires d0 == Edited([], Match, 0, off) && Extends(d0, d) && Fits(d, a, b, 0, 0)
    ensures (if d != [] && d[0].kind == Match then [d[0]] else []) == d0
  {
    if d != [] && d[0].kind == Match {
      var n := d[0].len;
      assert BlockFits(d[0], a, b, 0, 0);
      if off < n {
        assert false;
      }
    }
  }

  /**
   * The two answers of a recomparison of sequences a and b of equal length: first describes
   * a against b and second b against a, both shortest unless the distance reaches m, and kept
   * says that second was kept, which happens exactly when it has no fewer replacements.
   */
  ghost predicate Selection<T>(first: seq<DiffInfo>, second: seq<DiffInfo>, a: seq<T>, b: seq<T>, m: int, kept: bool)
  {
    Fits(first, a, b, 0, 0) && Coalesced(first) && NoIn2In1(first) && (!AtLeast(a, b, m) ==> Shortest(first, a, b)) &&
    Fits(second, b, a, 0, 0) && Coalesced(second) && NoIn2In1(second) && (!AtLeast(a, b, m) ==> Shortest(second, b, a)) &&
    kept == (Replaces(second) >= Replaces(first))
  }

  /** The list the optional combining and shifting passes make of d. */
  function Passes<T(==)>(d: seq<DiffInfo>, a: seq<T>, b: seq<T>, doCombine: bool, doShift: bool): seq<DiffInfo>
    requires Coalesced(d) && NoIn2In1(d)
  {
    var c := if doCombine then Combined(d, a, b) else d;
    if doShift then Shifted(c, a, b) else c
  }

  /**
   * What Ses needs of its sub-problem A, B: they are the windows of a and b at (aoff, boff),
   * one of them begins or ends with an edit, the list d describes everything before the
   * windows, and when d ends with an insertion no shortest script of A and B begins with a
   * deletion.
   */
  ghost predicate SesReady<T>(d: seq<DiffInfo>, a: seq<T>, b: seq<T>, A: seq<T>, B: seq<T>,
                              aoff: int, aend: int, boff: int, bend: int)
  {
    0 <= aoff && 0 <= aend && aoff + aend <= |a| && 0 <= boff && 0 <= bend && boff + bend <= |b| &&
    A == a[aoff..aoff + aend] && B == b[boff..boff + bend] &&
    EditAtAnEnd(A, B) && Described(d, a, b, aoff, boff) &&
    (d != [] && Last(d).kind == In2 ==> NoDeleteFirst(A, B))
  }

  class DiffCalc<T(==)> {
    /** The first and the second compared sequence (exchanged when the comparison swaps them). */
    var a: seq<T>
    var b: seq<T>
    /** The difference list built so far. */
    var diff: seq<DiffInfo>
    /** The largest edit distance worth computing. */
    const dmax: int
    /** Scratch space of the middle-snake search; slots never written hold 0. */
    var buf: map<int, int>

    constructor(v1: seq<T>, v2: seq<T>, max: int)
      ensures a == v1 && b == v2 && dmax == max && diff == [] && buf == map[]
    {
      a, b, dmax := v1, v2, max;
      diff, buf := [], map[];
    }

    /** The value of the buffer slot of diagonal k for search r. */
    function V(k: int, r: int): int
      reads this`buf
    {
      Slot(buf, k, r)
    }

    /** Records `len` elements of kind `kind` at `off`, growing the last block when it has the same kind. */
    method Edit(kind: DiffType, off: int, len: int)
      modifies this`diff
      ensures diff == Edited(old(diff), kind, off, len)
    {
      if len == 0 {
        return;
      }
      var addElem := diff == [];
      if !addElem {
        addElem := diff[|diff| - 1].kind != kind;
      }
      if addElem {
        diff := diff + [DiffInfo(kind, off, len)];
      } else {
        var last := diff[|diff| - 1];
        diff := diff[..|diff| - 1] + [last.(len := last.len + len)];
      }
    }

    /** Follows the equal elements of a[aoff..aoff + aend] and b[boff..boff + bend] forward from (x0, y0). */
    method Snake(aoff: int, aend: int, boff: int, bend: int, x0: int, y0: int) returns (x: int, y: int)
      requires 0 <= aoff && 0 <= aend && aoff + aend <= |a| && 0 <= boff && 0 <= bend && boff + bend <= |b|
      requires 0 <= x0 && 0 <= y0
      ensures x == Slide(a[aoff..aoff + aend], b[boff..boff + bend], x0, y0) && y - x == y0 - x0
    {
      ghost var A, B := a[aoff..aoff + aend], b[boff..boff + bend];
      x, y := x0, y0;
      while x < aend && y < bend && a[aoff + x] == b[boff + y]
        invariant x0 <= x && y - x == y0 - x0
        invariant Slide(A, B, x, y) == Slide(A, B, x0, y0)
        decreases aend - x
      {
        x, y := x + 1, y + 1;
      }
    }

    /** Follows the equal elements of a[aoff..aoff + aend] and b[boff..boff + bend] backward from (x0, y0). */
    method SnakeBack(aoff: int, aend: int, boff: int, bend: int, x0: int, y0: int) returns (x: int, y: int)
      requires 0 <= aoff && 0 <= aend && aoff + aend <= |a| && 0 <= boff && 0 <= bend && boff + bend <= |b|
      requires x0 <= aend && y0 <= bend
      ensures x == SlideBack(a[aoff..aoff + aend], b[boff..boff + bend], x0, y0) && y - x == y0 - x0
    {
      ghost var A, B := a[aoff..aoff + aend], b[boff..boff + bend];
      x, y := x0, y0;
      while x > 0 && y > 0 && a[aoff + x - 1] == b[boff + y - 1]
        invariant x <= x0 && y - x == y0 - x0
        invariant SlideBack(A, B, x, y) == SlideBack(A, B, x0, y0)
        decreases x
      {
        x, y := x - 1, y - 1;
      }
    }

    /**
     * Finds the middle snake of a[aoff..aoff + aend] against b[boff..boff + bend]: the edit
     * distance D with the snake where the forward and backward searches first overlap, or
     * dmax when the searches reach dmax first (then no script has fewer than dmax edits).
     */
    method FindMiddleSnake(aoff: int, aend: int, boff: int, bend: int, ms0: MiddleSnake) returns (r: int, ms: MiddleSnake)
      requires 0 <= aoff && 0 < aend && aoff + aend <= |a| && 0 <= boff && 0 < bend && boff + bend <= |b|
      modifies this`buf
      ensures var A, B := a[aoff..aoff + aend], b[boff..boff + bend];
              (r == dmax && AtLeast(A, B, dmax)) ||
              (0 <= r <= dmax && IsDist(A, B, r) && IsMiddleSnake(A, B, r, ms))
    {
      ghost var A, B := a[aoff..aoff + aend], b[boff..boff + bend];
      ghost var D := DistExists(A, B);
      ms := ms0;
      var delta := aend - bend;
      var odd := delta % 2;
      var mid := (aend + bend) / 2 + odd;

      buf := buf[VIndex(1, 0) := 0];
      buf := buf[VIndex(delta - 1, 1) := aend];
      SlotUpdate(buf, delta - 1, 1, aend, 1, 0);

      var d := 0;
      while d <= mid
        invariant 0 <= d <= (D + 1) / 2
        invariant Ready(A, B, buf, d)
      {
        if 2 * d - 1 >= dmax {
          DistAtLeast(A, B, D, dmax);
          return dmax, ms;
        }
        var found;
        ghost var kh;
        found, ms, kh := ForwardPass(aoff, aend, boff, bend, d, ms, A, B);
        if found {
          OddFound(A, B, D, d, kh, ms);
          return 2 * d - 1, ms;
        }
        found, ms, kh := BackwardPass(aoff, aend, boff, bend, d, ms, A, B);
        if found {
          EvenFound(A, B, D, d, kh, ms);
          return 2 * d, ms;
        }
        RoundDone(A, B, buf, D, d);
        d := d + 1;
      }
      assert false;
    }

    /**
     * Round d of the forward search: for k = d, d - 2, .., -d, extends the furthest point of
     * diagonal k by one edit from its neighbours of round d - 1 and follows its snake; stops
     * at the first diagonal (from the top) where it reaches the backward search of round d - 1.
     */
    method ForwardPass(aoff: int, aend: int, boff: int, bend: int, d: int, ms0: MiddleSnake,
      ghost A: seq<T>, ghost B: seq<T>)
      returns (found: bool, ms: MiddleSnake, ghost kh: int)
      requires 0 <= aoff && 0 < aend && aoff + aend <= |a| && 0 <= boff && 0 < bend && boff + bend <= |b|
      requires A == a[aoff..aoff + aend] && B == b[boff..boff + bend]
      requires Ready(A, B, buf, d)
      modifies this`buf
      ensures found ==> FwdFound(A, B, d, kh, ms)
      ensures !found ==> FwdPassInv(A, B, buf, d, -d - 2)
    {
      ms, kh := ms0, 0;
      FwdPassBegin(A, B, buf, d);
      var k := d;
      while k >= -d
        invariant FwdPassInv(A, B, buf, d, k)
      {
        var hit;
        hit, ms := ForwardDiagonal(aoff, aend, boff, bend, d, k, ms, A, B);
        if hit {
          return true, ms, k;
        }
        k := k - 2;
      }
      found := false;
    }

    /**
     * Diagonal k of the forward pass of round d: records its furthest point in the buffer
     * and tests it against the backward search of round d - 1; on an overlap ms is the snake.
     */
    method ForwardDiagonal(aoff: int, aend: int, boff: int, bend: int, d: int, k: int, ms0: MiddleSnake,
      ghost A: seq<T>, ghost B: seq<T>)
      returns (hit: bool, ms: MiddleSnake)
      requires 0 <= aoff && 0 < aend && aoff + aend <= |a| && 0 <= boff && 0 < bend && boff + bend <= |b|
      requires A == a[aoff..aoff + aend] && B == b[boff..boff + bend]
      requires FwdPassInv(A, B, buf, d, k) && -d <= k
      modifies this`buf
      ensures hit ==> FwdFound(A, B, d, k, ms)
      ensures !hit ==> FwdPassInv(A, B, buf, d, k - 2)
    {
      ghost var m := buf;
      var delta := aend - bend;
      var odd := delta % 2;
      var x;
      if k == -d || (k != d && V(k - 1, 0) < V(k + 1, 0)) {
        x := V(k + 1, 0);
      } else {
        x := V(k - 1, 0) + 1;
      }
      assert x == FwdStartAt(buf, d, k);
      ghost var x0 := x;
      var y := x - k;
      ms := ms0.(x := x, y := y);
      FwdStartInside(A, B, buf, d, k);
      x, y := Snake(aoff, aend, boff, bend, x, y);
      buf := buf[VIndex(k, 0) := x];
      hit := odd == 1 && delta - (d - 1) <= k <= delta + (d - 1) && x >= V(k, 1);
      if hit {
        ms := ms.(u := x, v := y);
        assert ms == MiddleSnake(x0, x0 - k, x, x - k);
      }
      FwdStep(A, B, m, buf, delta, d, k, x0, x, hit);
    }

    /**
     * Round d of the backward search, on the diagonals delta + k for k = d, d - 2, .., -d:
     * stops at the first one (from the top) where it reaches the forward search of round d.
     */
    method BackwardPass(aoff: int, aend: int, boff: int, bend: int, d: int, ms0: MiddleSnake,
      ghost A: seq<T>, ghost B: seq<T>)
      returns (found: bool, ms: MiddleSnake, ghost kh: int)
      requires 0 <= aoff && 0 < aend && aoff + aend <= |a| && 0 <= boff && 0 < bend && boff + bend <= |b|
      requires A == a[aoff..aoff + aend] && B == b[boff..boff + bend]
      requires FwdPassInv(A, B, buf, d, -d - 2)
      modifies this`buf
      ensures found ==> BwdFound(A, B, d, kh, ms)
      ensures !found ==> BwdPassInv(A, B, buf, d, -d - 2)
    {
      ms, kh := ms0, 0;
      BwdPassBegin(A, B, buf, d);
      var k := d;
      while k >= -d
        invariant BwdPassInv(A, B, buf, d, k)
      {
        var hit;
        hit, ms := BackwardDiagonal(aoff, aend, boff, bend, d, k, ms, A, B);
        if hit {
          return true, ms, k;
        }
        k := k - 2;
      }
      found := false;
    }

    /**
     * Diagonal delta + k of the backward pass of round d: records its nearest point in the
     * buffer and tests it against the forward search of round d; on an overlap ms is the snake.
     */
    method BackwardDiagonal(aoff: int, aend: int, boff: int, bend: int, d: int, k: int, ms0: MiddleSnake,
      ghost A: seq<T>, ghost B: seq<T>)
      returns (hit: bool, ms: MiddleSnake)
      requires 0 <= aoff && 0 < aend && aoff + aend <= |a| && 0 <= boff && 0 < bend && boff + bend <= |b|
      requires A == a[aoff..aoff + aend] && B == b[boff..boff + bend]
      requires BwdPassInv(A, B, buf, d, k) && -d <= k
      modifies this`buf
      ensures hit ==> BwdFound(A, B, d, k, ms)
      ensures !hit ==> BwdPassInv(A, B, buf, d, k - 2)
    {
      ghost var m := buf;
      var delta := aend - bend;
      var odd := delta % 2;
      var kr := delta + k;
      var x;
      if k == d || (k != -d && V(kr - 1, 1) < V(kr + 1, 1)) {
        x := V(kr - 1, 1);
      } else {
        x := V(kr + 1, 1) - 1;
      }
      assert x == BwdStartAt(buf, delta, d, k);
      ghost var x0 := x;
      var y := x - kr;
      ms := ms0.(u := x, v := y);
      BwdStartInside(A, B, buf, delta, d, k);
      x, y := SnakeBack(aoff, aend, boff, bend, x, y);
      buf := buf[VIndex(kr, 1) := x];
      hit := odd == 0 && -d <= kr <= d && x <= V(kr, 0);
      if hit {
        ms := ms.(x := x, y := y);
        assert ms == MiddleSnake(x, x - (delta + k), x0, x0 - (delta + k));
      }
      BwdStep(A, B, m, buf, delta, d, k, x0, x, hit);
    }

    /**
     * Appends to the list a shortest edit script of a[aoff..aoff + aend] against
     * b[boff..boff + bend] and returns its number of edits, or returns dmax without touching
     * the list when the middle-snake search reaches dmax (no script has fewer edits).
     */
    method Ses(aoff: int, aend: int, boff: int, bend: int, ghost A: seq<T>, ghost B: seq<T>) returns (r: int)
      requires SesReady(diff, a, b, A, B, aoff, aend, boff, bend)
      modifies this`diff, this`buf
      ensures Solved(old(diff), diff, a, b, A, B, aoff + aend, boff + bend, r) ||
              (r == dmax && AtLeast(A, B, dmax) && diff == old(diff))
      ensures 0 < aend && 0 < bend ==> r <= dmax
      decreases aend + bend, 3
    {
      ghost var d0 := diff;
      if aend == 0 {
        Edit(In2, boff, bend);
        r := bend;
        EditedDescribed(d0, a, b, In2, boff, bend);
        DistEmpty(A, B);
        if bend > 0 {
          PathStraight(A, B, 0, 0, 0, bend - 1);
        }
      } else if bend == 0 {
        EmptyBDeletesFirst(A, B);
        Edit(In1, aoff, aend);
        r := aend;
        EditedDescribed(d0, a, b, In1, aoff, aend);
        DistEmpty(A, B);
      } else {
        var ms;
        r, ms := FindMiddleSnake(aoff, aend, boff, bend, MiddleSnake(0, 0, 0, 0));
        if r == -1 {
          return;
        }
        if r >= dmax {
          if r != dmax || !AtLeast(A, B, dmax) {
            DistAtLeast(A, B, r, dmax);
          }
          return dmax;
        }
        if r > 1 {
          r := SolveAround(aoff, aend, boff, bend, r, ms, A, B);
        } else {
          assert StartsWithEdit(A, B, r) || EndsWithEdit(A, B, r);
          SolveBase(aoff, aend, boff, bend, ms, A, B);
        }
      }
    }

    /**
     * The recursive case of Ses, for distance d > 1 and its middle snake ms: solves the
     * part before the snake, then lets SolveBack record the snake and solve the part after it.
     */
    method SolveAround(aoff: int, aend: int, boff: int, bend: int, d: int, ms: MiddleSnake,
      ghost A: seq<T>, ghost B: seq<T>)
      returns (r: int)
      requires 0 <= aoff && 0 < aend && aoff + aend <= |a| && 0 <= boff && 0 < bend && boff + bend <= |b|
      requires A == a[aoff..aoff + aend] && B == b[boff..boff + bend]
      requires 1 < d < dmax && IsDist(A, B, d) && IsMiddleSnake(A, B, d, ms)
      requires Described(diff, a, b, aoff, boff)
      requires diff != [] && Last(diff).kind == In2 ==> NoDeleteFirst(A, B)
      modifies this`diff, this`buf
      ensures r == d && Solved(old(diff), diff, a, b, A, B, aoff + aend, boff + bend, d)
      decreases aend + bend, 2
    {
      ghost var d0 := diff;
      FrontReady(d0, a, b, A, B, aoff, aend, boff, bend, d, ms);
      var r1 := Ses(aoff, ms.x, boff, ms.y, A[..ms.x], B[..ms.y]);
      NotCut(d0, diff, a, b, A[..ms.x], B[..ms.y], aoff + ms.x, boff + ms.y, r1, dmax, (d + 1) / 2);
      if r1 == -1 {
        assert false;
        return -1;
      }
      r := SolveBack(aoff, aend, boff, bend, d, ms, A, B, d0, r1);
    }

    /**
     * The end of the recursive case of Ses: with the part before the middle snake solved
     * since d0, records the snake as a match and solves the part after it.
     */
    method SolveBack(aoff: int, aend: int, boff: int, bend: int, d: int, ms: MiddleSnake,
      ghost A: seq<T>, ghost B: seq<T>, ghost d0: seq<DiffInfo>, ghost r1: int)
      returns (r: int)
      requires 0 <= aoff && 0 < aend && aoff + aend <= |a| && 0 <= boff && 0 < bend && boff + bend <= |b|
      requires A == a[aoff..aoff + aend] && B == b[boff..boff + bend]
      requires 1 < d < dmax && IsDist(A, B, d) && IsMiddleSnake(A, B, d, ms) && r1 == (d + 1) / 2
      requires Solved(d0, diff, a, b, A[..ms.x], B[..ms.y], aoff + ms.x, boff + ms.y, r1)
      modifies this`diff, this`buf
      ensures r == d && Solved(d0, diff, a, b, A, B, aoff + aend, boff + bend, d)
      decreases aend + bend, 1
    {
      ghost var d1 := diff;
      Edit(Match, aoff + ms.x, ms.u - ms.x);
      assert Solved(d0, d1, a, b, A[..ms.x], B[..ms.y], aoff + ms.x, boff + ms.y, r1);
      r := SolveTail(aoff, aend, boff, bend, d, ms, A, B, d0, d1, r1);
    }

    /** Solves the part after the middle snake, once the snake's match is recorded, and joins the two halves. */
    method SolveTail(aoff: int, aend: int, boff: int, bend: int, d: int, ms: MiddleSnake,
      ghost A: seq<T>, ghost B: seq<T>, ghost d0: seq<DiffInfo>, ghost d1: seq<DiffInfo>, ghost r1: int)
      returns (r: int)
      requires 0 <= aoff && 0 < aend && aoff + aend <= |a| && 0 <= boff && 0 < bend && boff + bend <= |b|
      requires A == a[aoff..aoff + aend] && B == b[boff..boff + bend]
      requires 1 < d < dmax && IsDist(A, B, d) && IsMiddleSnake(A, B, d, ms) && r1 == (d + 1) / 2
      requires Solved(d0, d1, a, b, A[..ms.x], B[..ms.y], aoff + ms.x, boff + ms.y, r1)
      requires diff == Edited(d1, Match, aoff + ms.x, ms.u - ms.x)
      modifies this`diff, this`buf
      ensures r == d && Solved(d0, diff, a, b, A, B, aoff + aend, boff + bend, d)
      decreases aend + bend, 0
    {
      ghost var d2 := diff;
      BackReady(d0, d1, d2, a, b, A, B, aoff, aend, boff, bend, d, ms, r1);
      var r2 := Ses(aoff + ms.u, aend - ms.u, boff + ms.v, bend - ms.v, A[ms.u..], B[ms.v..]);
      NotCut(d2, diff, a, b, A[ms.u..], B[ms.v..], aoff + ms.u + (aend - ms.u), boff + ms.v + (bend - ms.v), r2, dmax, d / 2);
      if r2 == -1 {
        assert false;
        return -1;
      }
      JoinSolved(d0, d1, d2, diff, a, b, A, B, aoff, boff, aend, bend, d, ms, r1, r2);
      r := d;
    }

    /** The length of the longest common prefix of a and b. */
    method PrefixLength() returns (off: int)
      ensures 0 <= off <= |a| && off <= |b| && a[..off] == b[..off]
      ensures off < |a| && off < |b| ==> a[off] != b[off]
    {
      off := 0;
      while off < |a| && off < |b| && a[off] == b[off]
        invariant 0 <= off <= |a| && off <= |b| && a[..off] == b[..off]
      {
        off := off + 1;
      }
    }

    /** The number of replacements in the list: deletion blocks directly followed by an insertion block. */
    method CountReplaces() returns (n: int)
      ensures n == Replaces(diff) && n == Pairs(diff)
    {
      ReplacesArePairs(diff);
      var size := |diff| - 1;
      n := 0;
      var i := 0;
      while i < size
        invariant 0 <= i <= |diff| && n + Replaces(diff[i..]) == Replaces(diff)
      {
        if diff[i].kind == In1 && diff[i + 1].kind == In2 {
          assert diff[i..][2..] == diff[i + 2..];
          n := n + 1;
          i := i + 1;
        } else {
          assert diff[i..][1..] == diff[i + 1..];
        }
        i := i + 1;
      }
    }

    /**
     * The comparison without the optional passes. Makes a the shorter sequence and lets
     * Align compare the two; swapped tells whether they end up exchanged.
     */
    method Compare() returns (swapped: bool, passes: bool, ghost prefix: int, ghost first: seq<DiffInfo>, ghost second: seq<DiffInfo>)
      requires diff == []
      modifies this`a, this`b, this`diff, this`buf
      ensures a == (if swapped then old(b) else old(a)) && b == (if swapped then old(a) else old(b))
      ensures Fits(diff, a, b, 0, 0) && Coalesced(diff) && NoIn2In1(diff)
      ensures old(a) == old(b) ==> !passes
      ensures !passes ==> old(a) == old(b) || diff == []
      ensures |old(a)| != |old(b)| ==> swapped == (|old(a)| > |old(b)|)
      ensures old(a) == old(b) ==> !swapped && diff == Edited([], Match, 0, |old(a)|)
      ensures dmax == -1 && Diverge(old(a), old(b)) ==> diff == []
      ensures !AtLeast(old(a), old(b), dmax) ==> Shortest(diff, a, b)
      ensures 0 <= prefix <= |old(a)| && prefix <= |old(b)| && old(a)[..prefix] == old(b)[..prefix]
      ensures prefix < |old(a)| && prefix < |old(b)| ==> old(a)[prefix] != old(b)[prefix]
      ensures diff != [] ==> if prefix == 0 then diff[0].kind != Match else diff[0] == DiffInfo(Match, 0, prefix)
      ensures passes ==> diff == (if swapped && |old(a)| == |old(b)| then second else first)
      ensures passes && |old(a)| == |old(b)| ==> Selection(first, second, old(a), old(b), dmax, swapped)
    {
      swapped := |a| > |b|;
      if swapped {
        a, b := b, a;
      }
      AtLeastSwap(a, b, dmax);
      if Diverge(b, a) {
        var i :| 0 <= i < |b| && i < |a| && b[i] != a[i];
        assert 0 <= i < |a| && i < |b| && a[i] != b[i];
      }
      var flip;
      flip, passes, prefix, first, second := Align();
      swapped := swapped != flip;
    }

    /**
     * The comparison of a with a sequence b at least as long: records their common prefix as
     * a match and, unless that is all of both, lets Solve complete the list.
     */
    method Align() returns (flip: bool, passes: bool, ghost prefix: int, ghost first: seq<DiffInfo>, ghost second: seq<DiffInfo>)
      requires diff == [] && |a| <= |b|
      modifies this`a, this`b, this`diff, this`buf
      ensures a == (if flip then old(b) else old(a)) && b == (if flip then old(a) else old(b))
      ensures |old(a)| != |old(b)| ==> !flip
      ensures Fits(diff, a, b, 0, 0) && Coalesced(diff) && NoIn2In1(diff)
      ensures old(a) == old(b) ==> !passes && !flip && diff == Edited([], Match, 0, |old(a)|)
      ensures !passes ==> old(a) == old(b) || diff == []
      ensures dmax == -1 && Diverge(old(a), old(b)) ==> diff == []
      ensures !AtLeast(old(a), old(b), dmax) ==> Shortest(diff, a, b)
      ensures 0 <= prefix <= |old(a)| && prefix <= |old(b)| && old(a)[..prefix] == old(b)[..prefix]
      ensures prefix < |old(a)| && prefix < |old(b)| ==> old(a)[prefix] != old(b)[prefix]
      ensures diff != [] ==> if prefix == 0 then diff[0].kind != Match else diff[0] == DiffInfo(Match, 0, prefix)
      ensures passes ==> diff == (if flip then second else first)
      ensures passes && |old(a)| == |old(b)| ==> Selection(first, second, old(a), old(b), dmax, flip)
    {
      flip, passes := false, false;
      var off := PrefixLength();
      prefix := off;
      Edit(Match, 0, off);
      first, second := diff, diff;
      if |a| == |b| && off == |a| {
        assert a == a[..off] && b == b[..off];
        SameShortest(a, b, diff);
        return;
      }
      assert |a| != |b| || a[off] != b[off];
      ghost var d0 := diff;
      flip, passes, first, second := Solve(off, d0);
      if passes {
        FirstBlock(d0, diff, a, b, off);
      }
    }

    /**
     * The comparison after the common prefix of length off, recorded as a match, of a and
     * a longer or different b: Ses completes the list first, which is emptied when Ses
     * reports -1; for sequences of equal length the comparison runs once more with the two
     * exchanged, giving second, and that list is kept exactly when it has no fewer
     * replacements than first (flip tells whether the sequences stay exchanged). passes
     * tells whether the list was completed.
     */
    method Solve(off: int, ghost d0: seq<DiffInfo>) returns (flip: bool, passes: bool, ghost first: seq<DiffInfo>, ghost second: seq<DiffInfo>)
      requires 0 <= off <= |a| <= |b| && a[..off] == b[..off]
      requires off < |a| ==> a[off] != b[off]
      requires off == |a| ==> |a| < |b|
      requires d0 == Edited([], Match, 0, off) && diff == d0
      modifies this`a, this`b, this`diff, this`buf
      ensures a == (if flip then old(b) else old(a)) && b == (if flip then old(a) else old(b))
      ensures |old(a)| != |old(b)| ==> !flip
      ensures Fits(diff, a, b, 0, 0) && Coalesced(diff) && NoIn2In1(diff)
      ensures dmax == -1 && Diverge(old(a), old(b)) ==> diff == [] && !passes
      ensures !AtLeast(old(a), old(b), dmax) ==> Shortest(diff, a, b)
      ensures !passes ==> diff == [] && !flip
      ensures passes ==> Extends(d0, diff) && diff == (if flip then second else first)
      ensures passes ==> Fits(first, old(a), old(b), 0, 0) && Coalesced(first) && NoIn2In1(first)
      ensures passes && !AtLeast(old(a), old(b), dmax) ==> Shortest(first, old(a), old(b))
      ensures passes && |old(a)| == |old(b)| ==> Selection(first, second, old(a), old(b), dmax, flip)
    {
      flip, passes := false, false;
      var r := SesAfter(off, d0);
      first, second := diff, diff;
      if r == -1 {
        diff := [];
        return;
      }
      buf := map[];
      if |a| == |b| {
        assert 0 <= off < |a| && off < |b| && a[off] != b[off];
        assert dmax != -1;
        flip, second := Recompare(off, d0);
      }
      passes := true;
    }

    /**
     * The second comparison of sequences of equal length, with the list completed after
     * their common prefix of length off: exchanges the sequences, compares them again after
     * the same prefix into second and keeps second unless it has fewer replacements than the
     * first list, or unless that comparison gave up; flip tells whether the sequences stay
     * exchanged.
     */
    method Recompare(off: int, ghost d0: seq<DiffInfo>) returns (flip: bool, ghost second: seq<DiffInfo>)
      requires 0 <= off < |a| == |b| && a[..off] == b[..off] && a[off] != b[off]
      requires d0 == Edited([], Match, 0, off) && Extends(d0, diff) && Fits(diff, a, b, 0, 0)
      requires Coalesced(diff) && NoIn2In1(diff)
      requires AtLeast(a, b, dmax) || Shortest(diff, a, b)
      modifies this`a, this`b, this`diff, this`buf
      ensures a == (if flip then old(b) else old(a)) && b == (if flip then old(a) else old(b))
      ensures Extends(d0, second) && Fits(second, old(b), old(a), 0, 0) && Coalesced(second) && NoIn2In1(second)
      ensures !AtLeast(old(a), old(b), dmax) ==> Shortest(second, old(b), old(a))
      ensures flip ==> diff == second && Replaces(second) >= Replaces(old(diff))
      ensures !flip ==> diff == old(diff) && (dmax == -1 || Replaces(second) < Replaces(old(diff)))
    {
      var count := CountReplaces();
      var stored := diff;
      var r := Retry(off, d0, stored);
      second := diff;
      flip := true;
      var newCount := r;
      if r != -1 {
        newCount := CountReplaces();
      }
      if newCount < count {
        diff := stored;
        a, b := b, a;
        flip := false;
      }
    }

    /**
     * The second attempt of the recomparison: the sequences are swapped, the leading match
     * of the first answer is kept and the rest is solved again.
     */
    method Retry(off: int, ghost d0: seq<DiffInfo>, stored: seq<DiffInfo>) returns (r: int)
      requires 0 <= off < |a| == |b| && a[..off] == b[..off] && a[off] != b[off]
      requires d0 == Edited([], Match, 0, off) && Extends(d0, stored) && Fits(stored, a, b, 0, 0)
      modifies this`a, this`b, this`diff, this`buf
      ensures a == old(b) && b == old(a)
      ensures Extends(d0, diff) && Fits(diff, a, b, 0, 0) && Coalesced(diff) && NoIn2In1(diff)
      ensures AtLeast(old(a), old(b), dmax) || Shortest(diff, a, b)
      ensures 0 <= r || r == dmax
    {
      FirstBlock(d0, stored, a, b, off);
      diff := [];
      a, b := b, a;
      if stored != [] && stored[0].kind == Match {
        diff := diff + [stored[0]];
      }
      AtLeastSwap(a, b, dmax);
      r := SesAfter(off, d0);
      buf := map[];
    }

    /**
     * Ses on what follows the common prefix of length off, with the list holding the
     * prefix's match: the list it leaves extends that match and, unless the distance reaches
     * dmax, is a shortest script of the whole sequences.
     */
    method SesAfter(off: int, ghost d0: seq<DiffInfo>) returns (r: int)
      requires 0 <= off <= |a| && off <= |b| && a[..off] == b[..off]
      requires off < |a| && off < |b| ==> a[off] != b[off]
      requires d0 == Edited([], Match, 0, off) && diff == d0
      modifies this`diff, this`buf
      ensures Extends(d0, diff) && Fits(diff, a, b, 0, 0) && Coalesced(diff) && NoIn2In1(diff)
      ensures AtLeast(a, b, dmax) || Shortest(diff, a, b)
      ensures 0 <= r || r == dmax
      ensures Diverge(a, b) ==> r <= dmax
    {
      PrefixReady(a, b, off, d0);
      var asize, bsize := |a| - off, |b| - off;
      r := Ses(off, asize, off, bsize, a[off..off + asize], b[off..off + bsize]);
      SesOutcome(d0, diff, a, b, off, r, dmax);
    }

    /**
     * The combining pass: every match that repeats the end of the difference block after
     * it is moved behind that block and the blocks around it are joined.
     */
    method CombineDiffs()
      requires Coalesced(diff) && NoIn2In1(diff) && Fits(diff, a, b, 0, 0)
      modifies this`diff
      ensures diff == Combined(old(diff), a, b)
    {
      ghost var d0 := diff;
      var i := 1;
      while i < |diff|
        invariant 1 <= i && Coalesced(diff) && NoIn2In1(diff) && Fits(diff, a, b, 0, 0)
        invariant CombineFrom(diff, i, a, b, false) == Combined(d0, a, b)
        decreases |diff|, InnerMatches(diff), |diff| - i
      {
        if diff[i].kind != Match || i + 1 == |diff| {
          i := i + 1;
        } else if diff[i + 1].kind == In1 && i + 2 < |diff| && diff[i + 2].kind == In2 {
          i := i + 3;
        } else {
          var next := diff[i + 1];
          var el := if next.kind == In1 then a else b;
          if diff[i].len > next.len {
            i := i + 2;
          } else {
            NextInRange(diff, a, b, i);
            var repeats := MatchRepeats(el, next.off, next.len, diff[i].len);
            if !repeats {
              i := i + 2;
            } else {
              ghost var d := diff;
              SinkKinds(d, i, EndOff(d[i], next));
              SinkIsResult(d, i, EndOff(d[i], next));
              SinkFits(d, i, a, b);
              i := SinkMatch(i);
            }
          }
        }
      }
    }

    /** Moves the match at i behind the difference block after it, as one step of the combining pass. */
    method SinkMatch(i: int) returns (j: int)
      requires 1 <= i && i + 1 < |diff|
      modifies this`diff
      ensures (diff, j) == Sink(old(diff), i, EndOff(old(diff)[i], old(diff)[i + 1]))
    {
      ghost var d := diff;
      var m := diff[i].len;
      var next := diff[i + 1];
      var endOff := if next.kind == In1 then diff[i].off + next.len else diff[i].off;
      if i + 2 < |diff| {
        diff := diff[i + 2 := diff[i + 2].(off := diff[i + 2].off - m, len := diff[i + 2].len + m)];
      } else {
        diff := diff + [DiffInfo(Match, endOff, m)];
      }
      diff := diff[i + 1 := next.(off := next.off - m)];
      diff := diff[..i] + diff[i + 1..];
      assert diff == Moved(d, i, EndOff(d[i], d[i + 1]));
      j := SettleAt(i);
    }

    /** Joins the block at i to the block of its kind before it, or puts a deletion before the insertion before it. */
    method SettleAt(i: int) returns (j: int)
      requires 1 <= i < |diff|
      modifies this`diff
      ensures (diff, j) == Settle(old(diff), i)
    {
      var nx := diff[i];
      var k := i - 1;
      if nx.kind != diff[k].kind && k > 0 && diff[k - 1].kind == nx.kind {
        k := k - 1;
      }
      j := i;
      if nx.kind == diff[k].kind {
        diff := diff[k := diff[k].(len := diff[k].len + nx.len)];
        diff := diff[..i] + diff[i + 1..];
        j := j - 1;
      } else if nx.kind == In1 {
        var pk := diff[k];
        diff := diff[k := nx][i := pk];
      }
      if k > 1 {
        j := k - 2;
      }
      j := j + 1;
    }

    /**
     * The boundary-shifting pass: each difference block between two matches (or first, before
     * a match) whose first elements repeat at the start of the match after it moves down past
     * them.
     */
    method ShiftBoundaries()
      requires Coalesced(diff) && Fits(diff, a, b, 0, 0)
      modifies this`diff
      ensures diff == Shifted(old(diff), a, b)
    {
      ghost var d0 := diff;
      var i := 0;
      while i < |diff|
        invariant 0 <= i && Coalesced(diff) && Fits(diff, a, b, 0, 0)
        invariant ShiftFrom(diff, i, a, b, false) == Shifted(d0, a, b)
        decreases |diff| - i
      {
        ShiftStepKeeps(diff, i, a, b);
        i := ShiftTurn(i);
      }
    }

    /** One turn of the boundary-shifting loop at block i; returns the block to look at next. */
    method ShiftTurn(i: int) returns (j: int)
      requires 0 <= i < |diff|
      modifies this`diff
      ensures (diff, j) == ShiftStep(old(diff), i, a, b, false)
    {
      j := i + 1;
      if diff[i].kind == Match {
        return;
      }
      var el := b;
      if diff[i].kind == In1 {
        if i + 1 < |diff| && diff[i + 1].kind == In2 {
          j := i + 2;
          return;
        }
        el := a;
      }
      if i + 1 < |diff| && (i == 0 || diff[i - 1].kind == Match) && diff[i + 1].kind == Match {
        j := ShiftBlock(i, el);
      }
    }

    /** Shifts the block at i, which lies between two matches, by as far as it repeats into the match after it. */
    method ShiftBlock(i: int, el: seq<T>) returns (j: int)
      requires 0 <= i && i + 1 < |diff| && diff[i].kind != Match && (i == 0 || diff[i - 1].kind == Match) && diff[i + 1].kind == Match
      requires el == Side(diff[i], a, b)
      modifies this`diff
      ensures (diff, j) == ShiftStep(old(diff), i, a, b, false)
    {
      ghost var d := diff;
      var blk, next := diff[i], diff[i + 1];
      var maxLen := if blk.len > next.len then next.len else blk.len;
      var shift := ShiftLength(el, blk.off, blk.off + blk.len, maxLen);
      assert maxLen == MaxShift(diff, i);
      ShiftStepMoves(d, i, a, b, shift);
      j := i + 1;
      if shift > 0 {
        j := ShiftAt(i, shift);
      }
    }

    /** How far a block at p can move down when its copy of the elements after it starts at q: the loop of the pass. */
    method ShiftLength(el: seq<T>, p: int, q: int, maxLen: int) returns (shift: int)
      ensures shift == ShiftLen(el, p, q, maxLen)
    {
      var off, check := p, q;
      shift := 0;
      while shift < maxLen && 0 <= off < |el| && 0 <= check < |el| && el[off] == el[check]
        invariant 0 <= shift && off == p + shift && check == q + shift
        invariant ShiftLen(el, p, q, maxLen) == shift + ShiftLen(el, off, check, maxLen - shift)
        decreases maxLen - shift
      {
        off, check, shift := off + 1, check + 1, shift + 1;
      }
    }

    /**
     * Shifts the block at i down by s: the match before it grows (or a match is put first),
     * the match after it shrinks and is erased when empty, and the block then joins the block
     * after it when they are of one kind. Returns the block to look at next.
     */
    method ShiftAt(i: int, s: int) returns (j: int)
      requires 0 <= i && i + 1 < |diff|
      modifies this`diff
      ensures (diff, j) == (ShiftOnce(old(diff), i, s).0, ShiftOnce(old(diff), i, s).1 + 1)
    {
      var k := i;
      diff := diff[k := diff[k].(off := diff[k].off + s)];
      if k > 0 {
        diff := diff[k - 1 := diff[k - 1].(len := diff[k - 1].len + s)];
      } else {
        diff := [DiffInfo(Match, 0, s)] + diff;
        k := k + 1;
      }
      diff := diff[k + 1 := diff[k + 1].(off := diff[k + 1].off + s, len := diff[k + 1].len - s)];
      j := k;
      if diff[k + 1].len == 0 {
        var n := k + 1;
        diff := diff[..n] + diff[n + 1..];
        if n < |diff| && diff[k].kind == diff[n].kind {
          diff := diff[k := diff[k].(len := diff[k].len + diff[n].len)];
          diff := diff[..n] + diff[n + 1..];
          j := k - 1;
        }
      }
      j := j + 1;
    }

    /**
     * The whole comparison: Compare, then, unless Compare stopped early (equal sequences or
     * the edit limit reached), the combining pass when doCombine and the boundary-shifting
     * pass when doShift. Returns the list and whether the sequences were exchanged.
     */
    method Run(doCombine: bool, doShift: bool)
      returns (res: seq<DiffInfo>, swapped: bool, ghost passes: bool, ghost first: seq<DiffInfo>, ghost second: seq<DiffInfo>)
      requires diff == []
      modifies this`a, this`b, this`diff, this`buf
      ensures a == (if swapped then old(b) else old(a)) && b == (if swapped then old(a) else old(b))
      ensures res == diff && Fits(res, a, b, 0, 0) && Coalesced(res)
      ensures |old(a)| != |old(b)| ==> swapped == (|old(a)| > |old(b)|)
      ensures old(a) == old(b) ==> !swapped && res == Edited([], Match, 0, |old(a)|)
      ensures dmax == -1 && Diverge(old(a), old(b)) ==> res == []
      ensures !AtLeast(old(a), old(b), dmax) ==> Covers(res, a, b) && 0 <= Edits(res) && IsDist(a, b, Edits(res))
      ensures !doShift ==> NoIn2In1(res)
      ensures !doCombine && !doShift && !AtLeast(old(a), old(b), dmax) ==> Shortest(res, a, b)
      ensures !passes ==> old(a) == old(b) || res == []
      ensures passes ==>
                var picked := if swapped && |old(a)| == |old(b)| then second else first;
                Fits(picked, a, b, 0, 0) && Coalesced(picked) && NoIn2In1(picked) &&
                (!AtLeast(old(a), old(b), dmax) ==> Shortest(picked, a, b)) &&
                res == Passes(picked, a, b, doCombine, doShift)
      ensures passes && |old(a)| == |old(b)| ==> Selection(first, second, old(a), old(b), dmax, swapped)
    {
      var completed;
      ghost var prefix;
      swapped, completed, prefix, first, second := Compare();
      passes := completed;
      if completed && doCombine {
        ghost var d := diff;
        CombinedDescribes(d, a, b, SumA(d), SumB(d));
        CombineDiffs();
        if d == [] {
          assert diff == [];
        }
      }
      if completed && doShift {
        ghost var d := diff;
        ShiftedDescribes(d, a, b);
        ShiftBoundaries();
        if d == [] {
          assert diff == [];
        }
      }
      res := diff;
    }

    /**
     * The four base cases of Ses, for distance 1: one sequence is the other with one more
     * element, at its end when the snake from x is empty and at its start otherwise.
     */
    method SolveBase(aoff: int, aend: int, boff: int, bend: int, ms: MiddleSnake, ghost A: seq<T>, ghost B: seq<T>)
      requires 0 <= aoff && 0 < aend && aoff + aend <= |a| && 0 <= boff && 0 < bend && boff + bend <= |b|
      requires A == a[aoff..aoff + aend] && B == b[boff..boff + bend]
      requires IsDist(A, B, 1) && EditAtAnEnd(A, B) && IsMiddleSnake(A, B, 1, ms)
      requires Described(diff, a, b, aoff, boff)
      requires diff != [] && Last(diff).kind == In2 ==> NoDeleteFirst(A, B)
      modifies this`diff
      ensures Solved(old(diff), diff, a, b, A, B, aoff + aend, boff + bend, 1)
    {
      var x := ms.x;
      var u := ms.u;
      DistanceOne(A, B, ms.x, ms.y, ms.u, ms.v);
      ghost var d0 := diff;
      ghost var d1;
      if bend > aend {
        if x == u {
          Edit(Match, aoff, aend);
          d1 := diff;
          Edit(In2, boff + (bend - 1), 1);
          BaseInsertLast(d0, d1, diff, a, b, A, B, aoff, aend, boff, bend);
        } else {
          Edit(In2, boff, 1);
          d1 := diff;
          Edit(Match, aoff, aend);
          BaseInsertFirst(d0, d1, diff, a, b, A, B, aoff, aend, boff, bend);
        }
      } else {
        if x == u {
          Edit(Match, aoff, bend);
          d1 := diff;
          Edit(In1, aoff + (aend - 1), 1);
          BaseDeleteLast(d0, d1, diff, a, b, A, B, aoff, aend, boff, bend);
        } else {
          Edit(In1, aoff, 1);
          d1 := diff;
          Edit(Match, aoff + 1, bend);
          BaseDeleteFirst(d0, d1, diff, a, b, A, B, aoff, aend, boff, bend);
        }
      }
    }
  }
}

=== FILE: edit_graph.dfy ===
/**
 * The edit graph of two sequences A and B, the structure Myers' O(ND) difference algorithm
 * searches: from point (x, y) a horizontal step deletes A[x], a vertical step inserts B[y],
 * and a diagonal step into (x, y) is free when A[x-1] == B[y-1]. The number of edits an edit
 * script needs is the number of horizontal and vertical steps of its path.
 */
module EditGraph {

  /** A diagonal step into (x, y) exists: it stays in the grid and pairs equal elements. */
  predicate DiagInto<T(==)>(A: seq<T>, B: seq<T>, x: int, y: int)
  {
    0 < x <= |A| && 0 < y <= |B| && A[x - 1] == B[y - 1]
  }

  /**
   * There is a path from (x0, y0) to (x, y) with at most e horizontal and vertical steps.
   * Horizontal and vertical steps may leave the grid (the search of the algorithm follows
   * such points); diagonal steps stay inside it.
   */
  ghost predicate Path<T>(A: seq<T>, B: seq<T>, e: nat, x0: int, y0: int, x: int, y: int)
    decreases (x - x0) + (y - y0)
  {
    x0 <= x && y0 <= y &&
    ((x == x0 && y == y0) ||
     (x0 < x && y0 < y && DiagInto(A, B, x, y) && Path(A, B, e, x0, y0, x - 1, y - 1)) ||
     (0 < e && x0 < x && Path(A, B, e - 1, x0, y0, x - 1, y)) ||
     (0 < e && y0 < y && Path(A, B, e - 1, x0, y0, x, y - 1)))
  }

  /** e is the edit distance of A and B: the fewest edits of any script turning A into B. */
  ghost predicate IsDist<T>(A: seq<T>, B: seq<T>, e: nat)
  {
    Path(A, B, e, 0, 0, |A|, |B|) && (e == 0 || !Path(A, B, e - 1, 0, 0, |A|, |B|))
  }

  /** Every script turning A into B needs at least m edits. */
  ghost predicate AtLeast<T>(A: seq<T>, B: seq<T>, m: int)
  {
    forall e: nat :: e < m ==> !Path(A, B, e, 0, 0, |A|, |B|)
  }

  /** Some script with the fewest edits starts by deleting A[0] or by inserting B[0]. */
  ghost predicate StartsWithEdit<T>(A: seq<T>, B: seq<T>, e: nat)
  {
    0 < e && (Path(A, B, e - 1, 1, 0, |A|, |B|) || Path(A, B, e - 1, 0, 1, |A|, |B|))
  }

  /** Some script with the fewest edits ends by deleting the last of A or inserting the last of B. */
  ghost predicate EndsWithEdit<T>(A: seq<T>, B: seq<T>, e: nat)
  {
    0 < e && (Path(A, B, e - 1, 0, 0, |A| - 1, |B|) || Path(A, B, e - 1, 0, 0, |A|, |B| - 1))
  }

  /**
   * The shape of every problem the recursive search is given: a side is empty, or the
   * sequences differ and an optimal script may begin or end with an edit.
   */
  ghost predicate EditAtAnEnd<T>(A: seq<T>, B: seq<T>)
  {
    |A| == 0 || |B| == 0 ||
    forall e: nat :: IsDist(A, B, e) ==> StartsWithEdit(A, B, e) || EndsWithEdit(A, B, e)
  }

  /** A in reverse order. */
  function Rev<T>(A: seq<T>): (r: seq<T>)
    ensures |r| == |A| && forall i :: 0 <= i < |A| ==> r[i] == A[|A| - 1 - i]
  {
    seq(|A|, i requires 0 <= i < |A| => A[|A| - 1 - i])
  }

  lemma {:induction false} RevRev<T>(A: seq<T>)
    ensures Rev(Rev(A)) == A
  {
  }

  // ---------------------------------------------------------------------------------
  // Basic facts about paths
  // ---------------------------------------------------------------------------------

  lemma {:induction false} PathMono<T>(A: seq<T>, B: seq<T>, e: nat, e2: nat, x0: int, y0: int, x: int, y: int)
    requires e <= e2 && Path(A, B, e, x0, y0, x, y)
    ensures Path(A, B, e2, x0, y0, x, y)
    decreases (x - x0) + (y - y0)
  {
    if x == x0 && y == y0 {
    } else if x0 < x && y0 < y && DiagInto(A, B, x, y) && Path(A, B, e, x0, y0, x - 1, y - 1) {
      PathMono(A, B, e, e2, x0, y0, x - 1, y - 1);
    } else if 0 < e && x0 < x && Path(A, B, e - 1, x0, y0, x - 1, y) {
      PathMono(A, B, e - 1, e2 - 1, x0, y0, x - 1, y);
    } else {
      PathMono(A, B, e - 1, e2 - 1, x0, y0, x, y - 1);
    }
  }

  /** A horizontal step costs one more edit. */
  lemma {:induction false} PathRight<T>(A: seq<T>, B: seq<T>, e: nat, x0: int, y0: int, x: int, y: int)
    requires Path(A, B, e, x0, y0, x, y)
    ensures Path(A, B, e + 1, x0, y0, x + 1, y)
  {
  }

  /** A vertical step costs one more edit. */
  lemma {:induction false} PathDown<T>(A: seq<T>, B: seq<T>, e: nat, x0: int, y0: int, x: int, y: int)
    requires Path(A, B, e, x0, y0, x, y)
    ensures Path(A, B, e + 1, x0, y0, x, y + 1)
  {
  }

  /** Horizontal and vertical steps alone reach any point up and to the right. */
  lemma {:induction false} PathStraight<T>(A: seq<T>, B: seq<T>, x0: int, y0: int, x: int, y: int)
    requires x0 <= x && y0 <= y
    ensures Path(A, B, (x - x0) + (y - y0), x0, y0, x, y)
    decreases (x - x0) + (y - y0)
  {
    if y0 < y {
      PathStraight(A, B, x0, y0, x, y - 1);
    } else if x0 < x {
      PathStraight(A, B, x0, y0, x - 1, y);
    }
  }

  /** Paths compose, and their edits add up. */
  lemma {:induction false} PathConcat<T>(A: seq<T>, B: seq<T>, e1: nat, e2: nat,
                                        x0: int, y0: int, x1: int, y1: int, x: int, y: int)
    requires Path(A, B, e1, x0, y0, x1, y1) && Path(A, B, e2, x1, y1, x, y)
    ensures Path(A, B, e1 + e2, x0, y0, x, y)
    decreases (x - x1) + (y - y1)
  {
    if x == x1 && y == y1 {
      PathMono(A, B, e1, e1 + e2, x0, y0, x, y);
    } else if x1 < x && y1 < y && DiagInto(A, B, x, y) && Path(A, B, e2, x1, y1, x - 1, y - 1) {
      PathConcat(A, B, e1, e2, x0, y0, x1, y1, x - 1, y - 1);
    } else if 0 < e2 && x1 < x && Path(A, B, e2 - 1, x1, y1, x - 1, y) {
      PathConcat(A, B, e1, e2 - 1, x0, y0, x1, y1, x - 1, y);
    } else {
      PathConcat(A, B, e1, e2 - 1, x0, y0, x1, y1, x, y - 1);
    }
  }

  /** A path leaves its start by a diagonal, a horizontal or a vertical step. */
  lemma {:induction false} PathFirst<T>(A: seq<T>, B: seq<T>, e: nat, x0: int, y0: int, x: int, y: int)
    requires Path(A, B, e, x0, y0, x, y) && (x0 != x || y0 != y)
    ensures (DiagInto(A, B, x0 + 1, y0 + 1) && Path(A, B, e, x0 + 1, y0 + 1, x, y)) ||
            (0 < e && Path(A, B, e - 1, x0 + 1, y0, x, y)) ||
            (0 < e && Path(A, B, e - 1, x0, y0 + 1, x, y))
    decreases (x - x0) + (y - y0)
  {
    if x0 < x && y0 < y && DiagInto(A, B, x, y) && Path(A, B, e, x0, y0, x - 1, y - 1) {
      if x - 1 != x0 || y - 1 != y0 {
        PathFirst(A, B, e, x0, y0, x - 1, y - 1);
      }
    } else if 0 < e && x0 < x && Path(A, B, e - 1, x0, y0, x - 1, y) {
      if x - 1 != x0 || y != y0 {
        PathFirst(A, B, e - 1, x0, y0, x - 1, y);
        if DiagInto(A, B, x0 + 1, y0 + 1) && Path(A, B, e - 1, x0 + 1, y0 + 1, x - 1, y) {
          PathMono(A, B, e - 1, e, x0 + 1, y0 + 1, x - 1, y);
        }
      }
    } else {
      if x != x0 || y - 1 != y0 {
        PathFirst(A, B, e - 1, x0, y0, x, y - 1);
        if DiagInto(A, B, x0 + 1, y0 + 1) && Path(A, B, e - 1, x0 + 1, y0 + 1, x, y - 1) {
          PathMono(A, B, e - 1, e, x0 + 1, y0 + 1, x, y - 1);
        }
      }
    }
  }

  /** A path with e edits ends at most e diagonals away from where it starts. */
  lemma {:induction false} PathDiagBound<T>(A: seq<T>, B: seq<T>, e: nat, x0: int, y0: int, x: int, y: int)
    requires Path(A, B, e, x0, y0, x, y)
    ensures -(e as int) <= (x - x0) - (y - y0) <= e
    decreases (x - x0) + (y - y0)
  {
    if x == x0 && y == y0 {
    } else if x0 < x && y0 < y && DiagInto(A, B, x, y) && Path(A, B, e, x0, y0, x - 1, y - 1) {
      PathDiagBound(A, B, e, x0, y0, x - 1, y - 1);
    } else if 0 < e && x0 < x && Path(A, B, e - 1, x0, y0, x - 1, y) {
      PathDiagBound(A, B, e - 1, x0, y0, x - 1, y);
    } else {
      PathDiagBound(A, B, e - 1, x0, y0, x, y - 1);
    }
  }

  /** The edits of a path have the parity of the distance it covers, so a budget of the other parity has one to spare. */
  lemma {:induction false} PathParity<T>(A: seq<T>, B: seq<T>, e: nat, x0: int, y0: int, x: int, y: int)
    requires Path(A, B, e, x0, y0, x, y) && (e + (x - x0) + (y - y0)) % 2 == 1
    ensures 0 < e && Path(A, B, e - 1, x0, y0, x, y)
    decreases (x - x0) + (y - y0)
  {
    if x == x0 && y == y0 {
    } else if x0 < x && y0 < y && DiagInto(A, B, x, y) && Path(A, B, e, x0, y0, x - 1, y - 1) {
      PathParity(A, B, e, x0, y0, x - 1, y - 1);
    } else if 0 < e && x0 < x && Path(A, B, e - 1, x0, y0, x - 1, y) {
      PathParity(A, B, e - 1, x0, y0, x - 1, y);
    } else {
      PathParity(A, B, e - 1, x0, y0, x, y - 1);
    }
  }

  /** Beyond the last column only edits are possible: the part of a path there costs a horizontal step per column. */
  lemma {:induction false} PathClampX<T>(A: seq<T>, B: seq<T>, e: nat, x0: int, y0: int, x: int, y: int)
    requires Path(A, B, e, x0, y0, x, y) && x0 <= |A| < x
    ensures x - |A| <= e && Path(A, B, e - (x - |A|), x0, y0, |A|, y)
    decreases (x - x0) + (y - y0)
  {
    if 0 < e && x0 < x && Path(A, B, e - 1, x0, y0, x - 1, y) {
      if x - 1 > |A| {
        PathClampX(A, B, e - 1, x0, y0, x - 1, y);
      }
    } else {
      PathClampX(A, B, e - 1, x0, y0, x, y - 1);
    }
  }

  /** Beyond the last row only edits are possible: the part of a path there costs a vertical step per row. */
  lemma {:induction false} PathClampY<T>(A: seq<T>, B: seq<T>, e: nat, x0: int, y0: int, x: int, y: int)
    requires Path(A, B, e, x0, y0, x, y) && y0 <= |B| < y
    ensures y - |B| <= e && Path(A, B, e - (y - |B|), x0, y0, x, |B|)
    decreases (x - x0) + (y - y0)
  {
    if 0 < e && y0 < y && Path(A, B, e - 1, x0, y0, x, y - 1) {
      if y - 1 > |B| {
        PathClampY(A, B, e - 1, x0, y0, x, y - 1);
      }
    } else {
      PathClampY(A, B, e - 1, x0, y0, x - 1, y);
    }
  }

  /** What a path reaches with e edits, it reaches one step back along the same diagonal too. */
  lemma {:induction false} PathDiagDown<T>(A: seq<T>, B: seq<T>, e: nat, x0: int, y0: int, x: int, y: int)
    requires Path(A, B, e, x0, y0, x, y) && x0 < x && y0 < y
    ensures Path(A, B, e, x0, y0, x - 1, y - 1)
    decreases (x - x0) + (y - y0)
  {
    if DiagInto(A, B, x, y) && Path(A, B, e, x0, y0, x - 1, y - 1) {
    } else if 0 < e && x0 < x - 1 && Path(A, B, e - 1, x0, y0, x - 1, y) {
      PathDiagDown(A, B, e - 1, x0, y0, x - 1, y);
    } else if 0 < e && y0 < y - 1 && Path(A, B, e - 1, x0, y0, x, y - 1) {
      PathDiagDown(A, B, e - 1, x0, y0, x, y - 1);
    } else {
      // the path runs along the first column or the first row of the box
      if 0 < e && Path(A, B, e - 1, x0, y0, x - 1, y) {
        PathDiagBound(A, B, e - 1, x0, y0, x - 1, y);
      }
      if 0 < e && Path(A, B, e - 1, x0, y0, x, y - 1) {
        PathDiagBound(A, B, e - 1, x0, y0, x, y - 1);
      }
      PathStraight(A, B, x0, y0, x - 1, y - 1);
      PathMono(A, B, (x - 1 - x0) + (y - 1 - y0), e, x0, y0, x - 1, y - 1);
    }
  }

  /** A path with e1 + e2 edits passes through a point it reaches with e1 edits and leaves with e2. */
  lemma {:induction false} PathSplit<T>(A: seq<T>, B: seq<T>, e1: nat, e2: nat, x0: int, y0: int, x: int, y: int)
    returns (zx: int, zy: int)
    requires Path(A, B, e1 + e2, x0, y0, x, y)
    ensures Path(A, B, e1, x0, y0, zx, zy) && Path(A, B, e2, zx, zy, x, y)
    decreases (x - x0) + (y - y0)
  {
    if x == x0 && y == y0 {
      zx, zy := x, y;
    } else if x0 < x && y0 < y && DiagInto(A, B, x, y) && Path(A, B, e1 + e2, x0, y0, x - 1, y - 1) {
      zx, zy := PathSplit(A, B, e1, e2, x0, y0, x - 1, y - 1);
    } else if 0 < e1 + e2 && x0 < x && Path(A, B, e1 + e2 - 1, x0, y0, x - 1, y) {
      if e2 > 0 {
        zx, zy := PathSplit(A, B, e1, e2 - 1, x0, y0, x - 1, y);
      } else {
        zx, zy := x, y;
      }
    } else {
      if e2 > 0 {
        zx, zy := PathSplit(A, B, e1, e2 - 1, x0, y0, x, y - 1);
      } else {
        zx, zy := x, y;
      }
    }
  }

  /** Reversing both sequences turns every path around. */
  lemma {:induction false} PathRev<T>(A: seq<T>, B: seq<T>, e: nat, x0: int, y0: int, x: int, y: int)
    requires Path(A, B, e, x0, y0, x, y)
    ensures Path(Rev(A), Rev(B), e, |A| - x, |B| - y, |A| - x0, |B| - y0)
    decreases (x - x0) + (y - y0)
  {
    var N, M := |A|, |B|;
    var RA, RB := Rev(A), Rev(B);
    if x == x0 && y == y0 {
    } else if x0 < x && y0 < y && DiagInto(A, B, x, y) && Path(A, B, e, x0, y0, x - 1, y - 1) {
      PathRev(A, B, e, x0, y0, x - 1, y - 1);
      assert RA[N - x] == A[x - 1] && RB[M - y] == B[y - 1];
      assert Path(RA, RB, 0, N - x, M - y, N - x + 1, M - y + 1);
      PathConcat(RA, RB, 0, e, N - x, M - y, N - x + 1, M - y + 1, N - x0, M - y0);
    } else if 0 < e && x0 < x && Path(A, B, e - 1, x0, y0, x - 1, y) {
      PathRev(A, B, e - 1, x0, y0, x - 1, y);
      assert Path(RA, RB, 1, N - x, M - y, N - x + 1, M - y);
      PathConcat(RA, RB, 1, e - 1, N - x, M - y, N - x + 1, M - y, N - x0, M - y0);
    } else {
      PathRev(A, B, e - 1, x0, y0, x, y - 1);
      assert Path(RA, RB, 1, N - x, M - y, N - x, M - y + 1);
      PathConcat(RA, RB, 1, e - 1, N - x, M - y, N - x, M - y + 1, N - x0, M - y0);
    }
  }

  /** Paths of the reversed sequences are the reversed paths. */
  lemma {:induction false} PathRevIff<T>(A: seq<T>, B: seq<T>, e: nat, x0: int, y0: int, x: int, y: int)
    ensures Path(A, B, e, x0, y0, x, y) <==>
            Path(Rev(A), Rev(B), e, |A| - x, |B| - y, |A| - x0, |B| - y0)
  {
    var N, M := |A|, |B|;
    var RA, RB := Rev(A), Rev(B);
    if Path(RA, RB, e, N - x, M - y, N - x0, M - y0) {
      PathRev(RA, RB, e, N - x, M - y, N - x0, M - y0);
      assert |RA| - (N - x0) == x0 && |RB| - (M - y0) == y0 && |RA| - (N - x) == x && |RB| - (M - y) == y;
      assert Path(Rev(RA), Rev(RB), e, x0, y0, x, y);
      RevRev(A);
      RevRev(B);
    }
    if Path(A, B, e, x0, y0, x, y) {
      PathRev(A, B, e, x0, y0, x, y);
    }
  }

  /** What a path reaches the end from with e edits, one step further along the diagonal reaches it too. */
  lemma {:induction false} PathDiagUp<T>(A: seq<T>, B: seq<T>, e: nat, x: int, y: int, x1: int, y1: int)
    requires Path(A, B, e, x, y, x1, y1) && x < x1 && y < y1
    ensures Path(A, B, e, x + 1, y + 1, x1, y1)
  {
    var N, M := |A|, |B|;
    PathRevIff(A, B, e, x, y, x1, y1);
    PathDiagDown(Rev(A), Rev(B), e, N - x1, M - y1, N - x, M - y);
    PathRevIff(A, B, e, x + 1, y + 1, x1, y1);
  }

  /**
   * A path between two points of a box only sees the elements of the box: it is a path of
   * the sub-sequences the box spans.
   */
  lemma {:induction false} PathWindow<T>(A: seq<T>, B: seq<T>, e: nat, x0: int, y0: int, x1: int, y1: int,
                                         p: int, q: int, x: int, y: int)
    requires 0 <= x0 <= p <= x <= x1 <= |A| && 0 <= y0 <= q <= y <= y1 <= |B|
    ensures Path(A, B, e, p, q, x, y) <==> Path(A[x0..x1], B[y0..y1], e, p - x0, q - y0, x - x0, y - y0)
    decreases (x - p) + (y - q)
  {
    var A', B' := A[x0..x1], B[y0..y1];
    if p < x && q < y {
      assert DiagInto(A, B, x, y) <==> DiagInto(A', B', x - x0, y - y0) by {
        assert A'[x - x0 - 1] == A[x - 1] && B'[y - y0 - 1] == B[y - 1];
      }
      PathWindow(A, B, e, x0, y0, x1, y1, p, q, x - 1, y - 1);
    }
    if 0 < e && p < x {
      PathWindow(A, B, e - 1, x0, y0, x1, y1, p, q, x - 1, y);
    }
    if 0 < e && q < y {
      PathWindow(A, B, e - 1, x0, y0, x1, y1, p, q, x, y - 1);
    }
  }

  // ---------------------------------------------------------------------------------
  // Edit distance
  // ---------------------------------------------------------------------------------

  /** The edit distance is unique. */
  lemma {:induction false} DistUnique<T>(A: seq<T>, B: seq<T>, e1: nat, e2: nat)
    requires IsDist(A, B, e1) && IsDist(A, B, e2)
    ensures e1 == e2
  {
    if e1 < e2 {
      PathMono(A, B, e1, e2 - 1, 0, 0, |A|, |B|);
    } else if e2 < e1 {
      PathMono(A, B, e2, e1 - 1, 0, 0, |A|, |B|);
    }
  }

  /** A script with e edits means the distance is at most e. */
  lemma {:induction false} DistBelow<T>(A: seq<T>, B: seq<T>, e: nat) returns (d: nat)
    requires Path(A, B, e, 0, 0, |A|, |B|)
    ensures d <= e && IsDist(A, B, d)
  {
    if e == 0 || !Path(A, B, e - 1, 0, 0, |A|, |B|) {
      d := e;
    } else {
      d := DistBelow(A, B, e - 1);
    }
  }

  /** Every pair of sequences has an edit distance, at most the sum of their lengths. */
  lemma {:induction false} DistExists<T>(A: seq<T>, B: seq<T>) returns (d: nat)
    ensures d <= |A| + |B| && IsDist(A, B, d)
  {
    PathStraight(A, B, 0, 0, |A|, |B|);
    d := DistBelow(A, B, |A| + |B|);
  }

  /** Turning the empty sequence into B takes |B| insertions, and B into the empty sequence |B| deletions. */
  lemma {:induction false} DistEmpty<T>(A: seq<T>, B: seq<T>)
    requires |A| == 0 || |B| == 0
    ensures IsDist(A, B, |A| + |B|)
  {
    PathStraight(A, B, 0, 0, |A|, |B|);
    if |A| + |B| > 0 && Path(A, B, |A| + |B| - 1, 0, 0, |A|, |B|) {
      PathDiagBound(A, B, |A| + |B| - 1, 0, 0, |A|, |B|);
    }
  }

  // ---------------------------------------------------------------------------------
  // Exchanging the sequences
  // ---------------------------------------------------------------------------------

  /** Mirroring a path in the diagonal gives a path of the exchanged sequences: deletions become insertions. */
  lemma {:induction false} PathSwap<T>(A: seq<T>, B: seq<T>, e: nat, x0: int, y0: int, x: int, y: int)
    requires Path(A, B, e, x0, y0, x, y)
    ensures Path(B, A, e, y0, x0, y, x)
    decreases (x - x0) + (y - y0)
  {
    if x == x0 && y == y0 {
    } else if x0 < x && y0 < y && DiagInto(A, B, x, y) && Path(A, B, e, x0, y0, x - 1, y - 1) {
      PathSwap(A, B, e, x0, y0, x - 1, y - 1);
    } else if 0 < e && x0 < x && Path(A, B, e - 1, x0, y0, x - 1, y) {
      PathSwap(A, B, e - 1, x0, y0, x - 1, y);
    } else {
      PathSwap(A, B, e - 1, x0, y0, x, y - 1);
    }
  }

  /** Turning B into A takes as many edits as turning A into B. */
  lemma {:induction false} DistSwap<T>(A: seq<T>, B: seq<T>, e: nat)
    ensures IsDist(A, B, e) <==> IsDist(B, A, e)
  {
    if Path(A, B, e, 0, 0, |A|, |B|) {
      PathSwap(A, B, e, 0, 0, |A|, |B|);
    }
    if Path(B, A, e, 0, 0, |B|, |A|) {
      PathSwap(B, A, e, 0, 0, |B|, |A|);
    }
    if 0 < e && Path(A, B, e - 1, 0, 0, |A|, |B|) {
      PathSwap(A, B, e - 1, 0, 0, |A|, |B|);
    }
    if 0 < e && Path(B, A, e - 1, 0, 0, |B|, |A|) {
      PathSwap(B, A, e - 1, 0, 0, |B|, |A|);
    }
  }

  /** A lower bound on the edits turning A into B bounds those turning B into A. */
  lemma {:induction false} AtLeastSwap<T>(A: seq<T>, B: seq<T>, m: int)
    ensures AtLeast(A, B, m) <==> AtLeast(B, A, m)
  {
    forall e: nat | Path(A, B, e, 0, 0, |A|, |B|)
      ensures Path(B, A, e, 0, 0, |B|, |A|)
    {
      PathSwap(A, B, e, 0, 0, |A|, |B|);
    }
    forall e: nat | Path(B, A, e, 0, 0, |B|, |A|)
      ensures Path(A, B, e, 0, 0, |A|, |B|)
    {
      PathSwap(B, A, e, 0, 0, |B|, |A|);
    }
  }
}

=== FILE: middle.dfy ===
/**
 * Why the middle-snake search of DiffCalc is right: an overlap it detects in round d lies on
 * a script with 2d - 1 (forward pass) or 2d (backward pass) edits, an optimal script always
 * produces such an overlap in round ceil(D / 2), and the snake where the first overlap is
 * found splits the problem into two smaller problems of the same shape.
 */
module MiddleSnakes {
  import opened EditGraph
  import opened Snakes

  // ---------------------------------------------------------------------------------
  // Walking along a diagonal
  // ---------------------------------------------------------------------------------

  /** What the start reaches with e edits on diagonal k, it reaches at every earlier point of that diagonal. */
  lemma {:induction false} FromStartDownTo<T>(A: seq<T>, B: seq<T>, e: nat, x: int, k: int, z: int)
    requires Path(A, B, e, 0, 0, x, x - k) && 0 <= z <= x && 0 <= z - k
    ensures Path(A, B, e, 0, 0, z, z - k)
    decreases x - z
  {
    if z < x {
      PathDiagDown(A, B, e, 0, 0, x, x - k);
      FromStartDownTo(A, B, e, x - 1, k, z);
    }
  }

  /** What reaches the end with e edits from diagonal k, every later point of that diagonal in the grid does too. */
  lemma {:induction false} ToEndUpTo<T>(A: seq<T>, B: seq<T>, e: nat, x: int, k: int, z: int)
    requires Path(A, B, e, x, x - k, |A|, |B|) && x <= z <= |A| && z - k <= |B|
    ensures Path(A, B, e, z, z - k, |A|, |B|)
    decreases z - x
  {
    if x < z {
      PathDiagUp(A, B, e, x, x - k, |A|, |B|);
      ToEndUpTo(A, B, e, x + 1, k, z);
    }
  }

  /**
   * A forward point and a backward point on one diagonal of the grid, the backward one not
   * after the forward one, join into a script through a point of the grid between them.
   */
  lemma {:induction false} Meet<T>(A: seq<T>, B: seq<T>, e1: nat, e2: nat, k: int, x: int, y: int)
    requires Path(A, B, e1, 0, 0, x, x - k) && Path(A, B, e2, y, y - k, |A|, |B|)
    requires y <= x && -|B| <= k <= |A|
    ensures Path(A, B, e1 + e2, 0, 0, |A|, |B|)
  {
    var lo := if k < 0 then 0 else k;
    var z := if y < lo then lo else y;
    FromStartDownTo(A, B, e1, x, k, z);
    ToEndUpTo(A, B, e2, y, k, z);
    PathConcat(A, B, e1, e2, 0, 0, z, z - k, |A|, |B|);
  }

  // ---------------------------------------------------------------------------------
  // Overlaps
  // ---------------------------------------------------------------------------------

  /** An overlap found by the forward pass of round d lies on a script with 2d - 1 edits. */
  lemma {:induction false} FwdHitPath<T>(A: seq<T>, B: seq<T>, d: int, k: int)
    requires FwdHit(A, B, d, k) && 2 * d <= |A| + |B| + 1
    ensures Path(A, B, 2 * d - 1, 0, 0, |A|, |B|)
  {
    var delta := |A| - |B|;
    FwdReach(A, B, d, k);
    BwdReach(A, B, d - 1, k - delta);
    Meet(A, B, d, d - 1, k, Fwd(A, B, d, k), Bwd(A, B, d - 1, k - delta));
  }

  /** An overlap found by the backward pass of round d lies on a script with 2d edits. */
  lemma {:induction false} BwdHitPath<T>(A: seq<T>, B: seq<T>, d: int, k: int)
    requires BwdHit(A, B, d, k) && 2 * d <= |A| + |B|
    ensures Path(A, B, 2 * d, 0, 0, |A|, |B|)
  {
    var kr := |A| - |B| + k;
    FwdReach(A, B, d, kr);
    BwdReach(A, B, d, k);
    Meet(A, B, d, d, kr, Fwd(A, B, d, kr), Bwd(A, B, d, k));
  }

  /** The edit distance has the parity of |A| + |B|. */
  lemma {:induction false} DistParity<T>(A: seq<T>, B: seq<T>, e: nat)
    requires IsDist(A, B, e)
    ensures (e + |A| + |B|) % 2 == 0
  {
    if (e + |A| + |B|) % 2 == 1 {
      PathParity(A, B, e, 0, 0, |A|, |B|);
    }
  }

  /** A distance of D means no script has fewer than m edits for any m <= D. */
  lemma {:induction false} DistAtLeast<T>(A: seq<T>, B: seq<T>, e: nat, m: int)
    requires IsDist(A, B, e) && m <= e
    ensures AtLeast(A, B, m)
  {
    forall e': nat | e' < m
      ensures !Path(A, B, e', 0, 0, |A|, |B|)
    {
      if Path(A, B, e', 0, 0, |A|, |B|) {
        PathMono(A, B, e', e - 1, 0, 0, |A|, |B|);
        assert false;
      }
    }
  }

  /**
   * A point reached from the start with d edits and reaching the end with d - 1 is seen
   * as an overlap by the forward pass of round d.
   */
  lemma {:induction false} PointFwdHit<T>(A: seq<T>, B: seq<T>, d: int, zx: int, zy: int)
    requires 1 <= d && (|A| - |B|) % 2 == 1 && (d - (zx - zy)) % 2 == 0
    requires Path(A, B, d, 0, 0, zx, zy) && Path(A, B, d - 1, zx, zy, |A|, |B|)
    ensures FwdHit(A, B, d, zx - zy)
  {
    var k, delta := zx - zy, |A| - |B|;
    PathDiagBound(A, B, d, 0, 0, zx, zy);
    PathDiagBound(A, B, d - 1, zx, zy, |A|, |B|);
    FwdMax(A, B, d, k, zx);
    BwdMin(A, B, d - 1, k - delta, zx);
  }

  /**
   * A point reached from the start with d edits and reaching the end with d is seen as an
   * overlap by the backward pass of round d.
   */
  lemma {:induction false} PointBwdHit<T>(A: seq<T>, B: seq<T>, d: int, zx: int, zy: int)
    requires 0 <= d && (|A| - |B|) % 2 == 0 && (d - (zx - zy)) % 2 == 0
    requires Path(A, B, d, 0, 0, zx, zy) && Path(A, B, d, zx, zy, |A|, |B|)
    ensures BwdHit(A, B, d, (zx - zy) - (|A| - |B|))
  {
    var kr := zx - zy;
    var k := kr - (|A| - |B|);
    PathDiagBound(A, B, d, 0, 0, zx, zy);
    PathDiagBound(A, B, d, zx, zy, |A|, |B|);
    FwdMax(A, B, d, kr, zx);
    BwdMin(A, B, d, k, zx);
  }

  /**
   * Completeness of the search: with edit distance D, round ceil(D / 2) detects an overlap,
   * in the forward pass when D is odd and in the backward pass when D is even.
   */
  lemma {:induction false} OptimalHit<T>(A: seq<T>, B: seq<T>, D: nat) returns (k: int)
    requires IsDist(A, B, D)
    ensures D % 2 == 1 ==> FwdHit(A, B, (D + 1) / 2, k)
    ensures D % 2 == 0 ==> BwdHit(A, B, D / 2, k)
  {
    DistParity(A, B, D);
    var r := (D + 1) / 2;
    var zx, zy := PathSplit(A, B, r, D - r, 0, 0, |A|, |B|);
    if (r + zx + zy) % 2 == 1 {
      PathParity(A, B, r, 0, 0, zx, zy);
      PathConcat(A, B, r - 1, D - r, 0, 0, zx, zy, |A|, |B|);
      assert false;
    }
    if D % 2 == 1 {
      PointFwdHit(A, B, r, zx, zy);
      k := zx - zy;
    } else {
      PointBwdHit(A, B, r, zx, zy);
      k := zx - zy - (|A| - |B|);
    }
  }

  // ---------------------------------------------------------------------------------
  // Overlap points lie in the grid
  // ---------------------------------------------------------------------------------

  /**
   * A point reached with e1 edits that lies within e2 diagonals of the end is inside the
   * grid when every script needs at least e1 + e2 edits.
   */
  lemma {:induction false} GridClamp<T>(A: seq<T>, B: seq<T>, e1: nat, e2: nat, x: int, k: int)
    requires Path(A, B, e1, 0, 0, x, x - k) && -(e2 as int) <= (|A| - |B|) - k <= e2
    requires AtLeast(A, B, e1 + e2)
    ensures x <= |A| && x - k <= |B|
  {
    var N, M := |A|, |B|;
    if x > N {
      PathClampX(A, B, e1, 0, 0, x, x - k);
      var e' := e1 - (x - N);
      if x - k > M {
        PathClampY(A, B, e', 0, 0, N, x - k);
        assert false;
      } else {
        PathStraight(A, B, N, x - k, N, M);
        PathConcat(A, B, e', M - (x - k), 0, 0, N, x - k, N, M);
        assert false;
      }
    } else if x - k > M {
      PathClampY(A, B, e1, 0, 0, x, x - k);
      var e' := e1 - (x - k - M);
      PathStraight(A, B, x, M, N, M);
      PathConcat(A, B, e', N - x, 0, 0, x, M, N, M);
      assert false;
    }
  }

  lemma {:induction false} AtLeastRev<T>(A: seq<T>, B: seq<T>, m: int)
    requires AtLeast(A, B, m)
    ensures AtLeast(Rev(A), Rev(B), m)
  {
    forall e: nat | e < m
      ensures !Path(Rev(A), Rev(B), e, 0, 0, |Rev(A)|, |Rev(B)|)
    {
      PathRevIff(A, B, e, 0, 0, |A|, |B|);
    }
  }

  /** The mirror image of GridClamp for a point that reaches the end with e1 edits. */
  lemma {:induction false} GridClampBack<T>(A: seq<T>, B: seq<T>, e1: nat, e2: nat, x: int, kr: int)
    requires Path(A, B, e1, x, x - kr, |A|, |B|) && -(e2 as int) <= kr <= e2
    requires AtLeast(A, B, e1 + e2)
    ensures 0 <= x && 0 <= x - kr
  {
    var N, M := |A|, |B|;
    RevPathToEnd(A, B, e1, x, x - kr, N - x, M - x + kr);
    AtLeastRev(A, B, e1 + e2);
    GridClamp(Rev(A), Rev(B), e1, e2, N - x, N - M - kr);
  }

  // ---------------------------------------------------------------------------------
  // Scripts without edits, and sub-problems
  // ---------------------------------------------------------------------------------

  /** A script without edits between two points of the grid is a run of equal elements. */
  lemma {:induction false} PathZero<T>(A: seq<T>, B: seq<T>, x0: int, y0: int, x: int, y: int)
    requires 0 <= x0 <= x && 0 <= y0 <= y && x0 <= |A| && y0 <= |B|
    ensures Path(A, B, 0, x0, y0, x, y) <==>
            x - x0 == y - y0 && x <= |A| && y <= |B| && A[x0..x] == B[y0..y]
    decreases x - x0
  {
    if x0 < x && y0 < y {
      PathZero(A, B, x0, y0, x - 1, y - 1);
      if x <= |A| && y <= |B| {
        assert A[x0..x] == A[x0..x - 1] + [A[x - 1]];
        assert B[y0..y] == B[y0..y - 1] + [B[y - 1]];
        if x - x0 == y - y0 && A[x0..x] == B[y0..y] {
          assert A[x - 1] == A[x0..x][x - 1 - x0] && B[y - 1] == B[y0..y][y - 1 - y0];
          assert DiagInto(A, B, x, y);
          assert A[x0..x - 1] == A[x0..x][..x - 1 - x0] && B[y0..y - 1] == B[y0..y][..y - 1 - y0];
        }
      }
    }
  }

  /** Paths inside the box from the start to (x1, y1) are the paths of the prefixes. */
  lemma {:induction false} Prefix<T>(A: seq<T>, B: seq<T>, e: nat, x1: int, y1: int, p: int, q: int, x: int, y: int)
    requires 0 <= p <= x <= x1 <= |A| && 0 <= q <= y <= y1 <= |B|
    ensures Path(A, B, e, p, q, x, y) <==> Path(A[..x1], B[..y1], e, p, q, x, y)
  {
    PathWindow(A, B, e, 0, 0, x1, y1, p, q, x, y);
    assert A[0..x1] == A[..x1] && B[0..y1] == B[..y1];
  }

  /** Paths inside the box from (x0, y0) to the end are the paths of the suffixes. */
  lemma {:induction false} Suffix<T>(A: seq<T>, B: seq<T>, e: nat, x0: int, y0: int, p: int, q: int)
    requires 0 <= x0 <= p <= |A| && 0 <= y0 <= q <= |B|
    ensures Path(A, B, e, p, q, |A|, |B|) <==>
            Path(A[x0..], B[y0..], e, p - x0, q - y0, |A[x0..]|, |B[y0..]|)
  {
    PathWindow(A, B, e, x0, y0, |A|, |B|, p, q, |A|, |B|);
    assert A[x0..|A|] == A[x0..] && B[y0..|B|] == B[y0..];
  }

  /**
   * What the recursion needs of a middle snake (x, y)-(u, v) of a problem with edit
   * distance r > 1: both sides are smaller, each is a problem of the same shape with
   * distance ceil(r / 2) before and floor(r / 2) after the snake, and the point one
   * deletion further than (x, y) does not split an optimal script in the same way.
   */
  ghost predicate Halves<T>(A: seq<T>, B: seq<T>, r: nat, x: int, y: int, u: int, v: int)
    requires 0 <= x <= u <= |A| && 0 <= y <= v <= |B|
  {
    0 < x + y && u + v < |A| + |B| &&
    IsDist(A[..x], B[..y], (r + 1) / 2) && EditAtAnEnd(A[..x], B[..y]) &&
    IsDist(A[u..], B[v..], r / 2) && EditAtAnEnd(A[u..], B[v..]) &&
    !(Path(A, B, (r + 1) / 2, 0, 0, x + 1, y - 1) && Path(A, B, r / 2, x + 1, y - 1, |A|, |B|))
  }

  /**
   * (x, y)-(u, v) is a middle snake of a problem with edit distance r: a run of equal
   * elements in the grid; for r == 1, x is the end of the common prefix, one further when
   * A is the longer, and u the end of the run of equal elements from x; for r > 1 it
   * splits the problem in halves.
   */
  ghost predicate MiddleSnakeOf<T>(A: seq<T>, B: seq<T>, r: nat, x: int, y: int, u: int, v: int)
  {
    0 <= x <= u <= |A| && 0 <= y <= v <= |B| && u - x == v - y && A[x..u] == B[y..v] &&
    (r == 1 ==> x == Slide(A, B, 0, 0) + (if |A| > |B| then 1 else 0) &&
                y == x - (|A| - |B|) && u == Slide(A, B, x, y)) &&
    (r > 1 ==> Halves(A, B, r, x, y, u, v))
  }

  /**
   * A point (x, y) on an optimal script, reached with e1 >= 1 edits the last of which is a
   * deletion or an insertion: the part before it is a problem of distance e1 that ends
   * with an edit.
   */
  lemma {:induction false} FirstHalf<T>(A: seq<T>, B: seq<T>, e1: nat, e2: nat, x: int, y: int)
    requires IsDist(A, B, e1 + e2) && 1 <= e1 && 0 <= x <= |A| && 0 <= y <= |B|
    requires Path(A, B, e1, 0, 0, x, y) && Path(A, B, e2, x, y, |A|, |B|)
    requires Path(A, B, e1 - 1, 0, 0, x - 1, y) || Path(A, B, e1 - 1, 0, 0, x, y - 1)
    ensures 0 < x + y && IsDist(A[..x], B[..y], e1) && EditAtAnEnd(A[..x], B[..y])
  {
    var A1, B1 := A[..x], B[..y];
    Prefix(A, B, e1, x, y, 0, 0, x, y);
    if Path(A1, B1, e1 - 1, 0, 0, x, y) {
      Prefix(A, B, e1 - 1, x, y, 0, 0, x, y);
      PathConcat(A, B, e1 - 1, e2, 0, 0, x, y, |A|, |B|);
      assert false;
    }
    if Path(A, B, e1 - 1, 0, 0, x - 1, y) {
      Prefix(A, B, e1 - 1, x, y, 0, 0, x - 1, y);
    } else {
      Prefix(A, B, e1 - 1, x, y, 0, 0, x, y - 1);
    }
    assert EndsWithEdit(A1, B1, e1);
    forall e: nat | IsDist(A1, B1, e)
      ensures StartsWithEdit(A1, B1, e) || EndsWithEdit(A1, B1, e)
    {
      DistUnique(A1, B1, e, e1);
    }
  }

  /**
   * A point (x, y) on an optimal script, left with e2 >= 1 edits the first of which is a
   * deletion or an insertion: the part after it is a problem of distance e2 that starts
   * with an edit.
   */
  lemma {:induction false} SecondHalf<T>(A: seq<T>, B: seq<T>, e1: nat, e2: nat, x: int, y: int)
    requires IsDist(A, B, e1 + e2) && 1 <= e2 && 0 <= x <= |A| && 0 <= y <= |B|
    requires Path(A, B, e1, 0, 0, x, y) && Path(A, B, e2, x, y, |A|, |B|)
    requires Path(A, B, e2 - 1, x + 1, y, |A|, |B|) || Path(A, B, e2 - 1, x, y + 1, |A|, |B|)
    ensures x + y < |A| + |B| && IsDist(A[x..], B[y..], e2) && EditAtAnEnd(A[x..], B[y..])
  {
    var A2, B2 := A[x..], B[y..];
    Suffix(A, B, e2, x, y, x, y);
    if Path(A2, B2, e2 - 1, 0, 0, |A2|, |B2|) {
      Suffix(A, B, e2 - 1, x, y, x, y);
      PathConcat(A, B, e1, e2 - 1, 0, 0, x, y, |A|, |B|);
      assert false;
    }
    if Path(A, B, e2 - 1, x + 1, y, |A|, |B|) {
      Suffix(A, B, e2 - 1, x, y, x + 1, y);
    } else {
      Suffix(A, B, e2 - 1, x, y, x, y + 1);
    }
    assert StartsWithEdit(A2, B2, e2);
    forall e: nat | IsDist(A2, B2, e)
      ensures StartsWithEdit(A2, B2, e) || EndsWithEdit(A2, B2, e)
    {
      DistUnique(A2, B2, e, e2);
    }
  }

  // ---------------------------------------------------------------------------------
  // The first overlap found is a middle snake
  // ---------------------------------------------------------------------------------

  /** A forward overlap of round d, when the distance is 2d - 1, lies inside the grid. */
  lemma {:induction false} OddGrid<T>(A: seq<T>, B: seq<T>, d: int, k: int)
    requires 1 <= d && IsDist(A, B, 2 * d - 1) && FwdHit(A, B, d, k)
    ensures var s, X := FwdStart(A, B, d, k), Fwd(A, B, d, k);
            0 <= s <= X <= |A| && 0 <= s - k <= X - k <= |B|
  {
    FwdBounds(A, B, d, k);
    FwdReach(A, B, d, k);
    DistAtLeast(A, B, 2 * d - 1, 2 * d - 1);
    GridClamp(A, B, d, d - 1, Fwd(A, B, d, k), k);
  }

  /** The snake followed from s: a run of equal elements, a path without edits, stopped by a mismatch. */
  lemma {:induction false} SnakeFacts<T>(A: seq<T>, B: seq<T>, s: int, X: int, k: int)
    requires 0 <= s <= |A| && 0 <= s - k <= |B| && X == Slide(A, B, s, s - k)
    ensures X <= |A| && X - k <= |B| && A[s..X] == B[s - k..X - k] && Path(A, B, 0, s, s - k, X, X - k) &&
            !(X < |A| && X - k < |B| && A[X] == B[X - k])
  {
    SlideMatch(A, B, s, s - k);
    SlideFacts(A, B, 0, s, s - k, s, s - k);
  }

  /** The end of the forward snake of an overlap reaches the end with d - 1 edits. */
  lemma {:induction false} OddBack<T>(A: seq<T>, B: seq<T>, d: int, k: int, X: int)
    requires 1 <= d && FwdHit(A, B, d, k) && X == Fwd(A, B, d, k) && X <= |A| && X - k <= |B|
    ensures Path(A, B, d - 1, X, X - k, |A|, |B|)
  {
    var delta := |A| - |B|;
    var Y := Bwd(A, B, d - 1, k - delta);
    BwdReach(A, B, d - 1, k - delta);
    ToEndUpTo(A, B, d - 1, Y, k, X);
  }

  /** The paths through a forward overlap of round d when the distance is 2d - 1. */
  lemma {:induction false} OddPaths<T>(A: seq<T>, B: seq<T>, d: int, k: int)
    requires 1 <= d && IsDist(A, B, 2 * d - 1) && FwdHit(A, B, d, k)
    ensures var s, X := FwdStart(A, B, d, k), Fwd(A, B, d, k);
            0 <= s <= X <= |A| && 0 <= s - k <= X - k <= |B| &&
            A[s..X] == B[s - k..X - k] &&
            Path(A, B, d, 0, 0, s, s - k) &&
            (Path(A, B, d - 1, 0, 0, s, s - k - 1) || Path(A, B, d - 1, 0, 0, s - 1, s - k)) &&
            Path(A, B, 0, s, s - k, X, X - k) &&
            !(X < |A| && X - k < |B| && A[X] == B[X - k]) &&
            Path(A, B, d - 1, X, X - k, |A|, |B|)
  {
    var s, X := FwdStart(A, B, d, k), Fwd(A, B, d, k);
    OddGrid(A, B, d, k);
    FwdStartReach(A, B, d, k);
    SnakeFacts(A, B, s, X, k);
    OddBack(A, B, d, k, X);
  }

  /** No diagonal of round d above lo has a forward overlap. */
  ghost predicate NoFwdHit<T>(A: seq<T>, B: seq<T>, d: int, lo: int)
  {
    forall k {:trigger FwdHit(A, B, d, k)} :: OnRound(d, k) && lo < k ==> !FwdHit(A, B, d, k)
  }

  /** No diagonal of round d above lo has a backward overlap. */
  ghost predicate NoBwdHit<T>(A: seq<T>, B: seq<T>, d: int, lo: int)
  {
    forall k {:trigger BwdHit(A, B, d, k)} :: OnRound(d, k) && lo < k ==> !BwdHit(A, B, d, k)
  }

  /** For d >= 2 the snake of the first forward overlap splits the problem in halves. */
  lemma {:induction false} OddHalves<T>(A: seq<T>, B: seq<T>, d: int, k: int)
    requires 2 <= d && IsDist(A, B, 2 * d - 1) && FwdHit(A, B, d, k)
    requires NoFwdHit(A, B, d, k)
    ensures var s, X := FwdStart(A, B, d, k), Fwd(A, B, d, k);
            0 <= s <= X <= |A| && 0 <= s - k <= X - k <= |B| &&
            Halves(A, B, 2 * d - 1, s, s - k, X, X - k)
  {
    var N, M := |A|, |B|;
    var s, X := FwdStart(A, B, d, k), Fwd(A, B, d, k);
    OddPaths(A, B, d, k);
    assert (2 * d - 1 + 1) / 2 == d && (2 * d - 1) / 2 == d - 1;
    OddSides(A, B, d, s, X, k);
    OddNeighbour(A, B, d, k, s);
  }

  /** The point one deletion past the start of the first forward overlap's snake is not an overlap. */
  lemma {:induction false} OddNeighbour<T>(A: seq<T>, B: seq<T>, d: int, k: int, s: int)
    requires 1 <= d && (|A| - |B|) % 2 == 1 && (d - k) % 2 == 0
    requires NoFwdHit(A, B, d, k)
    ensures !(Path(A, B, d, 0, 0, s + 1, s - k - 1) && Path(A, B, d - 1, s + 1, s - k - 1, |A|, |B|))
  {
    if Path(A, B, d, 0, 0, s + 1, s - k - 1) && Path(A, B, d - 1, s + 1, s - k - 1, |A|, |B|) {
      PointFwdHit(A, B, d, s + 1, s - k - 1);
      assert false;
    }
  }

  lemma {:induction false} OddSides<T>(A: seq<T>, B: seq<T>, d: int, s: int, X: int, k: int)
    requires 2 <= d && IsDist(A, B, 2 * d - 1)
    requires 0 <= s <= X <= |A| && 0 <= s - k <= X - k <= |B|
    requires Path(A, B, d, 0, 0, s, s - k)
    requires Path(A, B, d - 1, 0, 0, s, s - k - 1) || Path(A, B, d - 1, 0, 0, s - 1, s - k)
    requires Path(A, B, 0, s, s - k, X, X - k)
    requires !(X < |A| && X - k < |B| && A[X] == B[X - k])
    requires Path(A, B, d - 1, X, X - k, |A|, |B|)
    ensures 0 < s + s - k && IsDist(A[..s], B[..s - k], d) && EditAtAnEnd(A[..s], B[..s - k])
    ensures X + X - k < |A| + |B| && IsDist(A[X..], B[X - k..], d - 1) && EditAtAnEnd(A[X..], B[X - k..])
  {
    var N, M := |A|, |B|;
    PathConcat(A, B, 0, d - 1, s, s - k, X, X - k, N, M);
    FirstHalf(A, B, d, d - 1, s, s - k);
    PathConcat(A, B, d, 0, 0, 0, s, s - k, X, X - k);
    if X == N && X - k == M {
      PathMono(A, B, d, 2 * d - 2, 0, 0, N, M);
      assert false;
    }
    PathFirst(A, B, d - 1, X, X - k, N, M);
    SecondHalf(A, B, d, d - 1, X, X - k);
  }

  /**
   * The forward pass finds its first overlap of round d on diagonal k, with no overlap on
   * a diagonal it visited before, and d is not past ceil(D / 2): then D = 2d - 1 and the
   * snake it followed on diagonal k is a middle snake.
   */
  lemma {:induction false} OddResult<T>(A: seq<T>, B: seq<T>, D: nat, d: int, k: int)
    requires IsDist(A, B, D) && d <= (D + 1) / 2 && FwdHit(A, B, d, k)
    requires NoFwdHit(A, B, d, k)
    ensures D == 2 * d - 1
    ensures MiddleSnakeOf(A, B, D, FwdStart(A, B, d, k), FwdStart(A, B, d, k) - k, Fwd(A, B, d, k), Fwd(A, B, d, k) - k)
  {
    var N, M := |A|, |B|;
    var e := DistExists(A, B);
    DistUnique(A, B, e, D);
    DistParity(A, B, D);
    FwdHitPath(A, B, d, k);
    if D > 2 * d - 1 {
      PathMono(A, B, 2 * d - 1, D - 1, 0, 0, N, M);
      assert false;
    }
    OddPaths(A, B, d, k);
    if d == 1 {
      assert FwdStart(A, B, 0, 0) == 0;
      assert Fwd(A, B, 0, 0) == Slide(A, B, 0, 0);
    } else {
      OddHalves(A, B, d, k);
    }
  }

  /** A backward overlap of round d, when the distance is 2d, lies inside the grid. */
  lemma {:induction false} EvenGrid<T>(A: seq<T>, B: seq<T>, d: int, k: int)
    requires 0 <= d && IsDist(A, B, 2 * d) && BwdHit(A, B, d, k)
    ensures var Y, s, kr := Bwd(A, B, d, k), BwdStart(A, B, d, k), |A| - |B| + k;
            0 <= Y <= s <= |A| && 0 <= Y - kr <= s - kr <= |B|
  {
    var kr := |A| - |B| + k;
    BwdBounds(A, B, d, k);
    BwdReach(A, B, d, k);
    DistAtLeast(A, B, 2 * d, 2 * d);
    GridClampBack(A, B, d, d, Bwd(A, B, d, k), kr);
  }

  /** The snake followed back from s: a run of equal elements, a path without edits, stopped by a mismatch. */
  lemma {:induction false} SnakeBackFacts<T>(A: seq<T>, B: seq<T>, s: int, Y: int, kr: int)
    requires 0 <= s <= |A| && 0 <= s - kr <= |B| && Y == SlideBack(A, B, s, s - kr)
    ensures 0 <= Y && 0 <= Y - kr && A[Y..s] == B[Y - kr..s - kr] && Path(A, B, 0, Y, Y - kr, s, s - kr) &&
            !(0 < Y && 0 < Y - kr && A[Y - 1] == B[Y - kr - 1])
  {
    var t := s - kr;
    SlideBackMatch(A, B, s, t);
    assert Path(A, B, 0, s, t, s, t);
    SlideBackFacts(A, B, 0, s, t, s, t);
    assert s - t == kr;
  }

  /** The end of the backward snake of an overlap is reached from the start with d edits. */
  lemma {:induction false} EvenFront<T>(A: seq<T>, B: seq<T>, d: int, k: int, Y: int)
    requires 0 <= d && BwdHit(A, B, d, k) && Y == Bwd(A, B, d, k) && 0 <= Y && 0 <= Y - (|A| - |B| + k)
    ensures Path(A, B, d, 0, 0, Y, Y - (|A| - |B| + k))
  {
    var kr := |A| - |B| + k;
    FwdReach(A, B, d, kr);
    FromStartDownTo(A, B, d, Fwd(A, B, d, kr), kr, Y);
  }

  /** The paths through a backward overlap of round d when the distance is 2d. */
  lemma {:induction false} EvenPaths<T>(A: seq<T>, B: seq<T>, d: int, k: int)
    requires 0 <= d && IsDist(A, B, 2 * d) && BwdHit(A, B, d, k)
    ensures var Y, s, kr := Bwd(A, B, d, k), BwdStart(A, B, d, k), |A| - |B| + k;
            0 <= Y <= s <= |A| && 0 <= Y - kr <= s - kr <= |B| &&
            A[Y..s] == B[Y - kr..s - kr] &&
            Path(A, B, d, 0, 0, Y, Y - kr) &&
            Path(A, B, 0, Y, Y - kr, s, s - kr) &&
            !(0 < Y && 0 < Y - kr && A[Y - 1] == B[Y - kr - 1]) &&
            Path(A, B, d, s, s - kr, |A|, |B|) &&
            (0 < d ==> Path(A, B, d - 1, s, s - kr + 1, |A|, |B|) || Path(A, B, d - 1, s + 1, s - kr, |A|, |B|))
  {
    var Y, s, kr := Bwd(A, B, d, k), BwdStart(A, B, d, k), |A| - |B| + k;
    EvenGrid(A, B, d, k);
    BwdStartReach(A, B, d, k);
    SnakeBackFacts(A, B, s, Y, kr);
    EvenFront(A, B, d, k, Y);
  }

  /** For d >= 1 the snake of the first backward overlap splits the problem in halves. */
  lemma {:induction false} EvenHalves<T>(A: seq<T>, B: seq<T>, d: int, k: int)
    requires 1 <= d && IsDist(A, B, 2 * d) && BwdHit(A, B, d, k)
    requires NoBwdHit(A, B, d, k)
    ensures var Y, s, kr := Bwd(A, B, d, k), BwdStart(A, B, d, k), |A| - |B| + k;
            0 <= Y <= s <= |A| && 0 <= Y - kr <= s - kr <= |B| &&
            Halves(A, B, 2 * d, Y, Y - kr, s, s - kr)
  {
    var Y, s, kr := Bwd(A, B, d, k), BwdStart(A, B, d, k), |A| - |B| + k;
    EvenPaths(A, B, d, k);
    EvenNeighbour(A, B, d, k, Y);
    EvenSides(A, B, d, Y, s, kr);
  }

  lemma {:induction false} EvenSides<T>(A: seq<T>, B: seq<T>, d: int, Y: int, s: int, kr: int)
    requires 1 <= d && IsDist(A, B, 2 * d)
    requires 0 <= Y <= s <= |A| && 0 <= Y - kr <= s - kr <= |B|
    requires Path(A, B, d, 0, 0, Y, Y - kr)
    requires Path(A, B, 0, Y, Y - kr, s, s - kr)
    requires !(0 < Y && 0 < Y - kr && A[Y - 1] == B[Y - kr - 1])
    requires Path(A, B, d, s, s - kr, |A|, |B|)
    requires Path(A, B, d - 1, s, s - kr + 1, |A|, |B|) || Path(A, B, d - 1, s + 1, s - kr, |A|, |B|)
    requires !(Path(A, B, d, 0, 0, Y + 1, Y - kr - 1) && Path(A, B, d, Y + 1, Y - kr - 1, |A|, |B|))
    ensures Halves(A, B, 2 * d, Y, Y - kr, s, s - kr)
  {
    var N, M := |A|, |B|;
    assert (2 * d + 1) / 2 == d && (2 * d) / 2 == d;
    PathConcat(A, B, 0, d, Y, Y - kr, s, s - kr, N, M);
    if Y == 0 && Y - kr == 0 {
      PathMono(A, B, d, 2 * d - 1, 0, 0, N, M);
      assert false;
    }
    assert Path(A, B, d - 1, 0, 0, Y - 1, Y - kr) || Path(A, B, d - 1, 0, 0, Y, Y - kr - 1);
    FirstHalf(A, B, d, d, Y, Y - kr);
    PathConcat(A, B, d, 0, 0, 0, Y, Y - kr, s, s - kr);
    SecondHalf(A, B, d, d, s, s - kr);
  }

  /** The point one deletion past the end of the first backward overlap's snake is not an overlap. */
  lemma {:induction false} EvenNeighbour<T>(A: seq<T>, B: seq<T>, d: int, k: int, Y: int)
    requires 0 <= d && (|A| - |B|) % 2 == 0 && (d - k) % 2 == 0
    requires NoBwdHit(A, B, d, k)
    ensures var kr := |A| - |B| + k;
            !(Path(A, B, d, 0, 0, Y + 1, Y - kr - 1) && Path(A, B, d, Y + 1, Y - kr - 1, |A|, |B|))
  {
    var kr := |A| - |B| + k;
    if Path(A, B, d, 0, 0, Y + 1, Y - kr - 1) && Path(A, B, d, Y + 1, Y - kr - 1, |A|, |B|) {
      PointBwdHit(A, B, d, Y + 1, Y - kr - 1);
      assert false;
    }
  }

  /**
   * The backward pass finds its first overlap of round d on its diagonal k, with no
   * overlap on a diagonal it visited before, and d is not past ceil(D / 2): then D = 2d
   * and the snake it followed back is a middle snake.
   */
  lemma {:induction false} EvenResult<T>(A: seq<T>, B: seq<T>, D: nat, d: int, k: int)
    requires IsDist(A, B, D) && d <= (D + 1) / 2 && BwdHit(A, B, d, k)
    requires NoBwdHit(A, B, d, k)
    ensures D == 2 * d
    ensures MiddleSnakeOf(A, B, D, Bwd(A, B, d, k), Bwd(A, B, d, k) - (|A| - |B| + k),
                          BwdStart(A, B, d, k), BwdStart(A, B, d, k) - (|A| - |B| + k))
  {
    var N, M := |A|, |B|;
    var e := DistExists(A, B);
    DistUnique(A, B, e, D);
    DistParity(A, B, D);
    BwdHitPath(A, B, d, k);
    if D > 2 * d {
      PathMono(A, B, 2 * d, D - 1, 0, 0, N, M);
      assert false;
    }
    EvenPaths(A, B, d, k);
    if 1 <= d {
      EvenHalves(A, B, d, k);
    }
  }

  // ---------------------------------------------------------------------------------
  // Distance one
  // ---------------------------------------------------------------------------------

  /**
   * The four base cases of the recursion: with distance 1 and an edit at an end, one
   * sequence is the other with one element more, at the end when the snake from x is
   * empty (x == u) and at the start otherwise.
   */
  lemma {:induction false} DistanceOne<T>(A: seq<T>, B: seq<T>, x: int, y: int, u: int, v: int)
    requires 0 < |A| && 0 < |B| && IsDist(A, B, 1) && EditAtAnEnd(A, B)
    requires MiddleSnakeOf(A, B, 1, x, y, u, v)
    ensures |B| > |A| ==> |B| == |A| + 1 && (x == u ==> A == B[..|A|]) && (x != u ==> A == B[1..])
    ensures |B| <= |A| ==> |A| == |B| + 1 && (x == u ==> B == A[..|B|]) && (x != u ==> B == A[1..])
  {
    var N, M := |A|, |B|;
    DistParity(A, B, 1);
    PathDiagBound(A, B, 1, 0, 0, N, M);
    assert StartsWithEdit(A, B, 1) || EndsWithEdit(A, B, 1);
    PathZero(A, B, 1, 0, N, M);
    PathZero(A, B, 0, 1, N, M);
    PathZero(A, B, 0, 0, N - 1, M);
    PathZero(A, B, 0, 0, N, M - 1);
    SlideMatch(A, B, 0, 0);
    assert A[0..N] == A && B[0..M] == B;
    if M > N {
      DistanceOneInsert(A, B, u);
    } else {
      DistanceOneDelete(A, B, u);
    }
  }

  lemma {:induction false} DistanceOneInsert<T>(A: seq<T>, B: seq<T>, u: int)
    requires |B| == |A| + 1 && (A == B[1..] || A == B[0..|A|])
    requires var L := Slide(A, B, 0, 0); L <= |A| && A[0..L] == B[0..L] && u == Slide(A, B, L, L + 1)
    ensures var L := Slide(A, B, 0, 0); (L == u ==> A == B[..|A|]) && (L != u ==> A == B[1..])
  {
    var N, L := |A|, Slide(A, B, 0, 0);
    assert B[0..N] == B[..N];
    if L == u && A != B[..N] {
      assert false;
    }
    if L != u && A != B[1..] {
      SlideMax(A, B, 0, 0, N);
      assert false;
    }
  }

  lemma {:induction false} DistanceOneDelete<T>(A: seq<T>, B: seq<T>, u: int)
    requires |A| == |B| + 1 && (B == A[1..] || B == A[0..|B|])
    requires var L := Slide(A, B, 0, 0); L <= |B| && A[0..L] == B[0..L] && u == Slide(A, B, L + 1, L)
    ensures var L := Slide(A, B, 0, 0); (L + 1 == u ==> B == A[..|B|]) && (L + 1 != u ==> B == A[1..])
  {
    var M, L := |B|, Slide(A, B, 0, 0);
    assert A[0..M] == A[..M];
    if L + 1 == u && B != A[..M] {
      assert false;
    }
    if L + 1 != u && B != A[1..] {
      SlideMax(A, B, 0, 0, M);
      assert false;
    }
  }

  // ---------------------------------------------------------------------------------
  // How the halves' scripts join
  // ---------------------------------------------------------------------------------

  /** No script with the fewest edits starts by deleting A[0]. */
  ghost predicate NoDeleteFirst<T>(A: seq<T>, B: seq<T>)
  {
    forall e: nat :: 0 < e && IsDist(A, B, e) ==> !Path(A, B, e - 1, 1, 0, |A|, |B|)
  }

  /** The script through a middle snake: the first half, the snake, the second half. */
  lemma {:induction false} ThroughSnake<T>(A: seq<T>, B: seq<T>, r: nat, x: int, y: int, u: int, v: int)
    requires 1 < r && MiddleSnakeOf(A, B, r, x, y, u, v)
    ensures Path(A, B, (r + 1) / 2, 0, 0, x, y) && Path(A, B, 0, x, y, u, v) &&
            Path(A, B, r / 2, u, v, |A|, |B|)
  {
    Prefix(A, B, (r + 1) / 2, x, y, 0, 0, x, y);
    PathZero(A, B, x, y, u, v);
    Suffix(A, B, r / 2, u, v, u, v);
  }

  /** When no optimal script starts with a deletion, neither does one of the first half. */
  lemma {:induction false} FirstHalfNoDelete<T>(A: seq<T>, B: seq<T>, r: nat, x: int, y: int, u: int, v: int)
    requires 1 < r && IsDist(A, B, r) && MiddleSnakeOf(A, B, r, x, y, u, v) && NoDeleteFirst(A, B)
    ensures NoDeleteFirst(A[..x], B[..y])
  {
    var A1, B1 := A[..x], B[..y];
    ThroughSnake(A, B, r, x, y, u, v);
    forall e: nat | 0 < e && IsDist(A1, B1, e)
      ensures !Path(A1, B1, e - 1, 1, 0, |A1|, |B1|)
    {
      DistUnique(A1, B1, e, (r + 1) / 2);
      if Path(A1, B1, e - 1, 1, 0, x, y) {
        Prefix(A, B, e - 1, x, y, 1, 0, x, y);
        PathConcat(A, B, e - 1, 0, 1, 0, x, y, u, v);
        PathConcat(A, B, e - 1, r / 2, 1, 0, u, v, |A|, |B|);
        assert false;
      }
    }
  }

  /**
   * When the first half's script can end by inserting B[y - 1] and the snake is empty, no
   * optimal script of the second half starts by deleting A[u]: the two would meet at the
   * point one deletion past (x, y), which the search rules out.
   */
  lemma {:induction false} SecondHalfNoDelete<T>(A: seq<T>, B: seq<T>, r: nat, x: int, y: int, u: int, v: int)
    requires 1 < r && MiddleSnakeOf(A, B, r, x, y, u, v) && x == u
    requires Path(A[..x], B[..y], (r + 1) / 2 - 1, 0, 0, x, y - 1)
    ensures NoDeleteFirst(A[u..], B[v..])
  {
    var A2, B2 := A[u..], B[v..];
    var e1 := (r + 1) / 2;
    forall e: nat | 0 < e && IsDist(A2, B2, e)
      ensures !Path(A2, B2, e - 1, 1, 0, |A2|, |B2|)
    {
      DistUnique(A2, B2, e, r / 2);
      if Path(A2, B2, e - 1, 1, 0, |A2|, |B2|) {
        Suffix(A, B, e - 1, u, v, u + 1, v);
        Prefix(A, B, e1 - 1, x, y, 0, 0, x, y - 1);
        assert Path(A, B, e1, 0, 0, x + 1, y - 1);
        assert Path(A, B, 1, x + 1, y - 1, x + 1, y);
        PathConcat(A, B, 1, e - 1, x + 1, y - 1, x + 1, y, |A|, |B|);
        assert false;
      }
    }
  }

  /** A second-half script ending with an insertion makes the whole script end with one. */
  lemma {:induction false} InsertLastJoins<T>(A: seq<T>, B: seq<T>, r: nat, x: int, y: int, u: int, v: int)
    requires 1 < r && MiddleSnakeOf(A, B, r, x, y, u, v)
    requires 0 < r / 2 && Path(A[u..], B[v..], r / 2 - 1, 0, 0, |A[u..]|, |B[v..]| - 1)
    ensures Path(A, B, r - 1, 0, 0, |A|, |B| - 1)
  {
    var N, M := |A|, |B|;
    ThroughSnake(A, B, r, x, y, u, v);
    PathWindow(A, B, r / 2 - 1, u, v, N, M, u, v, N, M - 1);
    assert A[u..N] == A[u..] && B[v..M] == B[v..];
    PathConcat(A, B, (r + 1) / 2, 0, 0, 0, x, y, u, v);
    PathConcat(A, B, (r + 1) / 2, r / 2 - 1, 0, 0, u, v, N, M - 1);
    assert (r + 1) / 2 + (r / 2 - 1) == r - 1;
  }

  /** Deleting all of a non-empty A is an optimal script, and it starts with a deletion. */
  lemma {:induction false} EmptyBDeletesFirst<T>(A: seq<T>, B: seq<T>)
    requires 0 < |A| && |B| == 0
    ensures !NoDeleteFirst(A, B)
  {
    DistEmpty(A, B);
    PathStraight(A, B, 1, 0, |A|, 0);
  }

  /** When B is A without its first element, deleting A[0] is an optimal script. */
  lemma {:induction false} DropFirstDeletesFirst<T>(A: seq<T>, B: seq<T>)
    requires 0 < |A| && B == A[1..] && IsDist(A, B, 1)
    ensures !NoDeleteFirst(A, B)
  {
    PathZero(A, B, 1, 0, |A|, |B|);
    assert A[1..|A|] == A[1..] && B[0..|B|] == B;
  }

  /** When A is B without its last element, the script inserting B's last element ends with that insertion. */
  lemma {:induction false} AddLastInsertsLast<T>(A: seq<T>, B: seq<T>)
    requires |B| == |A| + 1 && A == B[..|A|]
    ensures Path(A, B, 0, 0, 0, |A|, |B| - 1)
  {
    PathZero(A, B, 0, 0, |A|, |B| - 1);
    assert A[0..|A|] == A && B[0..|A|] == B[..|A|];
  }

  /** Sequences that differ in their first elements form a problem whose scripts start with an edit. */
  lemma {:induction false} StartDiffers<T>(A: seq<T>, B: seq<T>)
    requires 0 < |A| && 0 < |B| && A[0] != B[0]
    ensures EditAtAnEnd(A, B)
  {
    forall e: nat | IsDist(A, B, e)
      ensures StartsWithEdit(A, B, e) || EndsWithEdit(A, B, e)
    {
      PathFirst(A, B, e, 0, 0, |A|, |B|);
      if e == 0 {
        assert false;
      }
    }
  }

  /** After a common prefix of length n, scripts of the rests are scripts of the whole. */
  lemma {:induction false} CommonPrefix<T>(A: seq<T>, B: seq<T>, n: int, e: nat)
    requires 0 <= n <= |A| && n <= |B| && A[..n] == B[..n]
    ensures Path(A, B, e, 0, 0, |A|, |B|) <==> Path(A[n..], B[n..], e, 0, 0, |A| - n, |B| - n)
  {
    Suffix(A, B, e, n, n, n, n);
    PathZero(A, B, 0, 0, n, n);
    assert A[0..n] == A[..n] && B[0..n] == B[..n];
    if Path(A, B, e, 0, 0, |A|, |B|) {
      ToEndUpTo(A, B, e, 0, 0, n);
    }
    if Path(A, B, e, n, n, |A|, |B|) {
      PathConcat(A, B, 0, e, 0, 0, n, n, |A|, |B|);
    }
  }
}

=== FILE: shift.dfy ===
/**
 * The optional boundary-shifting pass of DiffCalc. A difference block whose first elements
 * repeat right after it, at the start of the match that follows, is moved down by that
 * many elements: with [ ] around the differences, [abb]a becomes a[bba]. The match before
 * the block grows, the match after it shrinks and, when it is used up, disappears; two
 * difference blocks of one kind that then meet are joined.
 */
module ShiftPass {
  import opened DiffBlocks

  // ---------------------------------------------------------------------------------
  // One shift
  // ---------------------------------------------------------------------------------

  /**
   * How far a block can move down: the number of leading positions t < max at which
   * el[p + t] equals el[q + t], compared from t = 0. A position outside el ends the run.
   */
  function ShiftLen<T(==)>(el: seq<T>, p: int, q: int, max: int): (s: nat)
    ensures s <= max || s == 0
    ensures s == 0 || (0 <= p && 0 <= q && p + s <= |el| && q + s <= |el|)
    decreases max
  {
    if max <= 0 || !(0 <= p < |el| && 0 <= q < |el|) || el[p] != el[q] then 0
    else 1 + ShiftLen(el, p + 1, q + 1, max - 1)
  }

  /** The runs of ShiftLen elements from p and from q agree. */
  lemma {:induction false} ShiftLenRun<T>(el: seq<T>, p: int, q: int, max: int)
    ensures var s := ShiftLen(el, p, q, max);
            s == 0 || el[p..p + s] == el[q..q + s]
    decreases max
  {
    if !(max <= 0 || !(0 <= p < |el| && 0 <= q < |el|) || el[p] != el[q]) {
      ShiftLenRun(el, p + 1, q + 1, max - 1);
      var s := ShiftLen(el, p, q, max);
      assert el[p..p + s] == [el[p]] + el[p + 1..p + s];
      assert el[q..q + s] == [el[q]] + el[q + 1..q + s];
    }
  }

  /** ShiftLen stops only at max or at the first position where the runs differ. */
  lemma {:induction false} ShiftLenStops<T>(el: seq<T>, p: int, q: int, max: int)
    ensures var s := ShiftLen(el, p, q, max);
            s < max ==> !(0 <= p + s < |el| && 0 <= q + s < |el| && el[p + s] == el[q + s])
    decreases max
  {
    if !(max <= 0 || !(0 <= p < |el| && 0 <= q < |el|) || el[p] != el[q]) {
      ShiftLenStops(el, p + 1, q + 1, max - 1);
    }
  }

  /** The match in front of the block at i after a shift by s: the match before it grown, or a new first match. */
  function Front(d: seq<DiffInfo>, i: int, s: int): seq<DiffInfo>
    requires 0 <= i < |d|
  {
    if i > 0 then [d[i - 1].(len := d[i - 1].len + s)] else [DiffInfo(Match, 0, s)]
  }

  /** The blocks before the match in front of the block at i. */
  function Before(d: seq<DiffInfo>, i: int): seq<DiffInfo>
    requires 0 <= i < |d|
  {
    if i > 0 then d[..i - 1] else []
  }

  /**
   * The first steps of a shift of the block at i by s > 0: the block moves down, the match
   * before it grows (or a match is put first) and the match after it shrinks. Returns the
   * list and the new index of the block.
   */
  function ShiftMoved(d: seq<DiffInfo>, i: int, s: int): (seq<DiffInfo>, int)
    requires 0 <= i && i + 1 < |d|
  {
    var d1 := d[i := d[i].(off := d[i].off + s)];
    var d2 := if i > 0 then d1[i - 1 := d1[i - 1].(len := d1[i - 1].len + s)] else [DiffInfo(Match, 0, s)] + d1;
    var k := if i > 0 then i else 1;
    (d2[k + 1 := d2[k + 1].(off := d2[k + 1].off + s, len := d2[k + 1].len - s)], k)
  }

  /**
   * The last steps of a shift, on the list ShiftMoved leaves with the block at k: an empty
   * match after the block is erased, and the block then joins the block after it when they
   * are of one kind. Returns the list and the loop index before its increment.
   */
  function ShiftSettle(d3: seq<DiffInfo>, k: int): (seq<DiffInfo>, int)
    requires 0 <= k && k + 1 < |d3|
  {
    if d3[k + 1].len == 0 then
      var j := k + 1;
      var d4 := d3[..j] + d3[j + 1..];
      if j < |d4| && d4[k].kind == d4[j].kind then
        var d5 := d4[k := d4[k].(len := d4[k].len + d4[j].len)];
        (d5[..j] + d5[j + 1..], k - 1)
      else (d4, k)
    else (d3, k)
  }

  /** Shifts the block at i down by s > 0, step by step as the pass does. */
  function ShiftOnce(d: seq<DiffInfo>, i: int, s: int): (r: (seq<DiffInfo>, int))
    requires 0 <= i && i + 1 < |d|
    ensures -1 <= r.1 && |r.0| - r.1 <= |d| - i
  {
    var (d3, k) := ShiftMoved(d, i, s);
    ShiftSettle(d3, k)
  }

  /** The list ShiftOnce leaves, block by block. */
  function ShiftResult(d: seq<DiffInfo>, i: int, s: int): seq<DiffInfo>
    requires 0 <= i && i + 1 < |d|
  {
    var dd := d[i].(off := d[i].off + s);
    var nm := d[i + 1].(off := d[i + 1].off + s, len := d[i + 1].len - s);
    Settled(Before(d, i) + Front(d, i, s), dd, nm, d[i + 2..])
  }

  /** What ShiftSettle leaves on z + [dd, nm] + y with the block dd at |z|. */
  function Settled(z: seq<DiffInfo>, dd: DiffInfo, nm: DiffInfo, y: seq<DiffInfo>): seq<DiffInfo>
  {
    if nm.len != 0 then z + [dd] + [nm] + y
    else if y != [] && y[0].kind == dd.kind then z + [dd.(len := dd.len + y[0].len)] + y[1..]
    else z + [dd] + y
  }

  /** ShiftMoved leaves the blocks before, the grown or new match, the moved block, the shrunk match and the rest. */
  lemma {:induction false} ShiftMovedShape(d: seq<DiffInfo>, i: int, s: int)
    requires 0 <= i && i + 1 < |d|
    ensures var z := Before(d, i) + Front(d, i, s);
            ShiftMoved(d, i, s) == (z + [d[i].(off := d[i].off + s)] + [d[i + 1].(off := d[i + 1].off + s, len := d[i + 1].len - s)] + d[i + 2..], |z|)
  {
    if i > 0 {
      ShiftMovedInner(d, i, s);
    } else {
      assert Before(d, i) + Front(d, i, s) == [DiffInfo(Match, 0, s)];
      ShiftMovedFirst(d, s);
    }
  }

  lemma {:induction false} ShiftMovedInner(d: seq<DiffInfo>, i: int, s: int)
    requires 0 < i && i + 1 < |d|
    ensures ShiftMoved(d, i, s) == (d[..i - 1] + [d[i - 1].(len := d[i - 1].len + s)] + [d[i].(off := d[i].off + s)] +
                                    [d[i + 1].(off := d[i + 1].off + s, len := d[i + 1].len - s)] + d[i + 2..], i)
  {
    var d1 := d[i := d[i].(off := d[i].off + s)];
    var d2 := d1[i - 1 := d1[i - 1].(len := d1[i - 1].len + s)];
    var d3 := d2[i + 1 := d2[i + 1].(off := d2[i + 1].off + s, len := d2[i + 1].len - s)];
    assert ShiftMoved(d, i, s) == (d3, i);
    assert d3[..i - 1] == d[..i - 1] && d3[i + 2..] == d[i + 2..];
    assert d3[i - 1] == d[i - 1].(len := d[i - 1].len + s) && d3[i] == d[i].(off := d[i].off + s);
    assert d3 == d3[..i - 1] + [d3[i - 1]] + [d3[i]] + [d3[i + 1]] + d3[i + 2..];
  }

  lemma {:induction false} ShiftMovedFirst(d: seq<DiffInfo>, s: int)
    requires 1 < |d|
    ensures ShiftMoved(d, 0, s) == ([DiffInfo(Match, 0, s)] + [d[0].(off := d[0].off + s)] +
                                    [d[1].(off := d[1].off + s, len := d[1].len - s)] + d[2..], 1)
  {
    var d2 := [DiffInfo(Match, 0, s)] + d[0 := d[0].(off := d[0].off + s)];
    var d3 := d2[2 := d2[2].(off := d2[2].off + s, len := d2[2].len - s)];
    assert ShiftMoved(d, 0, s) == (d3, 1);
    assert d3[3..] == d[2..];
    assert d3 == [d3[0]] + [d3[1]] + [d3[2]] + d3[3..];
  }

  /** ShiftSettle leaves what Settled says. */
  lemma {:induction false} ShiftSettleShape(z: seq<DiffInfo>, dd: DiffInfo, nm: DiffInfo, y: seq<DiffInfo>)
    ensures ShiftSettle(z + [dd] + [nm] + y, |z|).0 == Settled(z, dd, nm, y)
  {
    var d3 := z + [dd] + [nm] + y;
    var k, j := |z|, |z| + 1;
    assert d3[k] == dd && d3[j] == nm;
    if nm.len == 0 {
      var d4 := d3[..j] + d3[j + 1..];
      assert d4 == z + [dd] + y;
      if j < |d4| && d4[k].kind == d4[j].kind {
        assert d4[j] == y[0];
        var d5 := d4[k := dd.(len := dd.len + y[0].len)];
        assert d5[..j] + d5[j + 1..] == z + [dd.(len := dd.len + y[0].len)] + y[1..];
      }
    }
  }

  /** ShiftOnce leaves the list ShiftResult describes. */
  lemma {:induction false} ShiftedShape(d: seq<DiffInfo>, i: int, s: int)
    requires 0 <= i && i + 1 < |d|
    ensures ShiftOnce(d, i, s).0 == ShiftResult(d, i, s)
  {
    ShiftMovedShape(d, i, s);
    ShiftSettleShape(Before(d, i) + Front(d, i, s), d[i].(off := d[i].off + s),
                     d[i + 1].(off := d[i + 1].off + s, len := d[i + 1].len - s), d[i + 2..]);
  }

  // ---------------------------------------------------------------------------------
  // A shift keeps the description
  // ---------------------------------------------------------------------------------

  /** The match after a shifted block when anything is left of it. */
  function Kept(nm: DiffInfo): seq<DiffInfo>
  {
    if nm.len != 0 then [nm] else []
  }

  /** Equal runs of n elements split into equal runs of s and n - s elements. */
  lemma {:induction false} SliceParts<T>(u: seq<T>, v: seq<T>, i: int, j: int, n: int, s: int)
    requires 0 <= i && 0 <= j && 0 <= s <= n && i + n <= |u| && j + n <= |v| && u[i..i + n] == v[j..j + n]
    ensures u[i..i + s] == v[j..j + s] && u[i + s..i + n] == v[j + s..j + n]
  {
    assert u[i..i + s] == u[i..i + n][..s] && v[j..j + s] == v[j..j + n][..s];
    assert u[i + s..i + n] == u[i..i + n][s..] && v[j + s..j + n] == v[j..j + n][s..];
  }

  /**
   * A deletion whose first s elements repeat at the start of the match after it moves down
   * by s: the s elements pair up in front of it, and the match after it keeps the rest.
   */
  lemma {:induction false} ShiftDeleted<T>(dd: DiffInfo, nm: DiffInfo, s: int, a: seq<T>, b: seq<T>, ia: int, ib: int)
    requires dd.kind == In1 && nm.kind == Match && 0 < s <= nm.len
    requires BlockFits(dd, a, b, ia, ib) && BlockFits(nm, a, b, ia + LenA(dd), ib + LenB(dd))
    requires a[dd.off..dd.off + s] == a[dd.off + dd.len..dd.off + dd.len + s]
    ensures BlockFits(DiffInfo(Match, ia, s), a, b, ia, ib)
    ensures BlockFits(dd.(off := dd.off + s), a, b, ia + s, ib + s)
    ensures nm.len > s ==> BlockFits(nm.(off := nm.off + s, len := nm.len - s), a, b, ia + s + LenA(dd), ib + s + LenB(dd))
  {
    assert LenA(dd) == dd.len && LenB(dd) == 0;
    SliceParts(a, b, ia + dd.len, ib, nm.len, s);
  }

  /** The same for an insertion, whose repeated elements are in the second sequence. */
  lemma {:induction false} ShiftInserted<T>(dd: DiffInfo, nm: DiffInfo, s: int, a: seq<T>, b: seq<T>, ia: int, ib: int)
    requires dd.kind == In2 && nm.kind == Match && 0 < s <= nm.len
    requires BlockFits(dd, a, b, ia, ib) && BlockFits(nm, a, b, ia + LenA(dd), ib + LenB(dd))
    requires b[dd.off..dd.off + s] == b[dd.off + dd.len..dd.off + dd.len + s]
    ensures BlockFits(DiffInfo(Match, ia, s), a, b, ia, ib)
    ensures BlockFits(dd.(off := dd.off + s), a, b, ia + s, ib + s)
    ensures nm.len > s ==> BlockFits(nm.(off := nm.off + s, len := nm.len - s), a, b, ia + s + LenA(dd), ib + s + LenB(dd))
  {
    assert LenA(dd) == 0 && LenB(dd) == dd.len;
    SliceParts(a, b, ia, ib + dd.len, nm.len, s);
  }

  /** The sequence a difference block indexes. */
  function Side<T>(dd: DiffInfo, a: seq<T>, b: seq<T>): seq<T>
  {
    if dd.kind == In1 then a else b
  }

  /** The first s elements of the block repeat right after it, in the sequence it indexes. */
  predicate Repeats<T(==)>(dd: DiffInfo, s: int, a: seq<T>, b: seq<T>)
  {
    var el := Side(dd, a, b);
    0 <= dd.off && 0 <= dd.off + dd.len && 0 <= s && dd.off + s <= |el| && dd.off + dd.len + s <= |el| &&
    el[dd.off..dd.off + s] == el[dd.off + dd.len..dd.off + dd.len + s]
  }

  /** A difference block moved down by s, for either kind. */
  lemma {:induction false} ShiftBlocks<T>(dd: DiffInfo, nm: DiffInfo, s: int, a: seq<T>, b: seq<T>, ia: int, ib: int)
    requires dd.kind != Match && nm.kind == Match && 0 < s <= nm.len && Repeats(dd, s, a, b)
    requires BlockFits(dd, a, b, ia, ib) && BlockFits(nm, a, b, ia + LenA(dd), ib + LenB(dd))
    ensures BlockFits(DiffInfo(Match, ia, s), a, b, ia, ib)
    ensures BlockFits(dd.(off := dd.off + s), a, b, ia + s, ib + s)
    ensures nm.len > s ==> BlockFits(nm.(off := nm.off + s, len := nm.len - s), a, b, ia + s + LenA(dd), ib + s + LenB(dd))
  {
    if dd.kind == In1 {
      ShiftDeleted(dd, nm, s, a, b, ia, ib);
    } else {
      ShiftInserted(dd, nm, s, a, b, ia, ib);
    }
  }

  /** The s elements a block moves past pair up where the block started. */
  lemma {:induction false} ShiftLead<T>(dd: DiffInfo, nm: DiffInfo, s: int, a: seq<T>, b: seq<T>, ia: int, ib: int)
    requires dd.kind != Match && nm.kind == Match && 0 < s <= nm.len && Repeats(dd, s, a, b)
    requires BlockFits(dd, a, b, ia, ib) && BlockFits(nm, a, b, ia + LenA(dd), ib + LenB(dd))
    ensures BlockFits(DiffInfo(Match, ia, s), a, b, ia, ib)
  {
    ShiftBlocks(dd, nm, s, a, b, ia, ib);
  }

  /** The moved block and what is kept of the match after it fit from where the block now starts. */
  lemma {:induction false} ShiftTail<T>(dd2: DiffInfo, nm2: DiffInfo, a: seq<T>, b: seq<T>, ia: int, ib: int)
    requires BlockFits(dd2, a, b, ia, ib)
    requires nm2.len != 0 ==> BlockFits(nm2, a, b, ia + LenA(dd2), ib + LenB(dd2))
    ensures Fits([dd2] + Kept(nm2), a, b, ia, ib)
  {
    if nm2.len != 0 {
      FitsSingle(nm2, a, b, ia + LenA(dd2), ib + LenB(dd2));
    }
    FitsCons(dd2, Kept(nm2), a, b, ia, ib);
  }

  /** The block and the match after it, once the block has moved down by s. */
  lemma {:induction false} ShiftPair<T>(dd: DiffInfo, nm: DiffInfo, s: int, a: seq<T>, b: seq<T>, ia: int, ib: int)
    requires dd.kind != Match && nm.kind == Match && 0 < s <= nm.len && Repeats(dd, s, a, b)
    requires BlockFits(dd, a, b, ia, ib) && BlockFits(nm, a, b, ia + LenA(dd), ib + LenB(dd))
    ensures Fits([dd.(off := dd.off + s)] + Kept(nm.(off := nm.off + s, len := nm.len - s)), a, b, ia + s, ib + s)
  {
    var dd2 := dd.(off := dd.off + s);
    ShiftBlocks(dd, nm, s, a, b, ia, ib);
    assert LenA(dd2) == LenA(dd) && LenB(dd2) == LenB(dd);
    ShiftTail(dd2, nm.(off := nm.off + s, len := nm.len - s), a, b, ia + s, ib + s);
  }

  /** The match before a block shifted inside the list grows by the shift. */
  lemma {:induction false} ShiftGrow<T>(p: DiffInfo, dd: DiffInfo, nm: DiffInfo, s: int, a: seq<T>, b: seq<T>, ia: int, ib: int)
    requires p.kind == Match && dd.kind != Match && nm.kind == Match && 0 < s <= nm.len && Repeats(dd, s, a, b)
    requires BlockFits(p, a, b, ia, ib) && BlockFits(dd, a, b, ia + LenA(p), ib + LenB(p))
    requires BlockFits(nm, a, b, ia + LenA(p) + LenA(dd), ib + LenB(p) + LenB(dd))
    ensures BlockFits(p.(len := p.len + s), a, b, ia, ib)
  {
    ShiftLead(dd, nm, s, a, b, ia + LenA(p), ib + LenB(p));
    BlockGrow(p, s, a, b, ia, ib);
  }

  /** A shift inside the list: the match before the block grows by what the block leaves behind. */
  lemma {:induction false} ShiftSpanInner<T>(p: DiffInfo, dd: DiffInfo, nm: DiffInfo, s: int, a: seq<T>, b: seq<T>, ia: int, ib: int)
    requires p.kind == Match && dd.kind != Match && nm.kind == Match && 0 < s <= nm.len && Repeats(dd, s, a, b)
    requires Fits([p, dd, nm], a, b, ia, ib)
    ensures Fits([p.(len := p.len + s)] + ([dd.(off := dd.off + s)] + Kept(nm.(off := nm.off + s, len := nm.len - s))), a, b, ia, ib)
  {
    var p2 := p.(len := p.len + s);
    TripleParts(p, dd, nm, a, b, ia, ib);
    ShiftGrow(p, dd, nm, s, a, b, ia, ib);
    ShiftPair(dd, nm, s, a, b, ia + LenA(p), ib + LenB(p));
    assert LenA(p2) == LenA(p) + s && LenB(p2) == LenB(p) + s;
    FitsCons(p2, [dd.(off := dd.off + s)] + Kept(nm.(off := nm.off + s, len := nm.len - s)), a, b, ia, ib);
  }

  /** A shift of the first block: a new match of what it leaves behind is put first. */
  lemma {:induction false} ShiftSpanFirst<T>(dd: DiffInfo, nm: DiffInfo, s: int, a: seq<T>, b: seq<T>)
    requires dd.kind != Match && nm.kind == Match && 0 < s <= nm.len && Repeats(dd, s, a, b)
    requires Fits([dd, nm], a, b, 0, 0)
    ensures Fits([DiffInfo(Match, 0, s)] + ([dd.(off := dd.off + s)] + Kept(nm.(off := nm.off + s, len := nm.len - s))), a, b, 0, 0)
  {
    var m := DiffInfo(Match, 0, s);
    PairParts(dd, nm, a, b, 0, 0);
    ShiftBlocks(dd, nm, s, a, b, 0, 0);
    ShiftPair(dd, nm, s, a, b, 0, 0);
    assert LenA(m) == s && LenB(m) == s;
    FitsCons(m, [dd.(off := dd.off + s)] + Kept(nm.(off := nm.off + s, len := nm.len - s)), a, b, 0, 0);
  }

  /** The blocks a shift rewrites: the match before the block (when there is one), the block and the match after it. */
  function Span(d: seq<DiffInfo>, i: int): seq<DiffInfo>
    requires 0 <= i && i + 1 < |d|
  {
    if i > 0 then [d[i - 1], d[i], d[i + 1]] else [d[i], d[i + 1]]
  }

  /** What a shift by s puts in place of Span(d, i), before an emptied match is dropped and merged. */
  function ShiftedSpan(d: seq<DiffInfo>, i: int, s: int): seq<DiffInfo>
    requires 0 <= i && i + 1 < |d|
  {
    Front(d, i, s) + ([d[i].(off := d[i].off + s)] + Kept(d[i + 1].(off := d[i + 1].off + s, len := d[i + 1].len - s)))
  }

  /** The blocks a shift rewrites account for as many elements of each kind. */
  lemma {:induction false} ShiftSpanTotals(f: DiffInfo, w: seq<DiffInfo>, dd: DiffInfo, nm: DiffInfo, s: int)
    requires f.kind == Match && nm.kind == Match
    requires forall k :: Total([f], k) == Total(w, k) + (if k == Match then s else 0)
    ensures forall k :: Total([f] + ([dd.(off := dd.off + s)] + Kept(nm.(off := nm.off + s, len := nm.len - s))), k) ==
                        Total(w + [dd, nm], k)
  {
    var dd2, nm2 := dd.(off := dd.off + s), nm.(off := nm.off + s, len := nm.len - s);
    TotalAppend([f], [dd2] + Kept(nm2));
    TotalAppend([dd2], Kept(nm2));
    TotalAppend(w, [dd, nm]);
    TotalPair(dd, nm);
    TotalSingle(dd);
    TotalSingle(nm);
    TotalSingle(dd2);
    if nm2.len != 0 {
      TotalSingle(nm2);
    }
  }

  /** A shift keeps the totals of the window it rewrites. */
  lemma {:induction false} ShiftSpanKeepsTotals(d: seq<DiffInfo>, i: int, s: int)
    requires 0 <= i && i + 1 < |d| && (i == 0 || d[i - 1].kind == Match) && d[i + 1].kind == Match
    ensures forall k :: Total(ShiftedSpan(d, i, s), k) == Total(Span(d, i), k)
  {
    var f := if i > 0 then d[i - 1].(len := d[i - 1].len + s) else DiffInfo(Match, 0, s);
    var w := if i > 0 then [d[i - 1]] else [];
    TotalSingle(f);
    if i > 0 {
      TotalSingle(d[i - 1]);
    }
    ShiftSpanTotals(f, w, d[i], d[i + 1], s);
    assert w + [d[i], d[i + 1]] == Span(d, i);
    assert Front(d, i, s) == [f];
  }

  /** A shift keeps the fit of the window it rewrites. */
  lemma {:induction false} ShiftSpanFits<T>(d: seq<DiffInfo>, i: int, s: int, a: seq<T>, b: seq<T>, ia: int, ib: int)
    requires 0 <= i && i + 1 < |d| && (i == 0 || d[i - 1].kind == Match) && d[i + 1].kind == Match
    requires d[i].kind != Match && 0 < s <= d[i + 1].len && Repeats(d[i], s, a, b)
    requires Fits(Span(d, i), a, b, ia, ib) && (i == 0 ==> ia == 0 && ib == 0)
    ensures Fits(ShiftedSpan(d, i, s), a, b, ia, ib)
  {
    var dd, nm := d[i], d[i + 1];
    var t := [dd.(off := dd.off + s)] + Kept(nm.(off := nm.off + s, len := nm.len - s));
    if i > 0 {
      var p := d[i - 1];
      assert Span(d, i) == [p, dd, nm];
      assert ShiftedSpan(d, i, s) == [p.(len := p.len + s)] + t;
      ShiftSpanInner(p, dd, nm, s, a, b, ia, ib);
    } else {
      assert Span(d, i) == [dd, nm];
      assert ShiftedSpan(d, i, s) == [DiffInfo(Match, 0, s)] + t;
      ShiftSpanFirst(dd, nm, s, a, b);
    }
  }

  /** The list split around the window a shift rewrites. */
  lemma {:induction false} SpanParts(d: seq<DiffInfo>, i: int)
    requires 0 <= i && i + 1 < |d|
    ensures d == Before(d, i) + Span(d, i) + d[i + 2..]
    ensures i == 0 ==> Before(d, i) == []
  {
    if i > 0 {
      assert d == d[..i - 1] + [d[i - 1], d[i], d[i + 1]] + d[i + 2..];
    } else {
      assert d == [d[0], d[1]] + d[2..];
    }
  }

  /** The list after the first steps of a shift. */
  function ShiftedList(d: seq<DiffInfo>, i: int, s: int): seq<DiffInfo>
    requires 0 <= i && i + 1 < |d|
  {
    Before(d, i) + ShiftedSpan(d, i, s) + d[i + 2..]
  }

  /** The first steps of a shift keep the totals of the list. */
  lemma {:induction false} ShiftedListTotals(d: seq<DiffInfo>, i: int, s: int)
    requires 0 <= i && i + 1 < |d| && (i == 0 || d[i - 1].kind == Match) && d[i + 1].kind == Match
    ensures forall k :: Total(ShiftedList(d, i, s), k) == Total(d, k)
  {
    SpanParts(d, i);
    ShiftSpanKeepsTotals(d, i, s);
    ReplaceTotals(Before(d, i), Span(d, i), ShiftedSpan(d, i, s), d[i + 2..]);
  }

  /** The first steps of a shift keep the fit of the list. */
  lemma {:induction false} ShiftedListFits<T>(d: seq<DiffInfo>, i: int, s: int, a: seq<T>, b: seq<T>)
    requires 0 <= i && i + 1 < |d| && (i == 0 || d[i - 1].kind == Match) && d[i + 1].kind == Match
    requires d[i].kind != Match && 0 < s <= d[i + 1].len && Repeats(d[i], s, a, b) && Fits(d, a, b, 0, 0)
    ensures Fits(ShiftedList(d, i, s), a, b, 0, 0)
  {
    var x, w, y := Before(d, i), Span(d, i), d[i + 2..];
    SpanParts(d, i);
    FitsApart(x, w, y, a, b);
    ShiftSpanFits(d, i, s, a, b, SumA(x), SumB(x));
    ShiftSpanKeepsTotals(d, i, s);
    FitsTogether(x, ShiftedSpan(d, i, s), y, a, b);
  }

  /** The shifted list, read block by block. */
  lemma {:induction false} ShiftedListShape(d: seq<DiffInfo>, i: int, s: int)
    requires 0 <= i && i + 1 < |d|
    ensures ShiftedList(d, i, s) ==
            Before(d, i) + Front(d, i, s) + [d[i].(off := d[i].off + s)] + Kept(d[i + 1].(off := d[i + 1].off + s, len := d[i + 1].len - s)) + d[i + 2..]
  {
    var x, f, t, y := Before(d, i), Front(d, i, s), [d[i].(off := d[i].off + s)], d[i + 2..];
    var k := Kept(d[i + 1].(off := d[i + 1].off + s, len := d[i + 1].len - s));
    assert x + (f + (t + k)) + y == x + f + t + k + y;
  }

  /** Dropping an emptied match and joining the blocks that then meet keeps the fit. */
  lemma {:induction false} SettledFits<T>(z: seq<DiffInfo>, dd: DiffInfo, nm: DiffInfo, y: seq<DiffInfo>, a: seq<T>, b: seq<T>)
    requires Fits(z + [dd] + Kept(nm) + y, a, b, 0, 0)
    ensures Fits(Settled(z, dd, nm, y), a, b, 0, 0)
  {
    if nm.len == 0 {
      assert z + [dd] + Kept(nm) + y == z + [dd] + y;
      if y != [] && y[0].kind == dd.kind {
        assert z + [dd] + y == z + [dd] + [y[0]] + y[1..];
        JoinFits(z, dd, y[0], y[1..], a, b);
      }
    }
  }

  /** Dropping an emptied match and joining the blocks that then meet keeps the totals. */
  lemma {:induction false} SettledTotals(z: seq<DiffInfo>, dd: DiffInfo, nm: DiffInfo, y: seq<DiffInfo>)
    ensures forall k :: Total(Settled(z, dd, nm, y), k) == Total(z + [dd] + Kept(nm) + y, k)
  {
    if nm.len == 0 {
      assert z + [dd] + Kept(nm) + y == z + [dd] + y;
      if y != [] && y[0].kind == dd.kind {
        assert z + [dd] + y == z + [dd, y[0]] + y[1..];
        MergeTotals(dd, y[0]);
        ReplaceTotals(z, [dd, y[0]], [dd.(len := dd.len + y[0].len)], y[1..]);
      }
    }
  }

  // ---------------------------------------------------------------------------------
  // A shift keeps neighbouring blocks of different kinds
  // ---------------------------------------------------------------------------------

  lemma {:induction false} CoalescedPush(u: seq<DiffInfo>, e: DiffInfo)
    requires Coalesced(u) && (u != [] ==> Last(u).kind != e.kind)
    ensures Coalesced(u + [e])
  {
    var v := u + [e];
    forall i, j | 0 <= i < |v| && 0 <= j < |v| && j == i + 1
      ensures v[i].kind != v[j].kind
    {
      if j < |u| {
        assert v[i] == u[i] && v[j] == u[j];
      }
    }
  }

  lemma {:induction false} CoalescedJoin(u: seq<DiffInfo>, w: seq<DiffInfo>)
    requires Coalesced(u) && Coalesced(w) && (u != [] && w != [] ==> Last(u).kind != w[0].kind)
    ensures Coalesced(u + w)
  {
    var v := u + w;
    forall i, j | 0 <= i < |v| && 0 <= j < |v| && j == i + 1
      ensures v[i].kind != v[j].kind
    {
      if j < |u| {
        assert v[i] == u[i] && v[j] == u[j];
      } else if i >= |u| {
        assert v[i] == w[i - |u|] && v[j] == w[j - |u|];
      }
    }
  }

  lemma {:induction false} CoalescedSlice(d: seq<DiffInfo>, lo: int, hi: int)
    requires Coalesced(d) && 0 <= lo <= hi <= |d|
    ensures Coalesced(d[lo..hi])
  {
    var v := d[lo..hi];
    forall i, j | 0 <= i < |v| && 0 <= j < |v| && j == i + 1
      ensures v[i].kind != v[j].kind
    {
      assert v[i] == d[lo + i] && v[j] == d[lo + j];
    }
  }

  /** The blocks before a shifted block end with a match and keep different kinds side by side. */
  lemma {:induction false} ShiftFrontKinds(d: seq<DiffInfo>, i: int, s: int)
    requires Coalesced(d) && 0 <= i && i + 1 < |d| && (i == 0 || d[i - 1].kind == Match)
    ensures var z := Before(d, i) + Front(d, i, s);
            Coalesced(z) && z != [] && Last(z).kind == Match
  {
    var x, f := Before(d, i), Front(d, i, s)[0];
    assert Front(d, i, s) == [f] && f.kind == Match;
    if i > 0 {
      CoalescedSlice(d, 0, i - 1);
      if i > 1 {
        assert Last(x) == d[i - 2];
      }
    }
    CoalescedPush(x, f);
  }

  /** Dropping an emptied match and joining the blocks that then meet keeps different kinds side by side. */
  lemma {:induction false} SettledKinds(z: seq<DiffInfo>, dd: DiffInfo, nm: DiffInfo, y: seq<DiffInfo>)
    requires Coalesced(z) && z != [] && Last(z).kind == Match && dd.kind != Match && nm.kind == Match
    requires Coalesced(y) && (y != [] ==> y[0].kind != Match)
    ensures Coalesced(Settled(z, dd, nm, y))
  {
    CoalescedPush(z, dd);
    var zd := z + [dd];
    assert Last(zd) == dd;
    if nm.len != 0 {
      CoalescedPush(zd, nm);
      assert Last(zd + [nm]) == nm;
      CoalescedJoin(zd + [nm], y);
    } else if y != [] && y[0].kind == dd.kind {
      var m := dd.(len := dd.len + y[0].len);
      CoalescedPush(z, m);
      CoalescedSlice(y, 1, |y|);
      assert Last(z + [m]) == m;
      if |y| > 1 {
        assert y[1..][0] == y[1];
      }
      assert y[1..] == y[1..|y|];
      CoalescedJoin(z + [m], y[1..]);
    } else {
      CoalescedJoin(zd, y);
    }
  }

  // ---------------------------------------------------------------------------------
  // The pass
  // ---------------------------------------------------------------------------------

  /** One shift keeps the fit, the totals and the alternation of kinds. */
  lemma {:induction false} ShiftOnceKeeps<T>(d: seq<DiffInfo>, i: int, s: int, a: seq<T>, b: seq<T>)
    requires 0 <= i && i + 1 < |d| && (i == 0 || d[i - 1].kind == Match) && d[i + 1].kind == Match
    requires d[i].kind != Match && 0 < s <= d[i + 1].len && Repeats(d[i], s, a, b)
    requires Fits(d, a, b, 0, 0) && Coalesced(d)
    ensures var r := ShiftOnce(d, i, s).0;
            Fits(r, a, b, 0, 0) && Coalesced(r) && forall k :: Total(r, k) == Total(d, k)
  {
    var z, y := Before(d, i) + Front(d, i, s), d[i + 2..];
    var dd, nm := d[i].(off := d[i].off + s), d[i + 1].(off := d[i + 1].off + s, len := d[i + 1].len - s);
    ShiftedShape(d, i, s);
    ShiftedListShape(d, i, s);
    ShiftedListFits(d, i, s, a, b);
    ShiftedListTotals(d, i, s);
    SettledFits(z, dd, nm, y, a, b);
    SettledTotals(z, dd, nm, y);
    ShiftFrontKinds(d, i, s);
    CoalescedSlice(d, i + 2, |d|);
    if y != [] {
      assert y[0] == d[i + 2];
    }
    SettledKinds(z, dd, nm, y);
  }

  /** The longest run a block can move by: as far as both the block and the match after it reach. */
  function MaxShift(d: seq<DiffInfo>, i: int): int
    requires 0 <= i && i + 1 < |d|
  {
    if d[i].len > d[i + 1].len then d[i + 1].len else d[i].len
  }


  /**
   * One turn of the pass at block i: returns the list and the block to look at next. As
   * written, every difference block with a block after it is shifted; corrected, only one
   * between two matches, or first and before a match.
   */
  function ShiftStep<T(==)>(d: seq<DiffInfo>, i: int, a: seq<T>, b: seq<T>, asWritten: bool): (r: (seq<DiffInfo>, int))
    requires 0 <= i < |d|
    ensures 0 <= r.1 && |r.0| - r.1 < |d| - i
  {
    if d[i].kind == Match then (d, i + 1)
    else if d[i].kind == In1 && i + 1 < |d| && d[i + 1].kind == In2 then (d, i + 2)
    else if i + 1 >= |d| || !(asWritten || ((i == 0 || d[i - 1].kind == Match) && d[i + 1].kind == Match)) then (d, i + 1)
    else
      var s := ShiftLen(Side(d[i], a, b), d[i].off, d[i].off + d[i].len, MaxShift(d, i));
      if s == 0 then (d, i + 1)
      else
        var r := ShiftOnce(d, i, s);
        (r.0, r.1 + 1)
  }

  /** A turn at a block between two matches shifts it by the run ShiftLen finds, when there is one. */
  lemma {:induction false} ShiftStepMoves<T>(d: seq<DiffInfo>, i: int, a: seq<T>, b: seq<T>, s: int)
    requires 0 <= i && i + 1 < |d| && d[i].kind != Match && (i == 0 || d[i - 1].kind == Match) && d[i + 1].kind == Match
    requires s == ShiftLen(Side(d[i], a, b), d[i].off, d[i].off + d[i].len, MaxShift(d, i))
    ensures ShiftStep(d, i, a, b, false) == if s == 0 then (d, i + 1) else (ShiftOnce(d, i, s).0, ShiftOnce(d, i, s).1 + 1)
  {
  }

  /** The pass from block i on. */
  function ShiftFrom<T(==)>(d: seq<DiffInfo>, i: int, a: seq<T>, b: seq<T>, asWritten: bool): seq<DiffInfo>
    requires 0 <= i
    decreases |d| - i
  {
    if i >= |d| then d
    else
      var r := ShiftStep(d, i, a, b, asWritten);
      ShiftFrom(r.0, r.1, a, b, asWritten)
  }

  /** A run ShiftLen finds is one a block can move by. */
  lemma {:induction false} ShiftLenRepeats<T>(d: seq<DiffInfo>, i: int, a: seq<T>, b: seq<T>)
    requires 0 <= i && i + 1 < |d|
    ensures var s := ShiftLen(Side(d[i], a, b), d[i].off, d[i].off + d[i].len, MaxShift(d, i));
            s != 0 ==> s <= d[i + 1].len && Repeats(d[i], s, a, b)
  {
    ShiftLenRun(Side(d[i], a, b), d[i].off, d[i].off + d[i].len, MaxShift(d, i));
  }

  /** A turn of the corrected pass keeps the fit, the totals and the alternation of kinds. */
  lemma {:induction false} ShiftStepKeeps<T>(d: seq<DiffInfo>, i: int, a: seq<T>, b: seq<T>)
    requires 0 <= i < |d| && Fits(d, a, b, 0, 0) && Coalesced(d)
    ensures var r := ShiftStep(d, i, a, b, false).0;
            Fits(r, a, b, 0, 0) && Coalesced(r) && forall k :: Total(r, k) == Total(d, k)
  {
    if d[i].kind != Match && !(d[i].kind == In1 && i + 1 < |d| && d[i + 1].kind == In2) &&
       i + 1 < |d| && (i == 0 || d[i - 1].kind == Match) && d[i + 1].kind == Match {
      var s := ShiftLen(Side(d[i], a, b), d[i].off, d[i].off + d[i].len, MaxShift(d, i));
      if s != 0 {
        ShiftLenRepeats(d, i, a, b);
        ShiftOnceKeeps(d, i, s, a, b);
        assert ShiftStep(d, i, a, b, false).0 == ShiftOnce(d, i, s).0;
      }
    }
  }

  /** The corrected pass keeps the fit, the totals and the alternation of kinds. */
  lemma {:induction false} ShiftKeeps<T>(d: seq<DiffInfo>, i: int, a: seq<T>, b: seq<T>)
    requires 0 <= i && Fits(d, a, b, 0, 0) && Coalesced(d)
    ensures var r := ShiftFrom(d, i, a, b, false);
            Fits(r, a, b, 0, 0) && Coalesced(r) && forall k :: Total(r, k) == Total(d, k)
    decreases |d| - i
  {
    if i < |d| {
      var r := ShiftStep(d, i, a, b, false);
      ShiftStepKeeps(d, i, a, b);
      ShiftKeeps(r.0, r.1, a, b);
    }
  }

  /** The boundary-shifting pass as it is meant to work. */
  function Shifted<T(==)>(d: seq<DiffInfo>, a: seq<T>, b: seq<T>): seq<DiffInfo>
  {
    ShiftFrom(d, 0, a, b, false)
  }

  /** The boundary-shifting pass as the source writes it. */
  function ShiftedAsWritten<T(==)>(d: seq<DiffInfo>, a: seq<T>, b: seq<T>): seq<DiffInfo>
  {
    ShiftFrom(d, 0, a, b, true)
  }

  /**
   * The pass changes where the differences are drawn, not what they say: the result still
   * describes the same elements of both sequences, with as many edits, and no two
   * neighbouring blocks of one kind.
   */
  lemma {:induction false} ShiftedDescribes<T>(d: seq<DiffInfo>, a: seq<T>, b: seq<T>)
    requires Fits(d, a, b, 0, 0) && Coalesced(d)
    ensures var r := Shifted(d, a, b);
            Fits(r, a, b, 0, 0) && Coalesced(r) && SumA(r) == SumA(d) && SumB(r) == SumB(d) && Edits(r) == Edits(d)
    ensures Covers(d, a, b) ==> Covers(Shifted(d, a, b), a, b)
  {
    ShiftKeeps(d, 0, a, b);
  }

  // ---------------------------------------------------------------------------------
  // A shift after a non-match
  // ---------------------------------------------------------------------------------

  /** A list the pass accepts: deletions, insertions and matches of "babba" against "abaaa". */
  function ShiftExample(): seq<DiffInfo>
  {
    [DiffInfo(In1, 0, 1), DiffInfo(Match, 1, 1), DiffInfo(In1, 2, 1), DiffInfo(Match, 3, 1),
     DiffInfo(In2, 2, 1), DiffInfo(Match, 4, 1), DiffInfo(In2, 4, 1)]
  }

  /** The example list from its fourth block on describes "babba" from 3 and "abaaa" from 1. */
  lemma ShiftExampleTail()
    ensures Fits(ShiftExample()[3..], "babba", "abaaa", 3, 1)
  {
    var d, a, b := ShiftExample(), "babba", "abaaa";
    FitsSingle(d[6], a, b, 5, 4);
    assert a[4..5] == b[3..4];
    FitsCons(d[5], d[6..], a, b, 4, 3);
    assert d[5..] == [d[5]] + d[6..];
    FitsCons(d[4], d[5..], a, b, 4, 2);
    assert d[4..] == [d[4]] + d[5..];
    assert a[3..4] == b[1..2];
    FitsCons(d[3], d[4..], a, b, 3, 1);
    assert d[3..] == [d[3]] + d[4..];
  }

  /** The example list describes all of "babba" and "abaaa", with no two neighbours of one kind and no insertion before a deletion. */
  lemma ShiftExampleDescribed()
    ensures Described(ShiftExample(), "babba", "abaaa", 5, 5)
  {
    var d, a, b := ShiftExample(), "babba", "abaaa";
    ShiftExampleTail();
    FitsCons(d[2], d[3..], a, b, 2, 1);
    assert d[2..] == [d[2]] + d[3..];
    assert a[1..2] == b[0..1];
    FitsCons(d[1], d[2..], a, b, 1, 0);
    assert d[1..] == [d[1]] + d[2..];
    FitsCons(d[0], d[1..], a, b, 0, 0);
    assert d == [d[0]] + d[1..];
    assert Total(d, Match) == 3 && Total(d, In1) == 2 && Total(d, In2) == 2;
  }

  /** The first shift of the example: the deletion of the second b moves past the b after it. */
  lemma ShiftExampleFirst(asWritten: bool)
    ensures ShiftFrom(ShiftExample(), 0, "babba", "abaaa", asWritten) ==
            ShiftFrom([DiffInfo(In1, 0, 1), DiffInfo(Match, 1, 2), DiffInfo(In1, 3, 1),
                       DiffInfo(In2, 2, 1), DiffInfo(Match, 4, 1), DiffInfo(In2, 4, 1)], 3, "babba", "abaaa", asWritten)
  {
    var d, a, b := ShiftExample(), "babba", "abaaa";
    assert ShiftLen(a, 0, 1, 1) == 0;
    assert ShiftStep(d, 0, a, b, asWritten) == (d, 1);
    assert ShiftStep(d, 1, a, b, asWritten) == (d, 2);
    assert ShiftLen(a, 2, 3, 1) == 1;
    ShiftedShape(d, 2, 1);
    var d1 := [DiffInfo(In1, 0, 1), DiffInfo(Match, 1, 2), DiffInfo(In1, 3, 1),
               DiffInfo(In2, 2, 1), DiffInfo(Match, 4, 1), DiffInfo(In2, 4, 1)];
    assert ShiftResult(d, 2, 1) == d1;
    assert ShiftOnce(d, 2, 1).1 == 2;
    assert ShiftStep(d, 2, a, b, asWritten) == (d1, 3);
  }

  /** The second shift of the pass as written: the insertion behind the moved deletion moves as well. */
  lemma ShiftExampleSecond()
    ensures var d1 := [DiffInfo(In1, 0, 1), DiffInfo(Match, 1, 2), DiffInfo(In1, 3, 1),
                       DiffInfo(In2, 2, 1), DiffInfo(Match, 4, 1), DiffInfo(In2, 4, 1)];
            ShiftStep(d1, 3, "babba", "abaaa", true) ==
            ([DiffInfo(In1, 0, 1), DiffInfo(Match, 1, 2), DiffInfo(In1, 3, 2), DiffInfo(In2, 3, 2)], 3)
  {
    var d1 := [DiffInfo(In1, 0, 1), DiffInfo(Match, 1, 2), DiffInfo(In1, 3, 1),
               DiffInfo(In2, 2, 1), DiffInfo(Match, 4, 1), DiffInfo(In2, 4, 1)];
    assert ShiftLen("abaaa", 2, 3, 1) == 1;
    ShiftedShape(d1, 3, 1);
    assert ShiftResult(d1, 3, 1) == [DiffInfo(In1, 0, 1), DiffInfo(Match, 1, 2), DiffInfo(In1, 3, 2), DiffInfo(In2, 3, 2)];
    assert ShiftOnce(d1, 3, 1).1 == 2;
  }

  /** The pass as written on the example list. */
  lemma ShiftExampleAsWritten()
    ensures ShiftedAsWritten(ShiftExample(), "babba", "abaaa") ==
            [DiffInfo(In1, 0, 1), DiffInfo(Match, 1, 2), DiffInfo(In1, 3, 2), DiffInfo(In2, 3, 2)]
  {
    ShiftExampleFirst(true);
    ShiftExampleSecond();
    var d2 := [DiffInfo(In1, 0, 1), DiffInfo(Match, 1, 2), DiffInfo(In1, 3, 2), DiffInfo(In2, 3, 2)];
    assert ShiftStep(d2, 3, "babba", "abaaa", true) == (d2, 4);
  }

  /**
   * With a = "babba" and b = "abaaa", the example list describes the pair. After the pass
   * moves the second deletion down, a deletion stands right before the insertion after it,
   * and the pass as written still shifts that insertion: the deletion in front of it grows
   * by one element while the match after it shrinks by one, so the result still accounts
   * for the five elements of a but for only four of b.
   */
  lemma ShiftAsWrittenBreaks()
    ensures Covers(ShiftExample(), "babba", "abaaa") && Coalesced(ShiftExample()) && NoIn2In1(ShiftExample())
    ensures var r := ShiftedAsWritten(ShiftExample(), "babba", "abaaa");
            r == [DiffInfo(In1, 0, 1), DiffInfo(Match, 1, 2), DiffInfo(In1, 3, 2), DiffInfo(In2, 3, 2)] &&
            SumB(r) == 4 && !Covers(r, "babba", "abaaa")
  {
    ShiftExampleDescribed();
    ShiftExampleAsWritten();
    var r := [DiffInfo(In1, 0, 1), DiffInfo(Match, 1, 2), DiffInfo(In1, 3, 2), DiffInfo(In2, 3, 2)];
    assert Total(r, Match) == 2 && Total(r, In2) == 2;
  }

  /** On the same list the corrected pass leaves the insertion where it is, and the result still describes the pair. */
  lemma ShiftCorrected()
    ensures var r := Shifted(ShiftExample(), "babba", "abaaa");
            r == [DiffInfo(In1, 0, 1), DiffInfo(Match, 1, 2), DiffInfo(In1, 3, 1),
                  DiffInfo(In2, 2, 1), DiffInfo(Match, 4, 1), DiffInfo(In2, 4, 1)] &&
            Covers(r, "babba", "abaaa") && Coalesced(r)
  {
    var a, b := "babba", "abaaa";
    ShiftExampleDescribed();
    ShiftExampleFirst(false);
    var d1 := [DiffInfo(In1, 0, 1), DiffInfo(Match, 1, 2), DiffInfo(In1, 3, 1),
               DiffInfo(In2, 2, 1), DiffInfo(Match, 4, 1), DiffInfo(In2, 4, 1)];
    assert ShiftStep(d1, 3, a, b, false) == (d1, 4);
    assert ShiftStep(d1, 4, a, b, false) == (d1, 5);
    assert ShiftStep(d1, 5, a, b, false) == (d1, 6);
    ShiftedDescribes(ShiftExample(), a, b);
  }

  // ---------------------------------------------------------------------------------
  // A shift that puts an insertion before a deletion
  // ---------------------------------------------------------------------------------

  /** A list describing "xy" against "xx": insert an x, keep an x, delete the y. */
  function ReorderExample(): seq<DiffInfo>
  {
    [DiffInfo(In2, 0, 1), DiffInfo(Match, 0, 1), DiffInfo(In1, 1, 1)]
  }

  /**
   * The pass can leave an insertion right before a deletion, which is why ShiftedDescribes
   * says nothing about that order: on "xy" against "xx" the insertion moves past the x after
   * it, a match is put first, the emptied match is erased and the insertion now precedes the
   * deletion that followed the match.
   */
  lemma ShiftReorders()
    ensures Covers(ReorderExample(), "xy", "xx") && Coalesced(ReorderExample()) && NoIn2In1(ReorderExample())
    ensures var r := Shifted(ReorderExample(), "xy", "xx");
            r == [DiffInfo(Match, 0, 1), DiffInfo(In2, 1, 1), DiffInfo(In1, 1, 1)] && !NoIn2In1(r)
  {
    var d, a, b := ReorderExample(), "xy", "xx";
    FitsSingle(d[2], a, b, 1, 2);
    assert d[2..] == [d[2]];
    assert a[0..1] == b[1..2];
    FitsCons(d[1], d[2..], a, b, 0, 1);
    assert d[1..] == [d[1]] + d[2..];
    FitsCons(d[0], d[1..], a, b, 0, 0);
    assert d == [d[0]] + d[1..];
    assert ShiftLen(b, 0, 1, 1) == 1;
    ShiftedShape(d, 0, 1);
    var r := [DiffInfo(Match, 0, 1), DiffInfo(In2, 1, 1), DiffInfo(In1, 1, 1)];
    assert ShiftResult(d, 0, 1) == r;
    assert ShiftOnce(d, 0, 1).1 == 1;
    assert ShiftStep(d, 0, a, b, false) == (r, 2);
    assert ShiftStep(r, 2, a, b, false) == (r, 3);
  }
}

=== FILE: snakes.dfy ===
/**
 * The values the middle-snake search of DiffCalc computes, as functions of the two sequences:
 * the furthest point the forward search reaches on diagonal k after d edits, the nearest
 * point the backward search reaches, and the facts that make the search correct.
 * Diagonal k holds the points (x, x - k); the backward search numbers its diagonals
 * relative to the end point, so its diagonal k is the absolute diagonal Delta + k with
 * Delta = |A| - |B|.
 */
module Snakes {
  import opened EditGraph

  /** x where the run of diagonal steps from (x, y) over equal elements ends. */
  function Slide<T(==)>(A: seq<T>, B: seq<T>, x: int, y: int): (r: int)
    ensures x <= r
    decreases |A| - x
  {
    if 0 <= x < |A| && 0 <= y < |B| && A[x] == B[y] then Slide(A, B, x + 1, y + 1) else x
  }

  /** x where the run of diagonal steps back from (x, y) over equal elements ends. */
  function SlideBack<T(==)>(A: seq<T>, B: seq<T>, x: int, y: int): (r: int)
    ensures r <= x
    decreases x
  {
    if 0 < x <= |A| && 0 < y <= |B| && A[x - 1] == B[y - 1] then SlideBack(A, B, x - 1, y - 1) else x
  }

  /** Diagonal k is searched in round d: it is within d of the start and has the parity of d. */
  predicate OnRound(d: int, k: int)
  {
    0 <= d && -d <= k <= d && (d - k) % 2 == 0
  }

  /** x where round d of the forward search starts on diagonal k, before following its snake. */
  function FwdStart<T(==)>(A: seq<T>, B: seq<T>, d: int, k: int): int
    requires OnRound(d, k)
    decreases d, 0
  {
    if d == 0 then 0
    else if k == -d || (k != d && Fwd(A, B, d - 1, k - 1) < Fwd(A, B, d - 1, k + 1)) then Fwd(A, B, d - 1, k + 1)
    else Fwd(A, B, d - 1, k - 1) + 1
  }

  /** The furthest x the forward search reaches on diagonal k in round d. */
  function Fwd<T(==)>(A: seq<T>, B: seq<T>, d: int, k: int): int
    requires OnRound(d, k)
    decreases d, 1
  {
    var x := FwdStart(A, B, d, k);
    Slide(A, B, x, x - k)
  }

  /** x where round d of the backward search starts on its diagonal k, before following its snake. */
  function BwdStart<T(==)>(A: seq<T>, B: seq<T>, d: int, k: int): int
    requires OnRound(d, k)
    decreases d, 0
  {
    if d == 0 then |A|
    else if k == d || (k != -d && Bwd(A, B, d - 1, k - 1) < Bwd(A, B, d - 1, k + 1)) then Bwd(A, B, d - 1, k - 1)
    else Bwd(A, B, d - 1, k + 1) - 1
  }

  /** The smallest x the backward search reaches on its diagonal k in round d. */
  function Bwd<T(==)>(A: seq<T>, B: seq<T>, d: int, k: int): int
    requires OnRound(d, k)
    decreases d, 1
  {
    var x := BwdStart(A, B, d, k);
    SlideBack(A, B, x, x - (|A| - |B| + k))
  }

  /**
   * Round d of the forward pass detects an overlap on diagonal k: the lengths differ by an
   * odd number, k is within reach of the backward search of round d - 1, and the forward
   * point is at or past the backward one.
   */
  predicate FwdHit<T(==)>(A: seq<T>, B: seq<T>, d: int, k: int)
  {
    var delta := |A| - |B|;
    delta % 2 == 1 && OnRound(d, k) && delta - (d - 1) <= k <= delta + (d - 1) &&
    Fwd(A, B, d, k) >= Bwd(A, B, d - 1, k - delta)
  }

  /**
   * Round d of the backward pass detects an overlap on its diagonal k: the lengths differ
   * by an even number, the diagonal is within reach of the forward search of round d, and
   * the backward point is at or before the forward one.
   */
  predicate BwdHit<T(==)>(A: seq<T>, B: seq<T>, d: int, k: int)
  {
    var delta := |A| - |B|;
    delta % 2 == 0 && OnRound(d, k) && -d <= delta + k <= d &&
    Bwd(A, B, d, k) <= Fwd(A, B, d, delta + k)
  }

  // ---------------------------------------------------------------------------------
  // Snakes
  // ---------------------------------------------------------------------------------

  /** A snake is a path without edits, and it stops where the next elements differ. */
  lemma {:induction false} SlideFacts<T>(A: seq<T>, B: seq<T>, e: nat, x0: int, y0: int, x: int, y: int)
    requires Path(A, B, e, x0, y0, x, y)
    ensures var r := Slide(A, B, x, y);
            Path(A, B, e, x0, y0, r, r - (x - y)) &&
            !(0 <= r < |A| && 0 <= r - (x - y) < |B| && A[r] == B[r - (x - y)])
    decreases |A| - x
  {
    if 0 <= x < |A| && 0 <= y < |B| && A[x] == B[y] {
      assert DiagInto(A, B, x + 1, y + 1);
      SlideFacts(A, B, e, x0, y0, x + 1, y + 1);
    }
  }

  /** A snake stops where the next elements differ. */
  lemma {:induction false} SlideStops<T>(A: seq<T>, B: seq<T>, x: int, y: int)
    ensures var r := Slide(A, B, x, y);
            !(0 <= r < |A| && 0 <= r - (x - y) < |B| && A[r] == B[r - (x - y)])
    decreases |A| - x
  {
    if 0 <= x < |A| && 0 <= y < |B| && A[x] == B[y] {
      SlideStops(A, B, x + 1, y + 1);
    }
  }

  /** Inside the grid a snake stays inside it and pairs equal runs. */
  lemma {:induction false} SlideMatch<T>(A: seq<T>, B: seq<T>, x: int, y: int)
    requires 0 <= x <= |A| && 0 <= y <= |B|
    ensures var r := Slide(A, B, x, y);
            r <= |A| && r - (x - y) <= |B| && A[x..r] == B[y..r - (x - y)]
    decreases |A| - x
  {
    if x < |A| && y < |B| && A[x] == B[y] {
      SlideMatch(A, B, x + 1, y + 1);
      var r := Slide(A, B, x, y);
      var q := r - (x - y);
      assert r == Slide(A, B, x + 1, y + 1) && q == r - ((x + 1) - (y + 1));
      assert A[x..r] == [A[x]] + A[x + 1..r];
      assert B[y..q] == [B[y]] + B[y + 1..q];
    }
  }

  /** Running a snake back is running the snake of the reversed sequences forward. */
  lemma {:induction false} SlideBackMirror<T>(A: seq<T>, B: seq<T>, x: int, y: int)
    ensures SlideBack(A, B, x, y) == |A| - Slide(Rev(A), Rev(B), |A| - x, |B| - y)
    decreases if x > 0 then x else 0
  {
    if 0 < x <= |A| && 0 < y <= |B| && A[x - 1] == B[y - 1] {
      SlideBackMirror(A, B, x - 1, y - 1);
    }
  }

  // ---------------------------------------------------------------------------------
  // Forward search
  // ---------------------------------------------------------------------------------

  /** Forward points never lie before the start of either sequence. */
  lemma {:induction false} FwdBounds<T>(A: seq<T>, B: seq<T>, d: int, k: int)
    requires OnRound(d, k)
    ensures 0 <= FwdStart(A, B, d, k) <= Fwd(A, B, d, k)
    ensures 0 <= FwdStart(A, B, d, k) - k
    decreases d
  {
    if d > 0 {
      if k == -d || (k != d && Fwd(A, B, d - 1, k - 1) < Fwd(A, B, d - 1, k + 1)) {
        FwdBounds(A, B, d - 1, k + 1);
      } else {
        FwdBounds(A, B, d - 1, k - 1);
      }
    }
  }

  /** Soundness of the forward search: the point of round d on diagonal k is reached with d edits. */
  lemma {:induction false} FwdReach<T>(A: seq<T>, B: seq<T>, d: int, k: int)
    requires OnRound(d, k)
    ensures Path(A, B, d, 0, 0, Fwd(A, B, d, k), Fwd(A, B, d, k) - k)
    decreases d, 1
  {
    var s := FwdStart(A, B, d, k);
    FwdStartReach(A, B, d, k);
    SlideFacts(A, B, d, 0, 0, s, s - k);
  }

  /**
   * The start of round d on diagonal k is reached with d edits, and for d > 0 it is one
   * edit past the furthest point of a neighbouring diagonal of round d - 1.
   */
  lemma {:induction false} FwdStartReach<T>(A: seq<T>, B: seq<T>, d: int, k: int)
    requires OnRound(d, k)
    ensures var s := FwdStart(A, B, d, k);
            Path(A, B, d, 0, 0, s, s - k) &&
            (0 < d ==> Path(A, B, d - 1, 0, 0, s, s - k - 1) || Path(A, B, d - 1, 0, 0, s - 1, s - k))
    decreases d, 0
  {
    var s := FwdStart(A, B, d, k);
    if d == 0 {
      assert s == 0 && Path(A, B, d, 0, 0, s, s - k);
    } else if k == -d || (k != d && Fwd(A, B, d - 1, k - 1) < Fwd(A, B, d - 1, k + 1)) {
      var p := Fwd(A, B, d - 1, k + 1);
      assert s == p;
      FwdReach(A, B, d - 1, k + 1);
      PathDown(A, B, d - 1, 0, 0, p, p - (k + 1));
    } else {
      var p := Fwd(A, B, d - 1, k - 1);
      assert s == p + 1;
      FwdReach(A, B, d - 1, k - 1);
      PathRight(A, B, d - 1, 0, 0, p, p - (k - 1));
    }
  }

  /** Optimality of the forward search: no path with d edits gets further along diagonal k. */
  lemma {:induction false} FwdMax<T>(A: seq<T>, B: seq<T>, d: int, k: int, x: int)
    requires OnRound(d, k) && Path(A, B, d, 0, 0, x, x - k)
    ensures x <= Fwd(A, B, d, k)
    decreases d, x
  {
    var y := x - k;
    if x == 0 && y == 0 {
      FwdBounds(A, B, d, k);
    } else if 0 < x && 0 < y && DiagInto(A, B, x, y) && Path(A, B, d, 0, 0, x - 1, y - 1) {
      assert (x - 1) - k == y - 1;
      FwdMax(A, B, d, k, x - 1);
      var s := FwdStart(A, B, d, k);
      assert Fwd(A, B, d, k) == Slide(A, B, s, s - k) && s - (s - k) == k;
      SlideStops(A, B, s, s - k);
    } else if 0 < d && 0 < x && Path(A, B, d - 1, 0, 0, x - 1, y) {
      PathDiagBound(A, B, d - 1, 0, 0, x - 1, y);
      assert (x - 1) - (k - 1) == y && OnRound(d - 1, k - 1);
      FwdMax(A, B, d - 1, k - 1, x - 1);
      FwdStartAbove(A, B, d, k);
      FwdBounds(A, B, d, k);
    } else {
      assert 0 < d && 0 < y && Path(A, B, d - 1, 0, 0, x, y - 1);
      PathDiagBound(A, B, d - 1, 0, 0, x, y - 1);
      assert x - (k + 1) == y - 1 && OnRound(d - 1, k + 1);
      FwdMax(A, B, d - 1, k + 1, x);
      FwdStartAbove(A, B, d, k);
      FwdBounds(A, B, d, k);
    }
  }

  /** The start of round d > 0 on diagonal k is past its neighbours' furthest points of round d - 1. */
  lemma {:induction false} FwdStartAbove<T>(A: seq<T>, B: seq<T>, d: int, k: int)
    requires OnRound(d, k) && 0 < d
    ensures k != -d ==> Fwd(A, B, d - 1, k - 1) + 1 <= FwdStart(A, B, d, k)
    ensures k != d ==> Fwd(A, B, d - 1, k + 1) <= FwdStart(A, B, d, k)
  {
  }

  // ---------------------------------------------------------------------------------
  // Backward search, as the forward search of the reversed sequences
  // ---------------------------------------------------------------------------------

  /** The backward search is the forward search of the reversed sequences, on the mirrored diagonal. */
  lemma {:induction false} BwdMirror<T>(A: seq<T>, B: seq<T>, d: int, k: int)
    requires OnRound(d, k)
    ensures Bwd(A, B, d, k) == |A| - Fwd(Rev(A), Rev(B), d, -k)
    decreases d, 1
  {
    BwdStartMirrors(A, B, d, k);
    BwdSlideMirror(A, B, d, k);
  }

  /** The same for the start of round d. */
  lemma {:induction false} BwdStartMirrors<T>(A: seq<T>, B: seq<T>, d: int, k: int)
    requires OnRound(d, k)
    ensures BwdStart(A, B, d, k) == |A| - FwdStart(Rev(A), Rev(B), d, -k)
    decreases d, 0
  {
    if d > 0 {
      if k != -d {
        BwdMirror(A, B, d - 1, k - 1);
      }
      if k != d {
        BwdMirror(A, B, d - 1, k + 1);
      }
      BwdStartMirror(A, B, d, k);
    }
  }

  lemma {:induction false} BwdStartMirror<T>(A: seq<T>, B: seq<T>, d: int, k: int)
    requires OnRound(d, k) && d > 0
    requires k != -d ==> Bwd(A, B, d - 1, k - 1) == |A| - Fwd(Rev(A), Rev(B), d - 1, -(k - 1))
    requires k != d ==> Bwd(A, B, d - 1, k + 1) == |A| - Fwd(Rev(A), Rev(B), d - 1, -(k + 1))
    ensures BwdStart(A, B, d, k) == |A| - FwdStart(Rev(A), Rev(B), d, -k)
  {
  }

  lemma {:induction false} BwdSlideMirror<T>(A: seq<T>, B: seq<T>, d: int, k: int)
    requires OnRound(d, k)
    requires BwdStart(A, B, d, k) == |A| - FwdStart(Rev(A), Rev(B), d, -k)
    ensures Bwd(A, B, d, k) == |A| - Fwd(Rev(A), Rev(B), d, -k)
  {
    var s := BwdStart(A, B, d, k);
    SlideBackMirror(A, B, s, s - (|A| - |B| + k));
  }

  /** Backward points never lie past the end of either sequence. */
  lemma {:induction false} BwdBounds<T>(A: seq<T>, B: seq<T>, d: int, k: int)
    requires OnRound(d, k)
    ensures Bwd(A, B, d, k) <= BwdStart(A, B, d, k) <= |A|
    ensures BwdStart(A, B, d, k) - (|A| - |B| + k) <= |B|
  {
    BwdMirror(A, B, d, k);
    BwdStartMirrors(A, B, d, k);
    FwdBounds(Rev(A), Rev(B), d, -k);
  }

  /** Soundness of the backward search: the end is reached from its point of round d with d edits. */
  lemma {:induction false} BwdReach<T>(A: seq<T>, B: seq<T>, d: int, k: int)
    requires OnRound(d, k)
    ensures var x := Bwd(A, B, d, k);
            Path(A, B, d, x, x - (|A| - |B| + k), |A|, |B|)
  {
    BwdMirror(A, B, d, k);
    FwdReach(Rev(A), Rev(B), d, -k);
    var x := Bwd(A, B, d, k);
    var xr := Fwd(Rev(A), Rev(B), d, -k);
    RevPathToEnd(A, B, d, x, x - (|A| - |B| + k), xr, xr + k);
  }

  /**
   * The end is reached from the start of round d of the backward search with d edits, and
   * for d > 0 from one edit past that start with d - 1 edits.
   */
  lemma {:induction false} BwdStartReach<T>(A: seq<T>, B: seq<T>, d: int, k: int)
    requires OnRound(d, k)
    ensures var s, kr := BwdStart(A, B, d, k), |A| - |B| + k;
            Path(A, B, d, s, s - kr, |A|, |B|) &&
            (0 < d ==> Path(A, B, d - 1, s, s - kr + 1, |A|, |B|) || Path(A, B, d - 1, s + 1, s - kr, |A|, |B|))
  {
    BwdStartMirrors(A, B, d, k);
    FwdStartReach(Rev(A), Rev(B), d, -k);
    BwdStartFromRev(A, B, d, k);
  }

  lemma {:induction false} BwdStartFromRev<T>(A: seq<T>, B: seq<T>, d: int, k: int)
    requires OnRound(d, k)
    requires var sr := FwdStart(Rev(A), Rev(B), d, -k);
             BwdStart(A, B, d, k) == |A| - sr &&
             Path(Rev(A), Rev(B), d, 0, 0, sr, sr + k) &&
             (0 < d ==> Path(Rev(A), Rev(B), d - 1, 0, 0, sr, sr + k - 1) ||
                        Path(Rev(A), Rev(B), d - 1, 0, 0, sr - 1, sr + k))
    ensures var s, kr := BwdStart(A, B, d, k), |A| - |B| + k;
            Path(A, B, d, s, s - kr, |A|, |B|) &&
            (0 < d ==> Path(A, B, d - 1, s, s - kr + 1, |A|, |B|) || Path(A, B, d - 1, s + 1, s - kr, |A|, |B|))
  {
    var s, kr := BwdStart(A, B, d, k), |A| - |B| + k;
    var sr := FwdStart(Rev(A), Rev(B), d, -k);
    RevPathToEnd(A, B, d, s, s - kr, sr, sr + k);
    if 0 < d {
      if Path(Rev(A), Rev(B), d - 1, 0, 0, sr, sr + k - 1) {
        RevPathToEnd(A, B, d - 1, s, s - kr + 1, sr, sr + k - 1);
      } else {
        RevPathToEnd(A, B, d - 1, s + 1, s - kr, sr - 1, sr + k);
      }
    }
  }

  /** A path from (x, y) to the end is a path of the reversed sequences from their start. */
  lemma {:induction false} RevPathToEnd<T>(A: seq<T>, B: seq<T>, e: nat, x: int, y: int, xr: int, yr: int)
    requires xr == |A| - x && yr == |B| - y
    ensures Path(A, B, e, x, y, |A|, |B|) <==> Path(Rev(A), Rev(B), e, 0, 0, xr, yr)
  {
    PathRevIff(A, B, e, x, y, |A|, |B|);
  }

  /** Optimality of the backward search: no point of its diagonal before it reaches the end with d edits. */
  lemma {:induction false} BwdMin<T>(A: seq<T>, B: seq<T>, d: int, k: int, x: int)
    requires OnRound(d, k) && Path(A, B, d, x, x - (|A| - |B| + k), |A|, |B|)
    ensures Bwd(A, B, d, k) <= x
  {
    var N, M := |A|, |B|;
    BwdMirror(A, B, d, k);
    RevPathToEnd(A, B, d, x, x - (N - M + k), N - x, N - x + k);
    FwdMax(Rev(A), Rev(B), d, -k, N - x);
  }

  /** A snake back is a path without edits, and it stops where the previous elements differ. */
  lemma {:induction false} SlideBackFacts<T>(A: seq<T>, B: seq<T>, e: nat, x: int, y: int, x1: int, y1: int)
    requires Path(A, B, e, x, y, x1, y1)
    ensures var r := SlideBack(A, B, x, y);
            Path(A, B, e, r, r - (x - y), x1, y1) &&
            !(0 < r <= |A| && 0 < r - (x - y) <= |B| && A[r - 1] == B[r - (x - y) - 1])
    decreases if x > 0 then x else 0
  {
    if 0 < x <= |A| && 0 < y <= |B| && A[x - 1] == B[y - 1] {
      assert Path(A, B, 0, x - 1, y - 1, x, y);
      PathConcat(A, B, 0, e, x - 1, y - 1, x, y, x1, y1);
      SlideBackFacts(A, B, e, x - 1, y - 1, x1, y1);
    }
  }

  /** Inside the grid a snake back stays inside it and pairs equal runs. */
  lemma {:induction false} SlideBackMatch<T>(A: seq<T>, B: seq<T>, x: int, y: int)
    requires 0 <= x <= |A| && 0 <= y <= |B|
    ensures var r := SlideBack(A, B, x, y);
            0 <= r && 0 <= r - (x - y) && A[r..x] == B[r - (x - y)..y]
    decreases x
  {
    if 0 < x && 0 < y && A[x - 1] == B[y - 1] {
      SlideBackMatch(A, B, x - 1, y - 1);
      var r := SlideBack(A, B, x, y);
      var q := r - (x - y);
      assert r == SlideBack(A, B, x - 1, y - 1) && q == r - ((x - 1) - (y - 1));
      assert A[r..x] == A[r..x - 1] + [A[x - 1]];
      assert B[q..y] == B[q..y - 1] + [B[y - 1]];
    }
  }

  /** A common run from (x, y) is no longer than the snake from there. */
  lemma {:induction false} SlideMax<T>(A: seq<T>, B: seq<T>, x: int, y: int, j: int)
    requires 0 <= x && 0 <= y && 0 <= j && x + j <= |A| && y + j <= |B| && A[x..x + j] == B[y..y + j]
    ensures x + j <= Slide(A, B, x, y)
    decreases j
  {
    if j > 0 {
      assert A[x] == A[x..x + j][0] && B[y] == B[y..y + j][0];
      assert A[x + 1..x + j] == A[x..x + j][1..] && B[y + 1..y + j] == B[y..y + j][1..];
      SlideMax(A, B, x + 1, y + 1, j - 1);
    }
  }
}
